=== FILE: README.md ===
# Job application portal: intake, record store and client list

This project models two pieces of a small job-application portal and proves properties about them.

The first piece is the server (`server.js`). A multipart intake stage guards an applicant's uploads:
- an extension/MIME filter;
- a 5 MiB size limit;
- per-field caps: one resume, one cover letter and three additional documents.

A file part whose file name is empty is skipped before any of these checks. A browser sends such a part for a file input left empty. The multipart parser also reports the names "." and ".." as empty. Nothing is written for a skipped part, and it counts toward no cap.

The parser also caps every text field at 1 MiB, counted in UTF-8 bytes, because the server sets only the file size limit and the parser keeps its other defaults. The first text field over the cap aborts the request with 400 "Field value too long", unless a file part before it failed first. The files written before it are removed. `Upload.BodyIntake` and `Submission.SubmitRequest` take the whole body, text fields and file parts, in arrival order. `Upload.Intake` and `Submission.Submit` take the file parts alone.

Each accepted file is stored under a generated name. A PostgreSQL store keeps two tables, `applications` and `application_files`, and the server performs these operations on it:
- Submit: one transaction inserts an application and its file rows, all or nothing.
- Status update, with its validation and not-found handling.
- Delete: collects the file paths, deletes with cascade, and unlinks the files best-effort before the COMMIT.
- List and fetch-by-id, each with the application's files aggregated.

The disk is an abstract set of paths. The clock and the random number generator are parameters.

The second piece is the browser script (`script.js`). It keeps an in-memory list of application records and offers these operations:
- append on submit;
- toggle status;
- delete by id;
- the pending/reviewed/total counters;
- the search/status/position filter.

It also has pure helpers:
- the extension-based file icon;
- the viewer dispatch for a stored document;
- the 5 MiB and three-file checks run when a file input changes.

The server is modelled as written. The table schema is a parameter:
- `Records.CreatedSchema` is the schema the server actually creates.
- `Records.IntendedSchema` adds a `status` column and a wide enough `file_type`.

Likewise, the upload filter is a parameter:
- `Upload.AsWritten` is the unanchored regular-expression test the code runs.
- `Upload.Corrected` is the exact test its error message describes.

The findings below rest on these two choices.

Modules:
- `Base`: Option, Filter/Count/IsSubsequence on sequences.
- `Text`: ASCII lower case, substring search, last index, decimal rendering, UTF-8 length, the VARCHAR(n) rule.
- `Upload`: the multipart intake.
- `Records`: the schema, rows, the store invariant, responses.
- `Submission`: POST.
- `Queries`: GET list and GET by id.
- `Lifecycle`: PATCH status and DELETE.
- `ClientFiles`: icon, viewer and preview checks.
- `ClientList`: the browser's record list.

## Model

| member | source | states |
|---|---|---|
| Text.Contains | server.js:36-38 | An unanchored one-literal regular expression succeeds exactly when the literal occurs somewhere in the text. |
| Text.Utf8Length | server.js:31-33 | The parser's byte count of a text value: at least one and at most four bytes per character. |
| Text.Utf8LengthOfAscii | server.js:31-33 | An ASCII value has as many bytes as characters. |
| Text.Utf8LengthAppend | server.js:31-33 | The byte count of a concatenation is the sum of the parts' counts. |
| Text.FitVarchar | server.js:64-68 | A VARCHAR(n) value is accepted unchanged when it is short enough. A longer one is refused exactly when a non-space character lies beyond n. An accepted value is a prefix of at most n characters. |
| Upload.ExtName | server.js:37 | `path.extname` yields either nothing or a dot followed by dot-free text, and the name ends with it. |
| Upload.ExtNameOfDotted | server.js:37 | The extension of `stem.tail` with a non-empty stem is `.tail`. |
| Upload.DotFileHasNoExt | server.js:37 | A name whose only dot leads has no extension. |
| Upload.ExtensionTestIsUnanchored | server.js:36-37 | For a name `stem.tail`, the extension test passes exactly when the lower-cased `tail` contains an alternative anywhere. So `.pdfx` passes too. |
| Upload.ExeRejected | server.js:36-44 | A file whose extension is `exe` in any letter case (`.exe`, `.EXE`, `.Exe`) is refused whatever MIME type it declares. |
| Upload.DocxAlternativeRedundant | server.js:36 | Every text containing "docx" already contains "doc". |
| Upload.PatternIgnoresLeadingDot | server.js:36-37 | The leading dot of an extension never affects the pattern. |
| Upload.PlainTextAndWordMimeRejected | server.js:36-43 | The MIME test refuses `text/plain` and `application/msword`, whatever the file is called. |
| Upload.IntendedFilterIsExact | server.js:43 | The corrected filter accepts exactly the listed extensions, in any case, together with a registered MIME type. |
| Upload.PlainTextAcceptedWhenCorrected | server.js:43 | The corrected filter accepts a `.txt` file of type `text/plain`. |
| Upload.StoredFilename | server.js:25-28 | The disk name starts with `field-`, is followed by a digit, and ends with the original extension. |
| Upload.StoredFilenamesDistinct | server.js:25-28 | Files of accepted fields stored under different clock/random pairs never share a disk name. |
| Upload.Step | server.js:31-46 | One part is accepted only if it passes the filter and the size limit and its field still has room. Acceptance keeps the caps. The checks run in multer's order: a full or unknown field is refused with "Unexpected field" before the filter runs, a filter refusal comes before the size limit, and only an oversized file has itself been written when the request is rejected. |
| Upload.StepAccepts | server.js:31-46 | One part is accepted exactly when it passes every check and its field has room. |
| Upload.Intake | server.js:104-108 | An accepted request never holds more than 1 resume, 1 cover letter and 3 additional files, each within 5 MiB. Parts with an empty file name are skipped unchecked. |
| Upload.AdmittedPartIsNamed | server.js:35-38 | A part the filter admits has a non-empty file name, because neither filter passes a name without an extension. |
| Upload.SingleAdmissible | server.js:104-108 | A single part that passes every check is admissible and fills one place of its field. |
| Upload.EmptyInputSkipped | server.js:104-108 | A valid resume followed by a part with an empty file name is admissible. Only the resume is counted or stored. |
| Upload.AdmissibleSnoc | server.js:104-108 | A request stays admissible after one more part exactly when that part has an empty name, or passes and finds its field's cap not yet reached. |
| Upload.IntakeRejectsAtFirstFailure | server.js:31-46 | A rejected request fails at the first part that makes its prefix inadmissible. The error is that part's, tested in the order field cap, filter, size. The files reported as written are those of the parts before it, plus the part itself only when it was too large. |
| Upload.FirstFailureExists | server.js:104-108 | Every inadmissible request has such a first failing part. |
| Upload.IntakeRefusesPart | server.js:35-44 | A filter refusal after admissible parts rejects the request with the filter's error and reports only the earlier files. |
| Upload.IntakeCharacterized | server.js:31-46 | The intake accepts exactly the requests whose named parts all pass and whose fields stay within their caps; parts with an empty file name play no part. It then hands over the file of every named part, grouped by field, in arrival order. |
| Upload.SortedOfOne | server.js:104-108 | A lone named resume is handed over as the single resume file, stored under its generated path. |
| Upload.FilesOf | server.js:104-108 | The file parts of a body are exactly its `FilePart`s, no more of them than the body has parts. |
| Upload.FirstTooLong | server.js:31-33 | Finds no index exactly when every text field is within 1 MiB. Otherwise it finds an over-long field with none before it. |
| Upload.BodyIntake | server.js:31-33 | A body whose text fields are all within 1 MiB goes through the file intake unchanged. One with an over-long field is always rejected. |
| Upload.LongFieldRejected | server.js:31-33 | An over-long text field after passing file parts is rejected with LIMIT_FIELD_VALUE, and exactly those parts' files are reported as written. |
| Upload.FileFailureBeforeLongField | server.js:31-46 | A file part failing before the first over-long field decides the outcome, as the file intake would. |
| Upload.BodyIntakeCharacterized | server.js:31-46 | A body is accepted exactly when no text field is over 1 MiB and its file parts are admissible. It then hands over the files grouped by field. |
| Upload.AfterIntake | server.js:104-108 | A rejected request removes exactly the files it wrote and keeps everything else on disk. An accepted one adds exactly its files. |
| Records.Empty | server.js:58-92 | The freshly created tables satisfy the store invariant. |
| Records.IndexOf | server.js:209 | Looking up an id finds a row with that id exactly when one exists. |
| Submission.UploadErrorResponse | server.js:295-304 | Multer's errors answer 400: file size, unexpected field and field value too long. The filter's plain error answers 500. |
| Submission.Fitted | server.js:64-68 | A NULL stays NULL. A short value is kept unchanged. A long value is cut to a prefix of the column's width. |
| Submission.NewApplication | server.js:121-125 | The insert succeeds exactly when name, email, position and resume are present and every VARCHAR fits. The new row carries the form's values, and a status only when the schema has that column. |
| Submission.Submit | server.js:104-158 | The route on a body whose text fields are within 1 MiB, given its file parts. The answer is 201, 400 or 500. The store changes only on 201. 400 comes only from the intake. The disk is whatever the intake left. |
| Submission.SubmitRequest | server.js:31-33 | The route on a whole body. With every text field within 1 MiB it answers as `Submission.Submit` on the file parts. With one over the cap it answers 400 or 500 and leaves the store unchanged. The disk is whatever the body intake left. |
| Submission.SubmitOfRejection | server.js:295-304 | A rejected intake is answered with its error's response. The store is untouched and the written files are removed. |
| Submission.RefusalAnswered500 | server.js:302-303 | A rejection by the file filter is answered 500 "Something went wrong". The store is untouched and the written files are removed. |
| Submission.SubmitRequestOfLongField | server.js:295-301 | A body rejected for an over-long field is answered with the rejection's error. The store is untouched and the written files are removed. |
| Submission.LongFieldAnswered400 | server.js:295-301 | A text field over 1 MiB after passing file parts is answered 400 "Field value too long". The store is unchanged and the earlier files are removed. |
| Submission.LongCoverLetterAnswered400 | server.js:31-33 | A valid resume followed by a cover letter over 1 MiB is answered 400 "Field value too long", and the resume's file is removed. |
| Submission.SubmitRequestSucceedsIff | server.js:104-158 | A whole request answers 201 exactly when every text field is within 1 MiB and its file parts meet the conditions of `Submission.SubmitSucceedsIff`. |
| Submission.OversizedPartAnswered400 | server.js:295-299 | A part over 5 MiB that is within its field's cap and passes the filter, after admissible parts, is answered 400 "File too large. Maximum size is 5MB.". The store is unchanged, and the earlier files and that part's own file are removed from disk. |
| Submission.OverCapAnswered400 | server.js:295-301 | A named part beyond its field's cap or under an unknown field, after admissible parts, is answered 400 "Unexpected field". The store is unchanged and the earlier files are removed. |
| Submission.FilterFailureAnswered500 | server.js:295-304 | A named part within its cap that the filter refuses, after admissible parts, is answered 500 "Something went wrong". The store is unchanged and the earlier files are removed. |
| Submission.SecondResumeAnswered400 | server.js:105 | A second named resume file is answered 400 "Unexpected field". |
| Submission.EmptyFileInputIgnored | server.js:104-158 | A valid resume plus an empty cover letter input is recorded exactly when the resume alone would be: the text fields fit, the resume's row fits and one file id is left. |
| Submission.CountThree | server.js:104-108 | The files of an admissible request split among the three fields. |
| Submission.EntriesCoverReceived | server.js:130-142 | With at most one resume and one cover letter, the recorded entries are exactly the received files. |
| Submission.StoredFieldsKnown | server.js:104-108 | Every stored file of an admissible request names an accepted field. |
| Submission.StoredInSorted | server.js:104-108 | Each stored file of an accepted field appears in that field's list. |
| Submission.SortedFromStored | server.js:104-108 | The field lists hold nothing but stored files. |
| Submission.SortedHoldsStored | server.js:104-108 | For an admissible request the field lists together hold one file per named part. |
| Submission.ReceivedMatchesStored | server.js:130-142 | A condition holds for every received file exactly when it holds for every stored named part. |
| Submission.EntriesOfAdmissible | server.js:130-142 | An admissible request records one entry per named part. All of them fit exactly when every stored named part fits. |
| Submission.SubmitSucceedsIff | server.js:104-158 | For a body whose text fields are within 1 MiB, a submission answers 201 exactly when the intake admits it, it has exactly one named resume, the text fields fit, every named part's name, path and type fit their columns, and the id sequences can still hand out one file id per named part. Parts with an empty file name are ignored throughout. |
| Submission.MissingResumeRejected | server.js:67 | Without a resume nothing is recorded. An admissible request without one gets 500. |
| Submission.RolledBackKeepsFiles | server.js:151-154 | A failed transaction answers 500 and leaves the tables unchanged, but the uploaded files stay on disk. |
| Submission.TransactionPreservesValid | server.js:121-144 | A committed insert keeps the ids unique, below their counters, and the foreign key intact. |
| Submission.SubmitPreservesValid | server.js:104-158 | Every submission outcome keeps the store invariant. |
| Submission.TransactionAppends | server.js:121-142 | A commit appends one row under a fresh id and one file row per entry, all owned by it. The first file row is the resume. |
| Submission.SubmitRecordsApplication | server.js:121-149 | A 201 appends one row under an id no row had, with the form's values, and as many file rows as named parts, all owned by it and by no older row. The first file row is the resume whose path the row stores. What each file row holds is stated by `Submission.SubmitRecordsEachPart`. |
| Submission.EntriesAreReceived | server.js:129-142 | With at most one resume and one cover letter, the entries list the received files in order (resume, cover letter, additional documents), each under its field's category. |
| Submission.FileRowRecords | server.js:160-165 | The row written for an entry has the entry's category and size, and its name, path and type are the file's as the columns keep them. |
| Submission.TransactionRowsByPosition | server.js:129-165 | The rows a commit adds record the received files position by position. |
| Submission.RowsRecordEachPart | server.js:129-142 | Rows recording the received files position by position record every named part, and every such row records a named part. |
| Submission.SubmitRecordsEachPart | server.js:129-165 | After a 201, every named part has a new file row and every new file row has a named part. That row carries the part's field as its category (resume, cover_letter or additional) and its size. Its name, stored path and MIME type are prefixes of the part's, and equal to them when they fit the column. |
| Submission.SubmitThenGet | server.js:146-149 | Fetching the returned id yields the new row and one file per named part. |
| Submission.DocxPassesFilterAsWritten | server.js:36-41 | A `.docx` upload with its registered MIME type passes the filter. |
| Submission.DocxRolledBackOnCreatedSchema | server.js:82 | On the created schema, a submission carrying a named part with the docx MIME type is never recorded. |
| Submission.RegisteredMimeTypesFit | server.js:82 | Every registered MIME type fits a 255-character `file_type`. |
| Submission.IntendedSchemaRecordsAdmittedTypes | server.js:121-149 | With the corrected filter and a wide `file_type`, an admissible request with a resume and fitting fields and names is recorded. |
| Queries.FilesOf | server.js:172-182 | The aggregate is NULL exactly when the application has no file rows. Otherwise it lists each of its rows and only those. |
| Queries.InsertByDate | server.js:184 | Inserting into a newest-first list keeps it newest-first and adds exactly that row. |
| Queries.SortByDate | server.js:184 | The sorted list is newest-first and holds the same rows. |
| Queries.List | server.js:169-192 | The listing holds every application exactly once, newest first, each with its own files. |
| Queries.Get | server.js:195-222 | A malformed id answers 500 and an unknown id 404. Otherwise the row with that id is returned with its files. |
| Queries.IdDeterminesRow | server.js:63 | In a valid store, looking up a row's id finds that row. |
| Queries.GetAgreesWithList | server.js:169-217 | Fetching a listed application by its id returns exactly the listed item. |
| Queries.NoFilesIsNull | server.js:180 | An application without file rows has NULL files. |
| Queries.GetAfterInsert | server.js:195-217 | After an insert under a new id, fetching it returns the new row and exactly the new file rows. |
| Lifecycle.UpdateStatus | server.js:225-247 | An invalid status answers 400 and touches nothing. Otherwise a missing column or malformed id answers 500 and an unknown id 404. Success returns the updated row. |
| Lifecycle.StatusUpdateFailsOnCreatedSchema | server.js:233-246 | On the created schema every status update fails: 400 for an invalid value, 500 otherwise. The store is unchanged. |
| Lifecycle.StatusUpdateOnIntendedSchema | server.js:233-242 | With a status column, a valid update on an existing id answers 200 and changes that row's status and nothing else. |
| Lifecycle.IdDeterminesRowAfterUpdate | server.js:233-236 | After a status change the id still finds the same position. |
| Lifecycle.IdsAfterStatus | server.js:233-236 | A status change keeps the set of ids. |
| Lifecycle.UpdateStatusIdempotent | server.js:233-236 | Setting the same status twice is setting it once. |
| Lifecycle.UpdateStatusPreservesValid | server.js:225-247 | A status update keeps the store invariant. |
| Lifecycle.OutOfRangeIdFails | server.js:195-290 | A number outside the int4 range fails every endpoint taking an id with its 500, and changes neither the tables nor the disk. |
| Lifecycle.InRangeIdLookedUp | server.js:209-220 | A number within the int4 range that no application has is answered 404. |
| Lifecycle.Delete | server.js:250-292 | A malformed id answers 500 and an unknown id 404, with nothing changed. Only a 200 changes the tables, and the disk only loses paths. |
| Lifecycle.DeleteRemovesExactly | server.js:257-283 | A successful delete removes the application and exactly its file rows, keeping the rest in order. It unlinks every collected path except those whose unlink failed, which stay on disk, and touches nothing else. Afterwards the id is not found. |
| Lifecycle.FailedCommitLosesFiles | server.js:274-288 | When COMMIT fails, the rows remain but the unlinked files are gone. |
| Lifecycle.CascadePreservesValid | server.js:79 | Removing an application with its file rows keeps the store invariant. |
| Lifecycle.CascadeKeepsForeignKey | server.js:79 | Every surviving file row references a surviving application. |
| Lifecycle.DeletePreservesValid | server.js:250-292 | Every delete outcome keeps the store invariant. |
| ClientFiles.Split | script.js:88 | `split` yields at least one piece, and no piece contains the separator. |
| ClientFiles.JoinSplit | script.js:88 | Joining the pieces of a split gives back the text. |
| ClientFiles.LastPieceAfterLastSeparator | script.js:88 | The last piece of `split('.')` is the text after the last dot, or the whole name when it has none. |
| ClientFiles.SplitWithoutSeparator | script.js:88 | Text without a dot splits into itself. |
| ClientFiles.IconOf | script.js:89-93 | pdf gives the PDF icon; doc/docx Word; jpg/jpeg/png/gif image; txt text; anything else generic. Each holds in both directions. |
| ClientFiles.FileIcon | script.js:87-94 | Splitting at dots and taking the last piece picks the same icon as looking up the lower-cased text after the last dot. |
| ClientFiles.IconOfDotted | script.js:88 | The icon of `stem.ext` depends only on `ext`, in any letter case. |
| ClientFiles.ViewerFor | script.js:542-584 | PDF first (by type or a `.pdf` name in any case), then image (type prefix `image/`), then text (by type or a `.txt` name), else no preview. Each holds in both directions. |
| ClientFiles.PdfNameBeatsImageType | script.js:542-548 | A name ending in `.pdf` or `.PDF` opens in the PDF frame even with an image type. |
| ClientFiles.PdfIconOpensPdfFrame | script.js:87-94 | A dotted name that gets the PDF icon opens in the PDF frame. |
| ClientFiles.PreviewSingle | script.js:34-54 | An oversized first file clears the input with one error. Otherwise the selection stays and the first file is previewed. |
| ClientFiles.SizeErrors | script.js:70-74 | One error per oversized file. |
| ClientFiles.PreviewMultiple | script.js:56-85 | More than 3 files clear the input. Otherwise the selection stays, exactly the fitting files are previewed in order, as many as there are fitting files, and there is one error per oversized file. |
| ClientFiles.PreviewMultipleCorrected | script.js:70-74 | The corrected check keeps exactly the fitting files, in order and as many as there are, and never an oversized one. |
| ClientFiles.OversizedAdditionalKept | script.js:70-74 | As written, an oversized additional file is reported and not previewed, yet it stays selected. |
| ClientList.Documents | script.js:159-204 | The documents are the first resume, the first cover letter, then every additional file in input order, each with its category. |
| ClientList.Submit | script.js:112-157 | A failed file read appends nothing. Otherwise exactly one record is appended with id `Date.now()`, status pending, the form's values and these documents. |
| ClientList.DocumentsGroupedByCategory | script.js:159-204 | No document of a later category precedes one of an earlier category. |
| ClientList.DocumentsFit | script.js:159-204 | When the files read are within 5 MiB, so is every recorded document. |
| ClientList.TagFits | script.js:189-201 | Tagging files keeps their sizes. |
| ClientList.OversizedAdditionalSubmitted | script.js:189-201 | As written, an oversized additional file the check reported is still submitted. |
| ClientList.CorrectedPreviewSubmitsOnlyFittingFiles | script.js:70-74 | With the corrected check, every submitted document is within 5 MiB. |
| ClientList.FindIndex | script.js:614 | Yields the first record with the id, or -1 when none has it. |
| ClientList.Toggle | script.js:613-618 | Only the first record with the id changes, and only its status: pending becomes reviewed and anything else pending. An unknown id changes nothing. |
| ClientList.FindIndexSameIds | script.js:614 | Lists with the same ids find the same first match. |
| ClientList.ToggleTwice | script.js:617 | Two toggles restore the list when the status was pending or reviewed. |
| ClientList.ToggleTwiceFromOtherStatus | script.js:617 | From any other status, two toggles end at reviewed, so the original is not restored. |
| ClientList.Remove | script.js:626-629 | When confirmed, exactly the records with other ids remain, in order, and the count drops by the number removed. Unconfirmed, nothing changes. |
| ClientList.RemoveUnknown | script.js:628 | Deleting an id no record has changes nothing. |
| ClientList.RemoveIdempotent | script.js:628 | Deleting twice is deleting once. |
| ClientList.StatsOf | script.js:639-646 | Pending and reviewed are never both counted for one record. They add up to the total when every status is one of the two. |
| ClientList.StatusCountsAddUp | script.js:639-646 | With every status pending or reviewed, the two counts add up to the total. |
| ClientList.SubmitCountsPending | script.js:140 | A submitted record adds one to pending and to total, and nothing to reviewed. |
| ClientList.ToggleMovesOneUnit | script.js:617 | Toggling a pending or reviewed record moves one unit between the two counters and keeps the total. |
| ClientList.FilterApps | script.js:333-347 | The result is an order-preserving subsequence. It holds exactly the records that match, one entry per matching record, and each matches the chosen status and position. |
| ClientList.EmptySearchShowsAll | script.js:333-347 | An empty term with both filters on "all" shows every record. |
| ClientList.FilterAppsIdempotent | script.js:338-347 | Filtering the result again changes nothing. |
| ClientList.SearchIgnoresCase | script.js:334-341 | The search ignores the letter case of the term. |
| ClientList.LowerIdempotent | script.js:334 | Lower-casing twice is lower-casing once. |
| ClientList.StatusNarrows | script.js:343 | Choosing a status only narrows the list shown under "all". |

## Left out

- `landing.js`: page navigation, scroll handlers and animations, with no logic to state.
- `formatFileSize`: it uses floating-point logarithms and `toFixed`.
- FileReader data URLs, base64 decoding, `localStorage` persistence, HTML rendering, modals and timers. The client's list is the in-memory array only.
- Express, CORS, static serving and the health and welcome routes. Requests that are not multipart are not modelled either.
- Database connection and pool failures. In particular, the list's 500 "Failed to fetch applications" is never produced, because the list query is taken to succeed.
- `Date.now()`, `Math.random()`, the database clock and `toLocaleDateString` are parameters. `fs.unlinkSync` failures are a set of paths, and COMMIT's success is a flag.
- Concurrency between requests and the database's isolation semantics.
- SERIAL exhaustion: once a sequence would pass the int4 maximum, `nextval` fails, which the model treats as a rolled-back submission answering 500.
- Sequence gaps: a rolled-back submission leaves the id counters unchanged, whereas PostgreSQL may consume sequence values. Ids stay fresh either way.
- `Queries.FilesOf`: `json_agg` has no ORDER BY. The model takes table order, which the database does not promise.
- `Queries.SortByDate`: rows with equal `created_at` come out in an order the query does not fix.
- `Text.Lower`: lower-casing covers ASCII letters only. Non-ASCII case mapping is not modelled.
- `application_files.file_size` is an INTEGER column. Sizes are bounded by 5 MiB, so its range never matters and is not modelled.
- Field name length: field names are not checked. For a multipart body the parser never truncates a name, and multer checks a name's length only when `limits.fieldNameSize` is set, which this server does not do.
- The parser's limit of 2000 header pairs per part is not modelled.
- `Submission.SubmitRequest`: `form` (`req.body`) is a parameter and is not rebuilt from the text parts. A field name sent twice, which multer turns into an array, is not modelled. Text values are taken to arrive in UTF-8.
- `ClientList.Submit`: a record's `documents` omit the data URL. A failed read is modelled as a flag that stops the handler before the push.

## Findings

| source | as written | input that shows it | evidently intended | confidence | as-written member | corrected member |
|---|---|---|---|---|---|---|
| server.js:36-38 | The MIME type must contain one of pdf, doc, docx, txt, jpg, jpeg or png, which `text/plain` and `application/msword` do not match. | `notes.txt` with type `text/plain` is refused with 500 | TXT and DOC files, listed in the error message, are accepted | not executed | Upload.PlainTextAndWordMimeRejected | Upload.PlainTextAcceptedWhenCorrected |
| server.js:62-71, 233-236 | `applications` is created without a `status` column, but the PATCH sets `status`. | PATCH `{"status":"reviewed"}` on an existing id answers 500 | the status is stored and the row returned | not executed | Lifecycle.StatusUpdateFailsOnCreatedSchema | Lifecycle.StatusUpdateOnIntendedSchema |
| server.js:82, 161-165 | `file_type VARCHAR(50)` is shorter than the 71-character docx MIME type. | a resume `cv.docx` of type `application/vnd.openxmlformats-officedocument.wordprocessingml.document` rolls back with 500 | DOCX uploads are recorded | not executed | Submission.DocxRolledBackOnCreatedSchema | Submission.IntendedSchemaRecordsAdmittedTypes |
| script.js:70-74 | An oversized additional file only triggers an error message. It stays selected in the input. | additional files `[a.pdf of 6 MiB]` are kept and submitted with the record | the oversized file is removed, as `previewFile` does for a single file | not executed | ClientList.OversizedAdditionalSubmitted | ClientList.CorrectedPreviewSubmitsOnlyFittingFiles |

=== FILE: base.dfy ===
/** Small shared vocabulary: an optional value, and order-preserving
    filtering and counting over sequences (the shape of JavaScript's
    `Array.prototype.filter` and of a SQL `WHERE` over rows kept in
    table order).
 */
module Base {

  /** A value that may be absent: SQL NULL, a JavaScript `undefined`
      form field, a failed lookup. */
  datatype Option<+T> = None | Some(value: T)

  /** `xs` can be obtained from `ys` by deleting elements, keeping the
      relative order of the rest. */
  ghost predicate IsSubsequence<T>(xs: seq<T>, ys: seq<T>)
    decreases |ys|
  {
    || xs == []
    || (&& ys != []
        && (|| (xs[0] == ys[0] && IsSubsequence(xs[1..], ys[1..]))
            || IsSubsequence(xs, ys[1..])))
  }

  lemma {:induction false} SubsequenceReflexive<T>(xs: seq<T>)
    ensures IsSubsequence(xs, xs)
    decreases |xs|
  {
    if xs != [] {
      SubsequenceReflexive(xs[1..]);
    }
  }

  /** `xs.map((x, i) => f(i, x))`. */
  function MapIndexed<A, B>(xs: seq<A>, f: (nat, A) -> B): (r: seq<B>)
    ensures |r| == |xs|
    ensures forall i :: 0 <= i < |xs| ==> r[i] == f(i, xs[i])
  {
    seq(|xs|, i requires 0 <= i < |xs| => f(i, xs[i]))
  }

  /** Mapping a sequence with one more element at the end maps that element last. */
  lemma MapIndexedSnoc<A, B>(xs: seq<A>, f: (nat, A) -> B)
    requires xs != []
    ensures MapIndexed(xs, f) == MapIndexed(xs[..|xs| - 1], f) + [f(|xs| - 1, xs[|xs| - 1])]
  {
    var k := |xs| - 1;
    assert forall i :: 0 <= i < k ==> xs[..k][i] == xs[i];
  }

  /** Where a property of prefixes that holds for the empty prefix but not
      for the whole sequence first fails. */
  lemma {:induction false} FirstFailingPrefix<T>(ok: seq<T> -> bool, xs: seq<T>) returns (k: nat)
    requires ok([]) && !ok(xs)
    ensures k < |xs| && ok(xs[..k]) && !ok(xs[..k + 1])
    decreases |xs|
  {
    var n := |xs| - 1;
    assert xs[..n + 1] == xs;
    if ok(xs[..n]) {
      k := n;
    } else {
      k := FirstFailingPrefix(ok, xs[..n]);
      assert xs[..n][..k] == xs[..k] && xs[..n][..k + 1] == xs[..k + 1];
    }
  }

  /** The first element alone, or nothing when `xs` is empty. */
  function FirstOnly<T>(xs: seq<T>): (r: seq<T>)
    ensures |r| == (if xs == [] then 0 else 1)
    ensures xs != [] ==> r[0] == xs[0]
    ensures |xs| <= 1 ==> r == xs
  {
    if xs == [] then [] else [xs[0]]
  }

  /** The elements of `xs` for which `keep` holds, in their original order. */
  function Filter<T>(keep: T -> bool, xs: seq<T>): (r: seq<T>)
    ensures |r| <= |xs|
    ensures forall x :: x in r ==> x in xs && keep(x)
    ensures forall x :: x in xs && keep(x) ==> x in r
    ensures IsSubsequence(r, xs)
    ensures |r| == Count(keep, xs)
    decreases |xs|
  {
    if xs == [] then []
    else
      var rest := Filter(keep, xs[1..]);
      assert forall x :: x in xs[1..] ==> x in xs;
      assert forall x :: x in xs ==> x == xs[0] || x in xs[1..];
      if keep(xs[0]) then
        assert ([xs[0]] + rest)[1..] == rest;
        [xs[0]] + rest
      else
        rest
  }

  /** The number of elements of `xs` for which `keep` holds. */
  function Count<T>(keep: T -> bool, xs: seq<T>): (n: nat)
    ensures n <= |xs|
    decreases |xs|
  {
    if xs == [] then 0 else (if keep(xs[0]) then 1 else 0) + Count(keep, xs[1..])
  }

  /** Two sequences whose elements pass their tests at the same positions
      have equal counts. */
  lemma {:induction false} CountPointwise<S, T>(p: S -> bool, ys: seq<S>, q: T -> bool, xs: seq<T>)
    requires |ys| == |xs|
    requires forall i :: 0 <= i < |xs| ==> p(ys[i]) == q(xs[i])
    ensures Count(p, ys) == Count(q, xs)
    decreases |xs|
  {
    if xs != [] {
      assert forall i :: 0 <= i < |xs| - 1 ==> ys[1..][i] == ys[i + 1] && xs[1..][i] == xs[i + 1];
      CountPointwise(p, ys[1..], q, xs[1..]);
    }
  }

  /** Filtering with a predicate that every element meets changes nothing. */
  lemma {:induction false} FilterKeepsAll<T>(keep: T -> bool, xs: seq<T>)
    requires forall x :: x in xs ==> keep(x)
    ensures Filter(keep, xs) == xs
    decreases |xs|
  {
    if xs != [] {
      assert forall x :: x in xs[1..] ==> x in xs;
      FilterKeepsAll(keep, xs[1..]);
    }
  }

  /** Filtering with a predicate that no element meets leaves nothing. */
  lemma {:induction false} FilterKeepsNone<T>(keep: T -> bool, xs: seq<T>)
    requires forall x :: x in xs ==> !keep(x)
    ensures Filter(keep, xs) == []
    decreases |xs|
  {
    if xs != [] {
      assert forall x :: x in xs[1..] ==> x in xs;
      FilterKeepsNone(keep, xs[1..]);
    }
  }

  /** When every element satisfies exactly one of two predicates, their
      counts add up to the length. */
  lemma {:induction false} CountPartition<T>(p: T -> bool, q: T -> bool, xs: seq<T>)
    requires forall x :: x in xs ==> (p(x) <==> !q(x))
    ensures Count(p, xs) + Count(q, xs) == |xs|
    decreases |xs|
  {
    if xs != [] {
      assert forall x :: x in xs[1..] ==> x in xs;
      CountPartition(p, q, xs[1..]);
    }
  }

  /** Predicates that agree on every element filter alike. */
  lemma {:induction false} FilterAgrees<T>(p: T -> bool, q: T -> bool, xs: seq<T>)
    requires forall x :: x in xs ==> p(x) == q(x)
    ensures Filter(p, xs) == Filter(q, xs)
    decreases |xs|
  {
    if xs != [] {
      assert forall x :: x in xs[1..] ==> x in xs;
      FilterAgrees(p, q, xs[1..]);
    }
  }

  /** Two predicates no element satisfies together count at most the length. */
  lemma {:induction false} CountDisjoint<T>(p: T -> bool, q: T -> bool, xs: seq<T>)
    requires forall x :: x in xs ==> !(p(x) && q(x))
    ensures Count(p, xs) + Count(q, xs) <= |xs|
    decreases |xs|
  {
    if xs != [] {
      assert forall x :: x in xs[1..] ==> x in xs;
      CountDisjoint(p, q, xs[1..]);
    }
  }

  lemma {:induction false} CountAppend<T>(keep: T -> bool, xs: seq<T>, ys: seq<T>)
    ensures Count(keep, xs + ys) == Count(keep, xs) + Count(keep, ys)
    decreases |xs|
  {
    if xs == [] {
      assert xs + ys == ys;
    } else {
      assert (xs + ys)[0] == xs[0];
      assert (xs + ys)[1..] == xs[1..] + ys;
      CountAppend(keep, xs[1..], ys);
    }
  }

  /** Count depends only on which elements satisfy the predicate. */
  lemma {:induction false} CountUpdate<T>(keep: T -> bool, xs: seq<T>, i: nat, y: T)
    requires i < |xs|
    ensures Count(keep, xs[i := y])
         == Count(keep, xs) - (if keep(xs[i]) then 1 else 0) + (if keep(y) then 1 else 0)
    decreases |xs|
  {
    if i > 0 {
      assert xs[i := y][1..] == xs[1..][i - 1 := y];
      CountUpdate(keep, xs[1..], i - 1, y);
    } else {
      assert xs[i := y][1..] == xs[1..];
    }
  }

  /** Filtering distributes over appending one element at the end. */
  lemma {:induction false} FilterSnoc<T>(keep: T -> bool, xs: seq<T>, x: T)
    ensures Filter(keep, xs + [x]) == Filter(keep, xs) + (if keep(x) then [x] else [])
    decreases |xs|
  {
    if xs == [] {
      assert xs + [x] == [x];
      assert [x][1..] == [];
    } else {
      assert (xs + [x])[0] == xs[0];
      assert (xs + [x])[1..] == xs[1..] + [x];
      FilterSnoc(keep, xs[1..], x);
    }
  }

  /** Two positions of a subsequence come from two distinct, equally
      ordered positions of the original. */
  lemma {:induction false} SubsequenceIndices<T>(xs: seq<T>, ys: seq<T>, i: nat, j: nat)
    requires IsSubsequence(xs, ys) && i < j < |xs|
    ensures exists i', j' :: 0 <= i' < j' < |ys| && ys[i'] == xs[i] && ys[j'] == xs[j]
    decreases |ys|
  {
    assert ys != [];
    if xs[0] == ys[0] && IsSubsequence(xs[1..], ys[1..]) {
      if i == 0 {
        SubsequenceMember(xs[1..], ys[1..], j - 1);
        var j' :| 0 <= j' < |ys[1..]| && ys[1..][j'] == xs[1..][j - 1];
        assert ys[j' + 1] == xs[j];
      } else {
        SubsequenceIndices(xs[1..], ys[1..], i - 1, j - 1);
        var i', j' :| 0 <= i' < j' < |ys[1..]| && ys[1..][i'] == xs[1..][i - 1] && ys[1..][j'] == xs[1..][j - 1];
        assert ys[i' + 1] == xs[i] && ys[j' + 1] == xs[j];
      }
    } else {
      SubsequenceIndices(xs, ys[1..], i, j);
      var i', j' :| 0 <= i' < j' < |ys[1..]| && ys[1..][i'] == xs[i] && ys[1..][j'] == xs[j];
      assert ys[i' + 1] == xs[i] && ys[j' + 1] == xs[j];
    }
  }

  lemma {:induction false} SubsequenceMember<T>(xs: seq<T>, ys: seq<T>, i: nat)
    requires IsSubsequence(xs, ys) && i < |xs|
    ensures exists i' :: 0 <= i' < |ys| && ys[i'] == xs[i]
    decreases |ys|
  {
    assert ys != [];
    if xs[0] == ys[0] && IsSubsequence(xs[1..], ys[1..]) {
      if i > 0 {
        SubsequenceMember(xs[1..], ys[1..], i - 1);
        var i' :| 0 <= i' < |ys[1..]| && ys[1..][i'] == xs[1..][i - 1];
        assert ys[i' + 1] == xs[i];
      }
    } else {
      SubsequenceMember(xs, ys[1..], i);
      var i' :| 0 <= i' < |ys[1..]| && ys[1..][i'] == xs[i];
      assert ys[i' + 1] == xs[i];
    }
  }

  /** Keys distinct along a sequence stay distinct along any subsequence of it. */
  lemma DistinctKeysOfSubsequence<T>(xs: seq<T>, ys: seq<T>, key: T -> int)
    requires IsSubsequence(xs, ys)
    requires forall i, j :: 0 <= i < j < |ys| ==> key(ys[i]) != key(ys[j])
    ensures forall i, j :: 0 <= i < j < |xs| ==> key(xs[i]) != key(xs[j])
  {
    forall i, j | 0 <= i < j < |xs|
      ensures key(xs[i]) != key(xs[j])
    {
      SubsequenceIndices(xs, ys, i, j);
    }
  }
}

=== FILE: client_files.dfy ===
/** The browser-side file helpers (script.js:3, 34-94, 534-587): the
    icon chosen from a file name's extension, the viewer chosen for a
    stored document, and the size and count checks run when the file
    inputs change.
 */
module ClientFiles {
  import opened Base
  import opened Text

  // ---- Splitting a name at its dots ----

  /** `s.split(c)`: the pieces between occurrences of `c`, left to right;
      there is always at least one piece. */
  function Split(s: string, c: char): (r: seq<string>)
    ensures |r| >= 1
    ensures forall k :: 0 <= k < |r| ==> c !in r[k]
    decreases |s|
  {
    if s == [] then [[]]
    else
      var rest := Split(s[1..], c);
      if s[0] == c then [[]] + rest
      else [[s[0]] + rest[0]] + rest[1..]
  }

  /** `parts.join(c)`. */
  function Join(parts: seq<string>, c: char): string
    requires |parts| >= 1
    decreases |parts|
  {
    if |parts| == 1 then parts[0] else parts[0] + [c] + Join(parts[1..], c)
  }

  /** Splitting and joining again gives back the original text. */
  lemma {:induction false} JoinSplit(s: string, c: char)
    ensures Join(Split(s, c), c) == s
    decreases |s|
  {
    if s != [] {
      var rest := Split(s[1..], c);
      JoinSplit(s[1..], c);
      if s[0] == c {
        assert ([[]] + rest)[1..] == rest;
      } else {
        var r := [[s[0]] + rest[0]] + rest[1..];
        if |rest| == 1 {
          assert r == [[s[0]] + rest[0]];
        } else {
          assert r[1..] == rest[1..];
          assert Join(rest, c) == rest[0] + [c] + Join(rest[1..], c);
        }
      }
    }
  }

  function Last(parts: seq<string>): string
    requires |parts| >= 1
  {
    parts[|parts| - 1]
  }

  /** The last piece of `s.split(c)` is the text after the last `c`, or
      all of `s` when it contains none. */
  lemma {:induction false} LastPieceAfterLastSeparator(s: string, c: char)
    ensures Last(Split(s, c)) == s[LastIndex(s, c) + 1..]
    decreases |s|
  {
    if s != [] {
      if c in s[1..] {
        LastPieceAfterLastSeparator(s[1..], c);
        LastPieceStep(s, c);
      } else {
        LastPieceNoInnerSeparator(s, c);
      }
    }
  }

  /** The last piece of `s` is that of `s[1..]` when a separator follows. */
  lemma LastPieceStep(s: string, c: char)
    requires s != [] && c in s[1..]
    requires Last(Split(s[1..], c)) == s[1..][LastIndex(s[1..], c) + 1..]
    ensures Last(Split(s, c)) == s[LastIndex(s, c) + 1..]
  {
    SplitLastInner(s, c);
    LastIndexShift(s, c);
    assert s[LastIndex(s, c) + 1..] == s[1..][LastIndex(s[1..], c) + 1..];
  }

  /** With no separator after the first character, the last piece is
      everything after a leading separator, or all of `s`. */
  lemma LastPieceNoInnerSeparator(s: string, c: char)
    requires s != [] && c !in s[1..]
    ensures Last(Split(s, c)) == s[LastIndex(s, c) + 1..]
  {
    if s[0] == c {
      LastPieceAfterLeadingSeparator(s, c);
    } else {
      LastPieceWithoutSeparator(s, c);
    }
  }

  lemma LastPieceWithoutSeparator(s: string, c: char)
    requires s != [] && s[0] != c && c !in s[1..]
    ensures Last(Split(s, c)) == s[LastIndex(s, c) + 1..]
  {
    assert s == [s[0]] + s[1..];
    SplitWithoutSeparator(s, c);
    assert s[0..] == s;
  }

  lemma LastPieceAfterLeadingSeparator(s: string, c: char)
    requires s != [] && s[0] == c && c !in s[1..]
    ensures Last(Split(s, c)) == s[LastIndex(s, c) + 1..]
  {
    SplitWithoutSeparator(s[1..], c);
  }

  /** A separator further on leaves the last piece to the rest of the text. */
  lemma SplitLastInner(s: string, c: char)
    requires s != [] && c in s[1..]
    ensures Last(Split(s, c)) == Last(Split(s[1..], c))
  {
    SinglePieceIsWhole(s[1..], c);
    assert |Split(s[1..], c)| >= 2;
  }

  /** A split into one piece leaves the text whole. */
  lemma SinglePieceIsWhole(s: string, c: char)
    ensures |Split(s, c)| == 1 ==> Split(s, c)[0] == s
  {
    JoinSplit(s, c);
  }

  /** Text without the separator splits into itself alone. */
  lemma {:induction false} SplitWithoutSeparator(s: string, c: char)
    requires c !in s
    ensures Split(s, c) == [s]
    decreases |s|
  {
    if s != [] {
      SplitWithoutSeparator(s[1..], c);
      assert [s[0]] + s[1..] == s;
    }
  }

  /** The last occurrence of `c` in `s` is one past its last occurrence in
      `s[1..]`, when there is one there. */
  lemma LastIndexShift(s: string, c: char)
    requires s != [] && c in s[1..]
    ensures LastIndex(s, c) == LastIndex(s[1..], c) + 1
  {
    var i, j := LastIndex(s, c), LastIndex(s[1..], c);
    assert s[1..][j + 1..] == s[j + 2..];
  }

  // ---- Icons ----

  const PdfIcon: string := "fas fa-file-pdf"
  const WordIcon: string := "fas fa-file-word"
  const ImageIcon: string := "fas fa-file-image"
  const TextIcon: string := "fas fa-file-alt"
  const GenericIcon: string := "fas fa-file"

  /** The extension as the icon helper sees it: the lower-cased text after
      the last dot, or the whole lower-cased name when it has no dot. */
  function Extension(name: string): string
  {
    Lower(name[LastIndex(name, '.') + 1..])
  }

  /** The icon class for a lower-cased extension. */
  function IconOf(ext: string): (r: string)
    ensures r == PdfIcon <==> ext == "pdf"
    ensures r == WordIcon <==> ext in ["doc", "docx"]
    ensures r == ImageIcon <==> ext in ["jpg", "jpeg", "png", "gif"]
    ensures r == TextIcon <==> ext == "txt"
    ensures r == GenericIcon <==> ext !in ["pdf", "doc", "docx", "jpg", "jpeg", "png", "gif", "txt"]
  {
    if ext == "pdf" then PdfIcon
    else if ext in ["doc", "docx"] then WordIcon
    else if ext in ["jpg", "jpeg", "png", "gif"] then ImageIcon
    else if ext == "txt" then TextIcon
    else GenericIcon
  }

  /** The icon class of a file name, computed as `getFileIcon` does: split
      at dots, take the last piece, lower-case it, look it up. The split
      agrees with reading the text after the last dot. */
  function FileIcon(name: string): (r: string)
    ensures r == IconOf(Extension(name))
  {
    LastPieceIsExtension(name);
    IconOf(Lower(Last(Split(name, '.'))))
  }

  lemma LastPieceIsExtension(name: string)
    ensures Lower(Last(Split(name, '.'))) == Extension(name)
  {
    LastPieceAfterLastSeparator(name, '.');
  }

  /** A dotted name's icon depends only on what follows the last dot, in
      any letter case. */
  lemma IconOfDotted(stem: string, ext: string)
    requires '.' !in ext
    ensures Extension(stem + "." + ext) == Lower(ext)
  {
    var name := stem + "." + ext;
    assert name[|stem|] == '.';
    assert name[|stem| + 1..] == ext;
  }

  // ---- The document viewer ----

  datatype Viewer = PdfFrame | ImageView | TextView | NoPreview

  predicate PdfDocument(name: string, mime: string)
  {
    mime == "application/pdf" || EndsWith(Lower(name), ".pdf")
  }

  predicate TextDocument(name: string, mime: string)
  {
    mime == "text/plain" || EndsWith(Lower(name), ".txt")
  }

  /** `viewDocument`'s dispatch: PDF first, then image, then text, else none. */
  function ViewerFor(name: string, mime: string): (v: Viewer)
    ensures v == PdfFrame <==> PdfDocument(name, mime)
    ensures v == ImageView <==> !PdfDocument(name, mime) && StartsWith(mime, "image/")
    ensures v == TextView <==> !PdfDocument(name, mime) && !StartsWith(mime, "image/") && TextDocument(name, mime)
    ensures v == NoPreview <==> !PdfDocument(name, mime) && !StartsWith(mime, "image/") && !TextDocument(name, mime)
  {
    if PdfDocument(name, mime) then PdfFrame
    else if StartsWith(mime, "image/") then ImageView
    else if TextDocument(name, mime) then TextView
    else NoPreview
  }

  /** A name ending in ".pdf" (any case) opens in the PDF frame whatever
      its declared type, even an image type. */
  lemma PdfNameBeatsImageType(stem: string, mime: string)
    ensures ViewerFor(stem + ".PDF", mime) == PdfFrame
    ensures ViewerFor(stem + ".pdf", mime) == PdfFrame
  {
    var upper, lower := stem + ".PDF", stem + ".pdf";
    assert Lower(upper)[|upper| - 4..] == ".pdf";
    assert Lower(lower)[|lower| - 4..] == ".pdf";
  }

  /** The icon and the viewer agree on PDFs: a dotted name that gets the
      PDF icon is opened in the PDF frame. */
  lemma PdfIconOpensPdfFrame(name: string, mime: string)
    requires '.' in name && FileIcon(name) == PdfIcon
    ensures ViewerFor(name, mime) == PdfFrame
  {
    PdfExtensionEndsName(name);
  }

  /** A dotted name whose extension reads "pdf" ends in ".pdf" once lower-cased. */
  lemma PdfExtensionEndsName(name: string)
    requires '.' in name && Extension(name) == "pdf"
    ensures EndsWith(Lower(name), ".pdf")
  {
    var i := LastIndex(name, '.');
    var low := Lower(name);
    LowerSuffix(name, i + 1);
    assert |low| == i + 4;
    assert low[|low| - 4..] == [low[i]] + low[i + 1..];
  }

  // ---- Preview checks ----

  /** MAX_FILE_SIZE on the client: 5 MiB, like the server's limit. */
  const ClientMaxFileSize: nat := 5 * 1024 * 1024

  /** A file picked in a file input. */
  datatype Picked = Picked(name: string, mimeType: string, size: nat)

  /** What a preview check leaves behind: the files still selected in the
      input, the files previewed, and the error messages shown. */
  datatype Preview = Preview(kept: seq<Picked>, shown: seq<Picked>, errors: seq<string>)

  function TooLarge(f: Picked): string
  {
    "File \"" + f.name + "\" exceeds 5MB limit"
  }

  /** `previewFile`: only the first selected file is looked at; if it is
      over the limit the input is cleared. */
  function PreviewSingle(files: seq<Picked>): (p: Preview)
    ensures files == [] ==> p == Preview([], [], [])
    ensures files != [] && files[0].size > ClientMaxFileSize ==> p.kept == [] && p.shown == [] && p.errors == [TooLarge(files[0])]
    ensures files != [] && files[0].size <= ClientMaxFileSize ==> p.kept == files && p.shown == [files[0]] && p.errors == []
  {
    if files == [] then Preview([], [], [])
    else if files[0].size > ClientMaxFileSize then Preview([], [], [TooLarge(files[0])])
    else Preview(files, [files[0]], [])
  }

  predicate WithinLimit(f: Picked)
  {
    f.size <= ClientMaxFileSize
  }

  predicate Oversized(f: Picked)
  {
    f.size > ClientMaxFileSize
  }

  /** One error per oversized file, in order. */
  function SizeErrors(files: seq<Picked>): (r: seq<string>)
    ensures |r| == Count(Oversized, files)
    decreases |files|
  {
    if files == [] then []
    else (if Oversized(files[0]) then [TooLarge(files[0])] else []) + SizeErrors(files[1..])
  }

  /** `previewMultipleFiles`: more than three files clear the input;
      otherwise each file within the limit is previewed and each oversized
      one only reports an error; the selection itself is left as it was. */
  function PreviewMultiple(files: seq<Picked>): (p: Preview)
    ensures |files| > 3 ==> p == Preview([], [], ["Maximum 3 additional files allowed"])
    ensures |files| <= 3 ==> p.kept == files
    ensures |files| <= 3 ==> (forall f :: f in p.shown <==> f in files && WithinLimit(f)) && IsSubsequence(p.shown, files)
    ensures |files| <= 3 ==> |p.shown| == Count(WithinLimit, files)
    ensures |files| <= 3 ==> |p.errors| == Count(Oversized, files)
  {
    if |files| > 3 then Preview([], [], ["Maximum 3 additional files allowed"])
    else Preview(files, Filter(WithinLimit, files), SizeErrors(files))
  }

  /** The evidently intended check: an oversized file is removed from the
      selection, as `previewFile` does for a single file. */
  function PreviewMultipleCorrected(files: seq<Picked>): (p: Preview)
    ensures |files| > 3 ==> p.kept == []
    ensures forall f :: f in p.kept ==> WithinLimit(f)
    ensures |files| <= 3 ==> IsSubsequence(p.kept, files) && (forall f :: f in files && WithinLimit(f) ==> f in p.kept)
    ensures |files| <= 3 ==> |p.kept| == Count(WithinLimit, files)
  {
    if |files| > 3 then Preview([], [], ["Maximum 3 additional files allowed"])
    else Preview(Filter(WithinLimit, files), Filter(WithinLimit, files), SizeErrors(files))
  }

  /** As written, an oversized additional file survives the check: it is
      reported but stays selected, so the form goes on to submit it. */
  lemma OversizedAdditionalKept(files: seq<Picked>, k: nat)
    requires |files| <= 3 && k < |files| && files[k].size > ClientMaxFileSize
    ensures files[k] in PreviewMultiple(files).kept
    ensures files[k] !in PreviewMultiple(files).shown
    ensures |PreviewMultiple(files).errors| >= 1
  {
    CountAtLeastOne(Oversized, files, k);
  }

  lemma {:induction false} CountAtLeastOne<T>(keep: T -> bool, xs: seq<T>, k: nat)
    requires k < |xs| && keep(xs[k])
    ensures Count(keep, xs) >= 1
    decreases |xs|
  {
    if k > 0 {
      CountAtLeastOne(keep, xs[1..], k - 1);
    }
  }
}

=== FILE: client_list.dfy ===
/** The browser-side application list (script.js:104-205, 333-347,
    613-647): the in-memory sequence of application records the form
    appends to and the dashboard filters, toggles, deletes from and
    counts.
 */
module ClientList {
  import opened Base
  import opened Text
  import opened ClientFiles
  import Records

  const ResumeCategory: string := "resume"
  const CoverLetterCategory: string := "coverLetter"
  const AdditionalCategory: string := "additional"

  /** A document attached to a record; the file's data URL is not modelled. */
  datatype Document = Document(name: string, mimeType: string, size: nat, category: string)

  /** One record of the `applications` array. */
  datatype ClientApp = ClientApp(
    id: string,
    fullName: string,
    email: string,
    phone: string,
    position: string,
    message: string,
    status: string,
    date: string,
    documents: seq<Document>)

  /** The text fields of the application form. */
  datatype ClientForm = ClientForm(fullName: string, email: string, phone: string, position: string, message: string)

  // ---- Submit ----

  function DocOf(f: Picked, category: string): Document
  {
    Document(f.name, f.mimeType, f.size, category)
  }

  /** 1 when the input holds a file (`input.files[0]` is set), else 0. */
  function Present(files: seq<Picked>): nat
  {
    if files == [] then 0 else 1
  }

  function Tag(files: seq<Picked>, category: string): (r: seq<Document>)
    ensures |r| == |files|
    ensures forall k :: 0 <= k < |files| ==> r[k] == DocOf(files[k], category)
  {
    seq(|files|, k requires 0 <= k < |files| => DocOf(files[k], category))
  }

  /** `processFileUploads`: the first resume file, then the first cover
      letter file, then every additional file in input order. */
  function Documents(resume: seq<Picked>, cover: seq<Picked>, additional: seq<Picked>): (r: seq<Document>)
    ensures |r| == Present(resume) + Present(cover) + |additional|
    ensures resume != [] ==> r[0] == DocOf(resume[0], ResumeCategory)
    ensures cover != [] ==> r[Present(resume)] == DocOf(cover[0], CoverLetterCategory)
    ensures forall k :: 0 <= k < |additional| ==>
              r[Present(resume) + Present(cover) + k] == DocOf(additional[k], AdditionalCategory)
  {
    Tag(FirstOnly(resume), ResumeCategory) + Tag(FirstOnly(cover), CoverLetterCategory) + Tag(additional, AdditionalCategory)
  }

  /** The submit handler: a new record with id `Date.now()` as text and
      status pending is appended; when reading a file fails the handler
      stops before the push and the list is unchanged. */
  function Submit(apps: seq<ClientApp>, form: ClientForm, resume: seq<Picked>, cover: seq<Picked>,
                  additional: seq<Picked>, now: nat, date: string, readsOk: bool): (r: seq<ClientApp>)
    ensures !readsOk ==> r == apps
    ensures readsOk ==> |r| == |apps| + 1 && r[..|apps|] == apps
    ensures readsOk ==> var a := r[|apps|];
              && a.id == Decimal(now) && a.status == Records.Pending && a.date == date
              && a.fullName == form.fullName && a.email == form.email && a.phone == form.phone
              && a.position == form.position && a.message == form.message
              && a.documents == Documents(resume, cover, additional)
  {
    if !readsOk then apps
    else
      var a := ClientApp(Decimal(now), form.fullName, form.email, form.phone, form.position, form.message,
                         Records.Pending, date, Documents(resume, cover, additional));
      assert (apps + [a])[..|apps|] == apps;
      apps + [a]
  }

  /** Position of a category in the document order. */
  function Rank(category: string): nat
  {
    if category == ResumeCategory then 0 else if category == CoverLetterCategory then 1 else 2
  }

  /** Documents come grouped by category: no document of a later category
      precedes one of an earlier category. */
  lemma DocumentsGroupedByCategory(resume: seq<Picked>, cover: seq<Picked>, additional: seq<Picked>)
    ensures var r := Documents(resume, cover, additional);
            forall i, j :: 0 <= i < j < |r| ==> Rank(r[i].category) <= Rank(r[j].category)
  {
    var r := Documents(resume, cover, additional);
    forall i, j | 0 <= i < j < |r|
      ensures Rank(r[i].category) <= Rank(r[j].category)
    {
      DocumentRank(resume, cover, additional, i);
      DocumentRank(resume, cover, additional, j);
    }
  }

  /** The category at each position follows from the two counts in front. */
  lemma DocumentRank(resume: seq<Picked>, cover: seq<Picked>, additional: seq<Picked>, k: nat)
    requires k < |Documents(resume, cover, additional)|
    ensures var nr, nc := Present(resume), Present(cover);
            Rank(Documents(resume, cover, additional)[k].category) == (if k < nr then 0 else if k < nr + nc then 1 else 2)
  {
    var nr, nc := Present(resume), Present(cover);
    var r := Documents(resume, cover, additional);
    if k < nr {
      assert r[0] == DocOf(resume[0], ResumeCategory);
    } else if k < nr + nc {
      assert r[nr] == DocOf(cover[0], CoverLetterCategory);
    } else {
      assert r[nr + nc + (k - nr - nc)] == DocOf(additional[k - nr - nc], AdditionalCategory);
    }
  }

  /** When the files the form reads are all within the limit, so are
      the documents it records. */
  lemma DocumentsFit(resume: seq<Picked>, cover: seq<Picked>, additional: seq<Picked>)
    requires resume != [] ==> WithinLimit(resume[0])
    requires cover != [] ==> WithinLimit(cover[0])
    requires forall f :: f in additional ==> WithinLimit(f)
    ensures forall d :: d in Documents(resume, cover, additional) ==> d.size <= ClientMaxFileSize
  {
    TagFits(FirstOnly(resume), ResumeCategory);
    TagFits(FirstOnly(cover), CoverLetterCategory);
    TagFits(additional, AdditionalCategory);
  }

  lemma TagFits(files: seq<Picked>, category: string)
    requires forall f :: f in files ==> WithinLimit(f)
    ensures forall d :: d in Tag(files, category) ==> d.size <= ClientMaxFileSize
  {
    forall d | d in Tag(files, category)
      ensures d.size <= ClientMaxFileSize
    {
      var k :| 0 <= k < |files| && Tag(files, category)[k] == d;
      assert files[k] in files;
    }
  }

  /** As written, an oversized additional file reported by the preview
      check is still submitted with the record. */
  lemma OversizedAdditionalSubmitted(apps: seq<ClientApp>, form: ClientForm, resume: seq<Picked>, cover: seq<Picked>,
                                     additional: seq<Picked>, now: nat, date: string, k: nat)
    requires |additional| <= 3 && k < |additional| && Oversized(additional[k])
    ensures var r := Submit(apps, form, resume, cover, PreviewMultiple(additional).kept, now, date, true);
            exists d :: d in r[|apps|].documents && d.size > ClientMaxFileSize
  {
    var r := Submit(apps, form, resume, cover, PreviewMultiple(additional).kept, now, date, true);
    var docs := r[|apps|].documents;
    var i := Present(resume) + Present(cover) + k;
    assert docs[i] == DocOf(additional[k], AdditionalCategory);
    assert docs[i] in docs;
  }

  /** With the corrected multiple-file check, every document the form
      submits is within the 5 MiB limit. */
  lemma CorrectedPreviewSubmitsOnlyFittingFiles(apps: seq<ClientApp>, form: ClientForm, resume: seq<Picked>,
                                                cover: seq<Picked>, additional: seq<Picked>, now: nat, date: string)
    ensures var r := Submit(apps, form, PreviewSingle(resume).kept, PreviewSingle(cover).kept,
                            PreviewMultipleCorrected(additional).kept, now, date, true);
            forall d :: d in r[|apps|].documents ==> d.size <= ClientMaxFileSize
  {
    DocumentsFit(PreviewSingle(resume).kept, PreviewSingle(cover).kept, PreviewMultipleCorrected(additional).kept);
  }

  // ---- Status toggle ----

  /** `findIndex(a => a.id === id)`: the first record with the id, or -1. */
  function FindIndex(apps: seq<ClientApp>, id: string): (i: int)
    ensures -1 <= i < |apps|
    ensures i == -1 <==> forall k :: 0 <= k < |apps| ==> apps[k].id != id
    ensures i >= 0 ==> apps[i].id == id && forall k :: 0 <= k < i ==> apps[k].id != id
    decreases |apps|
  {
    if apps == [] then -1
    else if apps[0].id == id then 0
    else
      var j := FindIndex(apps[1..], id);
      if j == -1 then -1 else j + 1
  }

  /** pending becomes reviewed; any other value becomes pending. */
  function Flip(status: string): string
  {
    if status == Records.Pending then Records.Reviewed else Records.Pending
  }

  /** `updateApplicationStatus`: flips the status of the first record with
      the id; an unknown id leaves the list as it is. */
  function Toggle(apps: seq<ClientApp>, id: string): (r: seq<ClientApp>)
    ensures |r| == |apps|
    ensures (forall k :: 0 <= k < |apps| ==> apps[k].id != id) ==> r == apps
    ensures forall k :: 0 <= k < |apps| ==> r[k] == apps[k].(status := r[k].status)
    ensures forall k :: 0 <= k < |apps| && k != FindIndex(apps, id) ==> r[k] == apps[k]
    ensures FindIndex(apps, id) >= 0 ==> r[FindIndex(apps, id)].status == Flip(apps[FindIndex(apps, id)].status)
  {
    var i := FindIndex(apps, id);
    if i < 0 then apps
    else apps[i := apps[i].(status := Flip(apps[i].status))]
  }

  /** Lists whose records have the same ids in the same places find the
      same first match. */
  lemma FindIndexSameIds(a: seq<ClientApp>, b: seq<ClientApp>, id: string)
    requires |a| == |b| && forall k :: 0 <= k < |a| ==> a[k].id == b[k].id
    ensures FindIndex(a, id) == FindIndex(b, id)
  {
    var i, j := FindIndex(a, id), FindIndex(b, id);
    if i >= 0 && j >= 0 {
      assert !(i < j) && !(j < i);
    }
  }

  /** Toggling twice restores the list when the record's status was
      pending or reviewed. */
  lemma ToggleTwice(apps: seq<ClientApp>, id: string)
    requires FindIndex(apps, id) >= 0 ==> Records.IsStatusValue(apps[FindIndex(apps, id)].status)
    ensures Toggle(Toggle(apps, id), id) == apps
  {
    var once := Toggle(apps, id);
    FindIndexSameIds(apps, once, id);
    var i := FindIndex(apps, id);
    if i >= 0 {
      var twice := Toggle(once, id);
      assert twice[i] == apps[i];
      assert forall k :: 0 <= k < |apps| ==> twice[k] == apps[k];
    }
  }

  /** A record outside the two statuses does not come back: the first
      toggle sets it to pending, the second to reviewed. */
  lemma ToggleTwiceFromOtherStatus(apps: seq<ClientApp>, id: string)
    requires FindIndex(apps, id) >= 0 && !Records.IsStatusValue(apps[FindIndex(apps, id)].status)
    ensures Toggle(Toggle(apps, id), id)[FindIndex(apps, id)].status == Records.Reviewed
  {
    FindIndexSameIds(apps, Toggle(apps, id), id);
  }

  // ---- Delete ----

  function NotId(id: string): ClientApp -> bool
  {
    (a: ClientApp) => a.id != id
  }

  function HasId(id: string): ClientApp -> bool
  {
    (a: ClientApp) => a.id == id
  }

  /** `deleteApplication`: when confirmed, every record with the id goes
      and the rest keep their order; otherwise nothing changes. */
  function Remove(apps: seq<ClientApp>, id: string, confirmed: bool): (r: seq<ClientApp>)
    ensures !confirmed ==> r == apps
    ensures confirmed ==> forall a :: a in r <==> a in apps && a.id != id
    ensures confirmed ==> IsSubsequence(r, apps)
    ensures confirmed ==> |r| == |apps| - Count(HasId(id), apps)
  {
    if !confirmed then apps
    else
      CountPartition(NotId(id), HasId(id), apps);
      Filter(NotId(id), apps)
  }

  /** Deleting an id no record has leaves the list as it is. */
  lemma RemoveUnknown(apps: seq<ClientApp>, id: string, confirmed: bool)
    requires forall a :: a in apps ==> a.id != id
    ensures Remove(apps, id, confirmed) == apps
  {
    FilterKeepsAll(NotId(id), apps);
  }

  /** Deleting the same id twice is deleting it once. */
  lemma RemoveIdempotent(apps: seq<ClientApp>, id: string)
    ensures Remove(Remove(apps, id, true), id, true) == Remove(apps, id, true)
  {
    RemoveUnknown(Remove(apps, id, true), id, true);
  }

  // ---- Counters ----

  datatype Stats = Stats(pending: nat, reviewed: nat, total: nat)

  const IsPending: ClientApp -> bool := (a: ClientApp) => a.status == Records.Pending

  const IsReviewed: ClientApp -> bool := (a: ClientApp) => a.status == Records.Reviewed

  /** `updateStats`: the pending, reviewed and total counters. A record
      is never counted under both statuses, and when every status is one
      of the two the counters add up. */
  function StatsOf(apps: seq<ClientApp>): (s: Stats)
    ensures s.total == |apps|
    ensures s.pending + s.reviewed <= s.total
    ensures (forall a :: a in apps ==> Records.IsStatusValue(a.status)) ==> s.pending + s.reviewed == s.total
    ensures s.pending == Count(IsPending, apps) && s.reviewed == Count(IsReviewed, apps)
  {
    CountDisjoint(IsPending, IsReviewed, apps);
    StatusCountsAddUp(apps);
    Stats(Count(IsPending, apps), Count(IsReviewed, apps), |apps|)
  }

  lemma StatusCountsAddUp(apps: seq<ClientApp>)
    ensures (forall a :: a in apps ==> Records.IsStatusValue(a.status)) ==> Count(IsPending, apps) + Count(IsReviewed, apps) == |apps|
  {
    if forall a :: a in apps ==> Records.IsStatusValue(a.status) {
      CountPartition(IsPending, IsReviewed, apps);
    }
  }

  /** A submitted record adds one to the pending and total counters. */
  lemma SubmitCountsPending(apps: seq<ClientApp>, form: ClientForm, resume: seq<Picked>, cover: seq<Picked>,
                            additional: seq<Picked>, now: nat, date: string)
    ensures var before, after := StatsOf(apps), StatsOf(Submit(apps, form, resume, cover, additional, now, date, true));
            after == Stats(before.pending + 1, before.reviewed, before.total + 1)
  {
    var r := Submit(apps, form, resume, cover, additional, now, date, true);
    assert r == apps + [r[|apps|]];
    CountAppend(IsPending, apps, [r[|apps|]]);
    CountAppend(IsReviewed, apps, [r[|apps|]]);
  }

  /** Toggling a pending or reviewed record moves one unit between the
      two counters and leaves the total. */
  lemma ToggleMovesOneUnit(apps: seq<ClientApp>, id: string)
    requires FindIndex(apps, id) >= 0 && Records.IsStatusValue(apps[FindIndex(apps, id)].status)
    ensures var before, after := StatsOf(apps), StatsOf(Toggle(apps, id));
            && after.total == before.total
            && after.pending + after.reviewed == before.pending + before.reviewed
            && (apps[FindIndex(apps, id)].status == Records.Pending ==> after.pending + 1 == before.pending)
            && (apps[FindIndex(apps, id)].status == Records.Reviewed ==> after.pending == before.pending + 1)
  {
    var i := FindIndex(apps, id);
    var row := apps[i].(status := Flip(apps[i].status));
    assert Toggle(apps, id) == apps[i := row];
    CountUpdate(IsPending, apps, i, row);
    CountUpdate(IsReviewed, apps, i, row);
  }

  // ---- Search and filters ----

  /** The dashboard's filter test for one record. */
  predicate Matches(a: ClientApp, term: string, statusValue: string, positionValue: string)
  {
    var t := Lower(term);
    && (Contains(Lower(a.fullName), t) || Contains(Lower(a.email), t) || Contains(Lower(a.position), t))
    && (statusValue == "all" || a.status == statusValue)
    && (positionValue == "all" || a.position == positionValue)
  }

  function Matching(term: string, statusValue: string, positionValue: string): ClientApp -> bool
  {
    (a: ClientApp) => Matches(a, term, statusValue, positionValue)
  }

  /** `filterApplications`: the records passing the search, status and
      position tests, in list order. */
  function FilterApps(apps: seq<ClientApp>, term: string, statusValue: string, positionValue: string): (r: seq<ClientApp>)
    ensures IsSubsequence(r, apps)
    ensures forall a :: a in r <==> a in apps && Matches(a, term, statusValue, positionValue)
    ensures |r| == Count(Matching(term, statusValue, positionValue), apps)
    ensures forall a :: a in r ==>
              (statusValue == "all" || a.status == statusValue) && (positionValue == "all" || a.position == positionValue)
  {
    Filter(Matching(term, statusValue, positionValue), apps)
  }

  /** The empty term with both filters on "all" shows every record. */
  lemma EmptySearchShowsAll(apps: seq<ClientApp>)
    ensures FilterApps(apps, "", "all", "all") == apps
  {
    forall a | a in apps
      ensures Matches(a, "", "all", "all")
    {
      assert OccursAt(Lower(a.fullName), "", 0);
    }
    FilterKeepsAll(Matching("", "all", "all"), apps);
  }

  /** Filtering the filtered list again changes nothing. */
  lemma FilterAppsIdempotent(apps: seq<ClientApp>, term: string, statusValue: string, positionValue: string)
    ensures var r := FilterApps(apps, term, statusValue, positionValue);
            FilterApps(r, term, statusValue, positionValue) == r
  {
    var r := FilterApps(apps, term, statusValue, positionValue);
    FilterKeepsAll(Matching(term, statusValue, positionValue), r);
  }

  /** The search ignores the letter case of the term. */
  lemma SearchIgnoresCase(apps: seq<ClientApp>, term: string, statusValue: string, positionValue: string)
    ensures FilterApps(apps, Lower(term), statusValue, positionValue) == FilterApps(apps, term, statusValue, positionValue)
  {
    LowerIdempotent(term);
    FilterAgrees(Matching(Lower(term), statusValue, positionValue), Matching(term, statusValue, positionValue), apps);
  }

  lemma LowerIdempotent(s: string)
    ensures Lower(Lower(s)) == Lower(s)
  {
    LowerOfLowercase(Lower(s));
  }

  /** Choosing a status only narrows the list shown under "all". */
  lemma StatusNarrows(apps: seq<ClientApp>, term: string, statusValue: string, positionValue: string)
    ensures forall a :: a in FilterApps(apps, term, statusValue, positionValue) ==> a in FilterApps(apps, term, "all", positionValue)
  {
  }
}

=== FILE: lifecycle.dfy ===
/** The two endpoints that change an existing application
    (server.js:224-292): PATCH /api/applications/:id/status and
    DELETE /api/applications/:id.
 */
module Lifecycle {
  import opened Base
  import opened Text
  import opened Records
  import opened Queries

  /** A response together with the database afterwards. */
  datatype Change = Change(response: Response, store: Store)

  /** `['pending', 'reviewed'].includes(status)`; an absent field is undefined. */
  predicate IsStatus(status: Option<string>)
  {
    status.Some? && IsStatusValue(status.value)
  }

  const UpdateFailed: Response := Response(500, Failure("Failed to update status"))

  /** PATCH status: the value is checked before the database is touched;
      the UPDATE then fails outright when the table has no status column
      or the id is not an integer, and matches nothing for an unknown id. */
  function UpdateStatus(st: Store, idp: IdParam, status: Option<string>): (r: Change)
    ensures !IsStatus(status) ==> r == Change(Response(400, Failure("Invalid status")), st)
    ensures IsStatus(status) && (!st.schema.hasStatus || idp.Malformed?) ==> r == Change(UpdateFailed, st)
    ensures IsStatus(status) && st.schema.hasStatus && idp.Numeric? && idp.id !in Ids(st.apps) ==> r == Change(NotFound, st)
    ensures r.response.code != 200 ==> r.store == st
    ensures r.response.code == 200 ==>
              && IsStatus(status) && idp.Numeric? && idp.id in Ids(st.apps)
              && r.response.body.Updated?
              && r.response.body.row.id == idp.id && r.response.body.row.status == status
              && r.response.body.row in r.store.apps
  {
    if !IsStatus(status) then Change(Response(400, Failure("Invalid status")), st)
    else if !st.schema.hasStatus || idp.Malformed? then Change(UpdateFailed, st)
    else
      var i := IndexOf(st.apps, idp.id);
      if i < 0 then Change(NotFound, st)
      else
        var row := st.apps[i].(status := status);
        var apps := st.apps[i := row];
        assert apps[i] == row;
        Change(Response(200, Updated(row)), st.(apps := apps))
  }

  /** Every field but `status` of every row, and the file table, are
      untouched; the status changes only on rows with id `id`. */
  ghost predicate OnlyStatusOf(st: Store, next: Store, id: int, status: Option<string>)
  {
    && next.schema == st.schema && next.files == st.files
    && next.nextAppId == st.nextAppId && next.nextFileId == st.nextFileId
    && |next.apps| == |st.apps|
    && forall k :: 0 <= k < |st.apps| ==>
         next.apps[k] == (if st.apps[k].id == id then st.apps[k].(status := status) else st.apps[k])
  }

  // ---- Properties ----

  /** As the tables are created, no status update ever succeeds: a valid
      value gets 500 because the UPDATE names a column that does not exist. */
  lemma StatusUpdateFailsOnCreatedSchema(st: Store, idp: IdParam, status: Option<string>)
    requires st.schema == CreatedSchema
    ensures UpdateStatus(st, idp, status).store == st
    ensures UpdateStatus(st, idp, status).response.code == (if IsStatus(status) then 500 else 400)
  {
  }

  /** With the status column present, a valid value on an existing
      application succeeds, answers the updated row, and changes that
      row's status and nothing else. */
  lemma StatusUpdateOnIntendedSchema(st: Store, id: Int4, status: Option<string>)
    requires Valid(st) && st.schema.hasStatus
    requires IsStatus(status) && id in Ids(st.apps)
    ensures UpdateStatus(st, Numeric(id), status).response.code == 200
    ensures OnlyStatusOf(st, UpdateStatus(st, Numeric(id), status).store, id, status)
    ensures Get(UpdateStatus(st, Numeric(id), status).store, Numeric(id)).body.item.app.status == status
  {
    var i := IndexOf(st.apps, id);
    var next := UpdateStatus(st, Numeric(id), status).store;
    OnlyRowWithId(st, i);
    IdDeterminesRowAfterUpdate(st, next, i, status);
  }

  /** In a valid store no other row shares a row's id. */
  lemma OnlyRowWithId(st: Store, i: nat)
    requires Valid(st) && i < |st.apps|
    ensures forall k :: 0 <= k < |st.apps| && k != i ==> st.apps[k].id != st.apps[i].id
  {
    forall k | 0 <= k < |st.apps| && k != i
      ensures st.apps[k].id != st.apps[i].id
    {
      assert k < i || i < k;
    }
  }

  /** After the update, looking the id up finds the updated row. */
  lemma IdDeterminesRowAfterUpdate(st: Store, next: Store, i: nat, status: Option<string>)
    requires Valid(st) && i < |st.apps|
    requires next.apps == st.apps[i := st.apps[i].(status := status)]
    ensures IndexOf(next.apps, st.apps[i].id) == i
  {
    assert next.apps[i] in next.apps;
    var j := IndexOf(next.apps, st.apps[i].id);
    assert next.apps[j].id == st.apps[j].id;
  }

  /** Changing a row's status keeps the set of ids. */
  lemma IdsAfterStatus(apps: seq<AppRow>, i: nat, status: Option<string>)
    requires i < |apps|
    ensures Ids(apps[i := apps[i].(status := status)]) == Ids(apps)
  {
    var next := apps[i := apps[i].(status := status)];
    assert forall k :: 0 <= k < |apps| ==> next[k].id == apps[k].id;
    assert forall a :: a in next ==> exists k :: 0 <= k < |next| && next[k] == a;
    assert forall a :: a in apps ==> exists k :: 0 <= k < |apps| && apps[k] == a;
  }

  /** Setting the same status twice leaves the store as setting it once. */
  lemma UpdateStatusIdempotent(st: Store, idp: IdParam, status: Option<string>)
    requires Valid(st)
    ensures var once := UpdateStatus(st, idp, status).store;
            UpdateStatus(once, idp, status).store == once
  {
    var r := UpdateStatus(st, idp, status);
    if r.response.code == 200 {
      var i := IndexOf(st.apps, idp.id);
      IdDeterminesRowAfterUpdate(st, r.store, i, status);
      assert r.store.apps[i].status == status;
      assert r.store.apps[i := r.store.apps[i].(status := status)] == r.store.apps;
    }
  }

  lemma UpdateStatusPreservesValid(st: Store, idp: IdParam, status: Option<string>)
    requires Valid(st)
    ensures Valid(UpdateStatus(st, idp, status).store)
  {
    var r := UpdateStatus(st, idp, status);
    if r.response.code == 200 {
      var i := IndexOf(st.apps, idp.id);
      IdsAfterStatus(st.apps, i, status);
      assert forall k :: 0 <= k < |st.apps| ==> r.store.apps[k].id == st.apps[k].id;
    }
  }

  // ---- DELETE ----

  const DeleteFailed: Response := Response(500, Failure("Failed to delete application"))

  function PathsOf(rows: seq<FileRow>): (r: set<string>)
    ensures forall f :: f in rows ==> f.filePath in r
    ensures forall p :: p in r ==> exists f :: f in rows && f.filePath == p
  {
    set f | f in rows :: f.filePath
  }

  /** DELETE: the file paths are read first, then the application row is
      deleted (its file rows go with it by the cascade), then every
      collected path is unlinked, failures ignored, and only then is the
      transaction committed. `unlinkFails` are the paths whose unlink
      fails; `commitOk` says whether COMMIT succeeds. */
  function Delete(st: Store, disk: set<string>, idp: IdParam, unlinkFails: set<string>, commitOk: bool): (r: Outcome)
    ensures idp.Malformed? ==> r == Outcome(DeleteFailed, st, disk)
    ensures idp.Numeric? && idp.id !in Ids(st.apps) ==> r == Outcome(NotFound, st, disk)
    ensures r.response.code in {200, 404, 500}
    ensures r.response.code != 200 ==> r.store == st
    ensures r.disk <= disk
  {
    if idp.Malformed? then Outcome(DeleteFailed, st, disk)
    else if idp.id !in Ids(st.apps) then Outcome(NotFound, st, disk)
    else
      var id := idp.id;
      var removed := PathsOf(Filter(BelongsTo(id), st.files)) - unlinkFails;
      var after := disk - removed;
      var next := st.(apps := Filter(NotApp(id), st.apps), files := Filter(OtherThan(id), st.files));
      if commitOk then Outcome(Response(200, Message("Application deleted successfully")), next, after)
      else Outcome(DeleteFailed, st, after)
  }

  /** A successful delete removes the application and exactly its file
      rows, keeps every other row in order, and unlinks every file of
      the application except those whose unlink failed; nothing else on
      disk is touched, and a failed unlink leaves its file in place.
      Afterwards the id is not found. */
  lemma DeleteRemovesExactly(st: Store, disk: set<string>, id: Int4, unlinkFails: set<string>)
    requires Delete(st, disk, Numeric(id), unlinkFails, true).response.code == 200
    ensures var r := Delete(st, disk, Numeric(id), unlinkFails, true);
            && id in Ids(st.apps)
            && (forall a :: a in r.store.apps <==> a in st.apps && a.id != id)
            && (forall f :: f in r.store.files <==> f in st.files && f.applicationId != id)
            && IsSubsequence(r.store.apps, st.apps) && IsSubsequence(r.store.files, st.files)
            && (forall f :: f in st.files && f.applicationId == id && f.filePath !in unlinkFails ==> f.filePath !in r.disk)
            && (forall p :: p in disk && p !in r.disk ==> exists f :: f in st.files && f.applicationId == id && f.filePath == p)
            && (forall p :: p in disk && p in unlinkFails ==> p in r.disk)
            && Get(r.store, Numeric(id)) == NotFound
  {
    var r := Delete(st, disk, Numeric(id), unlinkFails, true);
    assert id !in Ids(r.store.apps);
  }

  /** When COMMIT fails after the unlinks, the rows come back but their
      files are already gone. */
  lemma FailedCommitLosesFiles(st: Store, disk: set<string>, id: Int4, unlinkFails: set<string>)
    requires id in Ids(st.apps)
    ensures var r := Delete(st, disk, Numeric(id), unlinkFails, false);
            && r.response == DeleteFailed && r.store == st
            && forall f :: f in st.files && f.applicationId == id && f.filePath !in unlinkFails ==> f.filePath !in r.disk
  {
  }

  /** Removing an application and its file rows keeps the store's invariant. */
  lemma CascadePreservesValid(st: Store, id: int)
    requires Valid(st)
    ensures Valid(st.(apps := Filter(NotApp(id), st.apps), files := Filter(OtherThan(id), st.files)))
  {
    CascadeKeepsDistinctIds(st, id);
    CascadeKeepsForeignKey(st, id);
  }

  /** The surviving rows of each table still have distinct ids. */
  lemma CascadeKeepsDistinctIds(st: Store, id: int)
    requires Valid(st)
    ensures var apps := Filter(NotApp(id), st.apps);
            forall i, j :: 0 <= i < j < |apps| ==> apps[i].id != apps[j].id
    ensures var files := Filter(OtherThan(id), st.files);
            forall i, j :: 0 <= i < j < |files| ==> files[i].id != files[j].id
  {
    DistinctKeysOfSubsequence(Filter(NotApp(id), st.apps), st.apps, (a: AppRow) => a.id);
    DistinctKeysOfSubsequence(Filter(OtherThan(id), st.files), st.files, (f: FileRow) => f.id);
  }

  /** Every surviving file row still references a surviving application. */
  lemma CascadeKeepsForeignKey(st: Store, id: int)
    requires Valid(st)
    ensures forall f :: f in Filter(OtherThan(id), st.files) ==> f.applicationId in Ids(Filter(NotApp(id), st.apps))
  {
    var apps, files := Filter(NotApp(id), st.apps), Filter(OtherThan(id), st.files);
    forall f | f in files
      ensures f.applicationId in Ids(apps)
    {
      var a :| a in st.apps && a.id == f.applicationId;
      assert NotApp(id)(a);
      assert a in apps;
    }
  }

  /** Route text naming a number outside the int4 range cannot be cast,
      so every endpoint taking an id answers its 500 and changes nothing. */
  lemma OutOfRangeIdFails(st: Store, disk: set<string>, n: int, status: Option<string>,
                          unlinkFails: set<string>, commitOk: bool)
    requires n > Int4Max || n < -0x8000_0000
    ensures Get(st, ParseId(n)) == Response(500, Failure("Failed to fetch application"))
    ensures IsStatus(status) ==> UpdateStatus(st, ParseId(n), status) == Change(UpdateFailed, st)
    ensures Delete(st, disk, ParseId(n), unlinkFails, commitOk) == Outcome(DeleteFailed, st, disk)
  {
  }

  /** A number in range reaches the query and is looked up. */
  lemma InRangeIdLookedUp(st: Store, n: int)
    requires 0 <= n <= Int4Max && n !in Ids(st.apps)
    ensures Get(st, ParseId(n)) == NotFound
  {
  }

  lemma DeletePreservesValid(st: Store, disk: set<string>, idp: IdParam, unlinkFails: set<string>, commitOk: bool)
    requires Valid(st)
    ensures Valid(Delete(st, disk, idp, unlinkFails, commitOk).store)
  {
    if idp.Numeric? {
      CascadePreservesValid(st, idp.id);
    }
  }

}

=== FILE: queries.dfy ===
/** The two read endpoints (server.js:169-222): GET /api/applications
    lists every application, newest first, each with the JSON aggregate
    of its file rows; GET /api/applications/:id returns one such row. The
    aggregate is SQL NULL, not an empty list, for an application without
    file rows.
 */
module Queries {
  import opened Base
  import opened Records

  function ViewOf(f: FileRow): FileView
  {
    FileView(f.id, f.fileName, f.filePath, f.fileType, f.fileSize, CategoryName(f.category))
  }

  /** The `files` column: the application's file rows in table order, or
      None when the FILTER leaves nothing to aggregate. */
  function FilesOf(files: seq<FileRow>, id: int): (r: Option<seq<FileView>>)
    ensures r.None? <==> Count(BelongsTo(id), files) == 0
    ensures r.Some? ==> |r.value| == Count(BelongsTo(id), files)
    ensures r.Some? ==> forall k :: 0 <= k < |r.value| ==>
              exists f :: f in files && f.applicationId == id && r.value[k] == ViewOf(f)
    ensures forall f :: f in files && f.applicationId == id ==> r.Some? && ViewOf(f) in r.value
  {
    var own := Filter(BelongsTo(id), files);
    if own == [] then None
    else
      ViewsCoverRows(own);
      assert forall k :: 0 <= k < |own| ==> own[k] in own && BelongsTo(id)(own[k]);
      Some(Views(own))
  }

  /** The rows' views, position by position. */
  function Views(rows: seq<FileRow>): (r: seq<FileView>)
    ensures |r| == |rows|
    ensures forall k :: 0 <= k < |rows| ==> r[k] == ViewOf(rows[k])
  {
    seq(|rows|, k requires 0 <= k < |rows| => ViewOf(rows[k]))
  }

  lemma ViewsCoverRows(rows: seq<FileRow>)
    ensures forall f :: f in rows ==> ViewOf(f) in Views(rows)
  {
    forall f | f in rows
      ensures ViewOf(f) in Views(rows)
    {
      var k :| 0 <= k < |rows| && rows[k] == f;
      assert Views(rows)[k] == ViewOf(f);
    }
  }

  function View(st: Store, a: AppRow): AppView
  {
    AppView(a, FilesOf(st.files, a.id))
  }

  /** ORDER BY created_at DESC. */
  ghost predicate NewestFirst(s: seq<AppRow>)
  {
    forall i, j :: 0 <= i < j < |s| ==> s[i].createdAt >= s[j].createdAt
  }

  /** Places `a` in front of the first row that is not newer than it. */
  function InsertByDate(a: AppRow, s: seq<AppRow>): (r: seq<AppRow>)
    requires NewestFirst(s)
    ensures NewestFirst(r)
    ensures multiset(r) == multiset(s) + multiset{a}
    decreases |s|
  {
    if s == [] then [a]
    else if a.createdAt >= s[0].createdAt then
      ConsNewestFirst(a, s);
      [a] + s
    else
      var rest := InsertByDate(a, s[1..]);
      assert s == [s[0]] + s[1..];
      NoNewerThanHead(a, s, rest);
      ConsNewestFirst(s[0], rest);
      [s[0]] + rest
  }

  /** Rows no newer than `h` may follow it. */
  lemma ConsNewestFirst(h: AppRow, s: seq<AppRow>)
    requires NewestFirst(s)
    requires forall x :: x in s ==> x.createdAt <= h.createdAt
    ensures NewestFirst([h] + s)
  {
    var r := [h] + s;
    assert forall j :: 1 <= j < |r| ==> r[j] == s[j - 1] && r[j] in s;
  }

  /** Inserting an older row behind the head keeps every row no newer than the head. */
  lemma NoNewerThanHead(a: AppRow, s: seq<AppRow>, rest: seq<AppRow>)
    requires NewestFirst(s) && s != [] && a.createdAt < s[0].createdAt
    requires multiset(rest) == multiset(s[1..]) + multiset{a}
    ensures forall x :: x in rest ==> x.createdAt <= s[0].createdAt
  {
    forall x | x in rest
      ensures x.createdAt <= s[0].createdAt
    {
      assert x in multiset(rest);
      if x != a {
        assert x in multiset(s[1..]);
        var j :| 0 <= j < |s[1..]| && s[1..][j] == x;
        assert s[j + 1] == x;
      }
    }
  }

  /** The rows in newest-first order; rows with equal timestamps come out
      in an order the query does not fix (here: reverse table order). */
  function SortByDate(apps: seq<AppRow>): (r: seq<AppRow>)
    ensures NewestFirst(r)
    ensures multiset(r) == multiset(apps)
    decreases |apps|
  {
    if apps == [] then []
    else
      assert apps == [apps[0]] + apps[1..];
      InsertByDate(apps[0], SortByDate(apps[1..]))
  }

  function AppsOf(items: seq<AppView>): (r: seq<AppRow>)
    ensures |r| == |items|
    ensures forall k :: 0 <= k < |items| ==> r[k] == items[k].app
  {
    seq(|items|, k requires 0 <= k < |items| => items[k].app)
  }

  /** GET /api/applications: every application exactly once, newest first,
      each with its own files. */
  function List(st: Store): (r: Response)
    ensures r.code == 200 && r.body.Listing?
    ensures multiset(AppsOf(r.body.items)) == multiset(st.apps)
    ensures NewestFirst(AppsOf(r.body.items))
    ensures forall k :: 0 <= k < |r.body.items| ==> r.body.items[k].files == FilesOf(st.files, r.body.items[k].app.id)
  {
    var sorted := SortByDate(st.apps);
    var items := seq(|sorted|, k requires 0 <= k < |sorted| => View(st, sorted[k]));
    assert AppsOf(items) == sorted;
    Response(200, Listing(items))
  }

  /** GET /api/applications/:id. */
  function Get(st: Store, idp: IdParam): (r: Response)
    ensures idp.Malformed? ==> r == Response(500, Failure("Failed to fetch application"))
    ensures idp.Numeric? && idp.id !in Ids(st.apps) ==> r == NotFound
    ensures idp.Numeric? && idp.id in Ids(st.apps) ==>
              && r.code == 200 && r.body.Single?
              && r.body.item.app in st.apps && r.body.item.app.id == idp.id
              && r.body.item.files == FilesOf(st.files, idp.id)
  {
    if idp.Malformed? then Response(500, Failure("Failed to fetch application"))
    else
      var i := IndexOf(st.apps, idp.id);
      if i < 0 then NotFound else Response(200, Single(View(st, st.apps[i])))
  }

  // ---- Properties ----

  /** Ids are unique in a valid store, so a row is found by its id. */
  lemma IdDeterminesRow(st: Store, a: AppRow)
    requires Valid(st) && a in st.apps
    ensures st.apps[IndexOf(st.apps, a.id)] == a
  {
    var i := IndexOf(st.apps, a.id);
    var j :| 0 <= j < |st.apps| && st.apps[j] == a;
  }

  /** Fetching any listed application by its id returns exactly the
      listed item. */
  lemma GetAgreesWithList(st: Store, k: nat)
    requires Valid(st)
    requires k < |List(st).body.items|
    ensures List(st).body.items[k].app.id <= Int4Max
    ensures Get(st, Numeric(List(st).body.items[k].app.id)) == Response(200, Single(List(st).body.items[k]))
  {
    var items := List(st).body.items;
    var a := items[k].app;
    assert a == AppsOf(items)[k];
    assert a in multiset(st.apps);
    IdDeterminesRow(st, a);
  }

  /** An application without file rows is listed and fetched with NULL
      files, never with an empty list. */
  lemma NoFilesIsNull(st: Store, id: int)
    requires forall f :: f in st.files ==> f.applicationId != id
    ensures FilesOf(st.files, id) == None
  {
    FilterKeepsNone(BelongsTo(id), st.files);
  }

  /** After appending an application under a new id together with file
      rows that all belong to it, fetching the id returns that row and
      exactly those files. */
  lemma GetAfterInsert(st: Store, next: Store, id: Int4)
    requires id !in Ids(st.apps)
    requires |next.apps| == |st.apps| + 1 && next.apps[..|st.apps|] == st.apps && next.apps[|st.apps|].id == id
    requires |st.files| <= |next.files| && next.files[..|st.files|] == st.files
    requires forall k :: |st.files| <= k < |next.files| ==> next.files[k].applicationId == id
    requires forall k :: 0 <= k < |st.files| ==> next.files[k].applicationId != id
    ensures Get(next, Numeric(id)).code == 200 && Get(next, Numeric(id)).body.Single?
    ensures Get(next, Numeric(id)).body.item.app == next.apps[|st.apps|]
    ensures |next.files| > |st.files| ==> Get(next, Numeric(id)).body.item.files.Some?
    ensures |next.files| > |st.files| ==> |Get(next, Numeric(id)).body.item.files.value| == |next.files| - |st.files|
  {
    AppendedIdFound(st.apps, next.apps, id);
    OwnedRowsCounted(st.files, next.files, id);
  }

  lemma AppendedIdFound(apps: seq<AppRow>, next: seq<AppRow>, id: int)
    requires id !in Ids(apps)
    requires |next| == |apps| + 1 && next[..|apps|] == apps && next[|apps|].id == id
    ensures IndexOf(next, id) == |apps|
  {
    assert next[|apps|] in next;
    assert forall k :: 0 <= k < |apps| ==> next[k] == apps[k] && apps[k] in apps;
  }

  lemma OwnedRowsCounted(files: seq<FileRow>, next: seq<FileRow>, id: int)
    requires |files| <= |next| && next[..|files|] == files
    requires forall k :: |files| <= k < |next| ==> next[k].applicationId == id
    requires forall k :: 0 <= k < |files| ==> next[k].applicationId != id
    ensures Count(BelongsTo(id), next) == |next| - |files|
  {
    var added := next[|files|..];
    assert next == files + added;
    CountAppend(BelongsTo(id), files, added);
    assert forall f :: f in files ==> !BelongsTo(id)(f);
    FilterKeepsNone(BelongsTo(id), files);
    assert forall f :: f in added ==> BelongsTo(id)(f);
    FilterKeepsAll(BelongsTo(id), added);
  }
}

=== FILE: store.dfy ===
/** The record store (server.js:58-92): two tables, `applications` and
    `application_files`, the latter foreign-keyed to the former with
    ON DELETE CASCADE, plus the SERIAL counters that hand out ids and the
    HTTP response shapes the handlers produce.
 */
module Records {
  import opened Base
  import opened Text

  /** What the CREATE TABLE statements give the database. `hasStatus` says
      whether `applications` has a `status` column (defaulting to
      'pending'); `fileTypeWidth` is the VARCHAR width of
      `application_files.file_type`. */
  datatype Schema = Schema(hasStatus: bool, fileTypeWidth: nat)

  /** The schema the server creates: no status column, file_type VARCHAR(50). */
  const CreatedSchema: Schema := Schema(false, 50)

  /** The schema the handlers evidently expect: a status column and a
      file_type wide enough for every registered MIME type. */
  const IntendedSchema: Schema := Schema(true, 255)

  /** The largest value of PostgreSQL's `integer` (int4), the type of the
      SERIAL ids and of the `$1` they are compared with. */
  const Int4Max: int := 0x7fff_ffff

  type Int4 = x: int | -0x8000_0000 <= x <= 0x7fff_ffff

  /** Column widths of the created schema. */
  const NameWidth: nat := 100
  const EmailWidth: nat := 100
  const PositionWidth: nat := 100
  const PhoneWidth: nat := 15
  const FileNameWidth: nat := 255
  const FilePathWidth: nat := 500

  /** The two values the status endpoint accepts. */
  const Pending: string := "pending"
  const Reviewed: string := "reviewed"

  predicate IsStatusValue(s: string)
  {
    s == Pending || s == Reviewed
  }

  datatype Category = ResumeDoc | CoverLetterDoc | AdditionalDoc

  /** The text stored in `application_files.category`. */
  function CategoryName(c: Category): string
  {
    match c
    case ResumeDoc => "resume"
    case CoverLetterDoc => "cover_letter"
    case AdditionalDoc => "additional"
  }

  /** A row of `applications`; `status` is None when the schema has no such column. */
  datatype AppRow = AppRow(
    id: nat,
    name: string,
    email: string,
    position: string,
    resume: string,
    phone: Option<string>,
    coverLetter: Option<string>,
    createdAt: int,
    status: Option<string>)

  /** A row of `application_files`. */
  datatype FileRow = FileRow(
    id: nat,
    applicationId: nat,
    fileName: string,
    filePath: string,
    fileType: string,
    fileSize: nat,
    category: Category,
    uploadedAt: int)

  /** Both tables and the next value of each id sequence. The counters
      advance only when a transaction commits. */
  datatype Store = Store(schema: Schema, apps: seq<AppRow>, files: seq<FileRow>, nextAppId: nat, nextFileId: nat)

  function Ids(apps: seq<AppRow>): set<nat>
  {
    set a | a in apps :: a.id
  }

  /** Primary keys are unique, ids stay below their sequence, which never
      passes the int4 range, the status column is present exactly when
      the schema has it, and every file row references an existing
      application (the foreign key). */
  ghost predicate Valid(st: Store)
  {
    && 1 <= st.nextAppId <= Int4Max + 1 && 1 <= st.nextFileId <= Int4Max + 1
    && (forall i, j :: 0 <= i < j < |st.apps| ==> st.apps[i].id != st.apps[j].id)
    && (forall a :: a in st.apps ==> 1 <= a.id < st.nextAppId && (a.status.Some? <==> st.schema.hasStatus))
    && (forall i, j :: 0 <= i < j < |st.files| ==> st.files[i].id != st.files[j].id)
    && (forall f :: f in st.files ==> 1 <= f.id < st.nextFileId && f.applicationId in Ids(st.apps))
  }

  /** The empty database right after the tables are created. */
  function Empty(schema: Schema): (st: Store)
    ensures Valid(st)
  {
    Store(schema, [], [], 1, 1)
  }

  /** Position of the application with id `id`, or -1. */
  function IndexOf(apps: seq<AppRow>, id: int): (i: int)
    ensures -1 <= i < |apps|
    ensures i == -1 <==> id !in Ids(apps)
    ensures i >= 0 ==> apps[i].id == id
    decreases |apps|
  {
    if apps == [] then -1
    else if apps[0].id == id then 0
    else
      var j := IndexOf(apps[1..], id);
      assert Ids(apps) == {apps[0].id} + Ids(apps[1..]) by {
        assert forall a :: a in apps <==> a == apps[0] || a in apps[1..];
      }
      if j == -1 then -1 else j + 1
  }

  /** Rows of `application_files` owned by application `id`, in table order. */
  function BelongsTo(id: int): FileRow -> bool
  {
    (f: FileRow) => f.applicationId == id
  }

  function OtherThan(id: int): FileRow -> bool
  {
    (f: FileRow) => f.applicationId != id
  }

  function NotApp(id: int): AppRow -> bool
  {
    (a: AppRow) => a.id != id
  }

  /** The route parameter `:id` as PostgreSQL reads it: text it can cast
      to `integer`, or anything else, numbers outside the int4 range
      included (which makes the query fail). */
  datatype IdParam = Numeric(id: Int4) | Malformed

  /** The parameter for route text spelling the whole number `n`. */
  function ParseId(n: int): (p: IdParam)
    ensures p.Numeric? <==> -0x8000_0000 <= n <= Int4Max
    ensures p.Numeric? ==> p.id == n
  {
    if -0x8000_0000 <= n <= Int4Max then Numeric(n) else Malformed
  }

  /** A file as the JSON aggregate reports it. */
  datatype FileView = FileView(id: nat, fileName: string, filePath: string, fileType: string, fileSize: nat, category: string)

  /** An application row with its aggregated files; `files` is None (SQL
      NULL) when it has no file rows. */
  datatype AppView = AppView(app: AppRow, files: Option<seq<FileView>>)

  datatype Body =
    | Created(id: nat, message: string)
    | Failure(error: string)
    | Message(message: string)
    | Updated(row: AppRow)
    | Listing(items: seq<AppView>)
    | Single(item: AppView)

  datatype Response = Response(code: nat, body: Body)

  /** The result of a request that may write: the response, the database
      afterwards, and the set of paths present on disk afterwards. */
  datatype Outcome = Outcome(response: Response, store: Store, disk: set<string>)

  const NotFound: Response := Response(404, Failure("Application not found"))
}

=== FILE: submit.dfy ===
/** POST /api/applications (server.js:104-166, 295-304): the upload intake
    runs first; if it rejects the request, the error middleware answers.
    Otherwise one transaction inserts the application row and then one
    file row per received file (resume, cover letter, additional
    documents); any failure rolls the transaction back and answers 500.
    The files written by the intake stay on disk either way.
 */
module Submission {
  import opened Base
  import opened Text
  import opened Records
  import opened Queries
  import Upload

  /** The text fields of the multipart body; an absent field is bound as SQL NULL. */
  datatype Form = Form(
    name: Option<string>,
    email: Option<string>,
    phone: Option<string>,
    position: Option<string>,
    coverLetter: Option<string>)

  /** The error middleware: multer's own errors are client errors, the
      filter's plain Error is a server error. */
  function UploadErrorResponse(e: Upload.UploadError): (r: Response)
    ensures r.code == 400 <==> !e.TypeNotAllowed?
    ensures r.code == 500 <==> e.TypeNotAllowed?
    ensures r.body.Failure?
  {
    match e
    case FileTooLarge => Response(400, Failure("File too large. Maximum size is 5MB."))
    case UnexpectedField(_) => Response(400, Failure("Unexpected field"))
    case TypeNotAllowed => Response(500, Failure("Something went wrong"))
    case FieldValueTooLong(_) => Response(400, Failure("Field value too long"))
  }

  /** A parameter bound to a VARCHAR(n) column is accepted; NULL always is. */
  predicate Fits(s: Option<string>, n: nat)
  {
    s.None? || FitVarchar(s.value, n).Some?
  }

  /** The value a VARCHAR(n) column ends up holding. */
  function Fitted(s: Option<string>, n: nat): (r: Option<string>)
    requires Fits(s, n)
    ensures r.None? <==> s.None?
    ensures r.Some? ==> |r.value| <= n && StartsWith(s.value, r.value)
    ensures s.Some? && |s.value| <= n ==> r == s
  {
    if s.None? then None else FitVarchar(s.value, n)
  }

  /** The NOT NULL text columns are present and every VARCHAR value fits. */
  predicate FieldsAccepted(form: Form)
  {
    && form.name.Some? && form.email.Some? && form.position.Some?
    && Fits(form.name, NameWidth) && Fits(form.email, EmailWidth)
    && Fits(form.position, PositionWidth) && Fits(form.phone, PhoneWidth)
  }

  /** `applications.resume`: the path of the first resume file, or NULL. */
  function ResumePath(g: Upload.Received): (r: Option<string>)
    ensures r.Some? <==> g.resume != []
    ensures r.Some? ==> r.value == g.resume[0].path
  {
    if g.resume == [] then None else Some(g.resume[0].path)
  }

  /** The row `INSERT INTO applications` produces under id `id`, or None
      when a NOT NULL or VARCHAR constraint rejects it. */
  function NewApplication(schema: Schema, id: nat, form: Form, resume: Option<string>, now: int): (r: Option<AppRow>)
    ensures r.Some? <==> FieldsAccepted(form) && resume.Some?
    ensures r.Some? ==> r.value.id == id && r.value.resume == resume.value && r.value.createdAt == now
    ensures r.Some? ==> r.value.coverLetter == form.coverLetter
    ensures r.Some? ==> StartsWith(form.name.value, r.value.name) && StartsWith(form.email.value, r.value.email)
    ensures r.Some? ==> StartsWith(form.position.value, r.value.position)
    ensures r.Some? && |form.name.value| <= NameWidth ==> r.value.name == form.name.value
    ensures r.Some? && |form.email.value| <= EmailWidth ==> r.value.email == form.email.value
    ensures r.Some? && |form.position.value| <= PositionWidth ==> r.value.position == form.position.value
    ensures r.Some? ==> (r.value.phone.Some? <==> form.phone.Some?)
    ensures r.Some? ==> (r.value.status.Some? <==> schema.hasStatus)
    ensures r.Some? && schema.hasStatus ==> r.value.status == Some(Pending)
  {
    if !FieldsAccepted(form) || resume.None? then None
    else
      Some(AppRow(
        id,
        Fitted(form.name, NameWidth).value,
        Fitted(form.email, EmailWidth).value,
        Fitted(form.position, PositionWidth).value,
        resume.value,
        Fitted(form.phone, PhoneWidth),
        form.coverLetter,
        now,
        if schema.hasStatus then Some(Pending) else None))
  }

  /** A file to record and the category it is recorded under. */
  datatype Entry = Entry(file: Upload.StoredFile, category: Category)

  function Tagged(fs: seq<Upload.StoredFile>, c: Category): (r: seq<Entry>)
    ensures |r| == |fs|
    ensures forall i :: 0 <= i < |fs| ==> r[i] == Entry(fs[i], c)
  {
    seq(|fs|, i requires 0 <= i < |fs| => Entry(fs[i], c))
  }

  /** The files the handler records, in its order: the first resume, the
      first cover letter, then every additional document. */
  function Entries(g: Upload.Received): seq<Entry>
  {
    Tagged(FirstOnly(g.resume), ResumeDoc) + Tagged(FirstOnly(g.coverLetter), CoverLetterDoc) + Tagged(g.additional, AdditionalDoc)
  }

  /** `INSERT INTO application_files` accepts the file's name, path and MIME type. */
  predicate RowFits(width: nat, f: Upload.StoredFile)
  {
    && FitVarchar(f.originalName, FileNameWidth).Some?
    && FitVarchar(f.path, FilePathWidth).Some?
    && FitVarchar(f.mimeType, width).Some?
  }

  predicate AllFit(width: nat, es: seq<Entry>)
  {
    forall e :: e in es ==> RowFits(width, e.file)
  }

  function FileRowOf(width: nat, id: nat, appId: nat, e: Entry, now: int): FileRow
    requires RowFits(width, e.file)
  {
    FileRow(
      id, appId,
      FitVarchar(e.file.originalName, FileNameWidth).value,
      FitVarchar(e.file.path, FilePathWidth).value,
      FitVarchar(e.file.mimeType, width).value,
      e.file.size, e.category, now)
  }

  /** One row per entry, numbered from `firstId` on. */
  function FileRows(width: nat, appId: nat, es: seq<Entry>, firstId: nat, now: int): (r: seq<FileRow>)
    requires AllFit(width, es)
    ensures |r| == |es|
    ensures forall i :: 0 <= i < |es| ==> r[i] == FileRowOf(width, firstId + i, appId, es[i], now)
  {
    seq(|es|, i requires 0 <= i < |es| && RowFits(width, es[i].file) => FileRowOf(width, firstId + i, appId, es[i], now))
  }

  /** The SERIAL sequences can still hand out the application id and `n`
      file ids: `nextval` fails once a sequence would pass the int4 range. */
  predicate IdsLeft(st: Store, n: nat)
  {
    st.nextAppId <= Int4Max && st.nextFileId + n <= Int4Max + 1
  }

  /** The transaction after BEGIN: the new store on COMMIT, None on ROLLBACK. */
  function Transaction(st: Store, form: Form, g: Upload.Received, now: int): Option<Store>
  {
    var id := st.nextAppId;
    var width := st.schema.fileTypeWidth;
    var es := Entries(g);
    match NewApplication(st.schema, id, form, ResumePath(g), now)
    case None => None
    case Some(row) =>
      if !AllFit(width, es) || !IdsLeft(st, |es|) then None
      else
        Some(Store(st.schema, st.apps + [row], st.files + FileRows(width, id, es, st.nextFileId, now),
                   id + 1, st.nextFileId + |es|))
  }

  /** The whole request. The file parts arrive in `parts`; part `i` is
      stored under `nonce(i)`; `now` is the transaction's timestamp. */
  function Submit(mode: Upload.FilterMode, st: Store, disk: set<string>, form: Form,
                  parts: seq<Upload.Upload>, nonce: nat -> Upload.Nonce, now: int): (r: Outcome)
    ensures r.response.code in {201, 400, 500}
    ensures r.response.code == 201 <==> r.response.body.Created?
    ensures r.response.code != 201 ==> r.store == st
    ensures r.response.code == 400 ==> Upload.Intake(mode, parts, nonce).Rejected?
    ensures r.disk == Upload.AfterIntake(disk, Upload.Intake(mode, parts, nonce))
  {
    match Upload.Intake(mode, parts, nonce)
    case Rejected(e, written) => Outcome(UploadErrorResponse(e), st, disk - written)
    case Accepted(g) =>
      var after := disk + Upload.Paths(g);
      match Transaction(st, form, g, now)
      case None => Outcome(Response(500, Failure("Failed to submit application")), st, after)
      case Some(next) => Outcome(Response(201, Created(st.nextAppId, "Application submitted successfully")), next, after)
  }

  /** The route as a whole, over the body's parts in arrival order. The
      text fields are checked against the parser's 1 MiB cap; when none
      is over it, the request proceeds as `Submit` on its file parts.
      `form` is `req.body`: the values of the text fields. */
  function SubmitRequest(mode: Upload.FilterMode, st: Store, disk: set<string>, form: Form,
                         body: seq<Upload.BodyPart>, nonce: nat -> Upload.Nonce, now: int): (r: Outcome)
    ensures Upload.FirstTooLong(body).None? ==> r == Submit(mode, st, disk, form, Upload.FilesOf(body), nonce, now)
    ensures Upload.FirstTooLong(body).Some? ==> r.response.code in {400, 500} && r.store == st
    ensures r.disk == Upload.AfterIntake(disk, Upload.BodyIntake(mode, body, nonce))
  {
    match Upload.FirstTooLong(body)
    case None => Submit(mode, st, disk, form, Upload.FilesOf(body), nonce, now)
    case Some(_) =>
      var intake := Upload.BodyIntake(mode, body, nonce);
      Outcome(UploadErrorResponse(intake.error), st, disk - intake.written)
  }

  // ---- Properties ----

  /** A text field over 1 MiB, after file parts that pass, is answered 400
      "Field value too long"; nothing is recorded and the files written
      before it are removed. */
  lemma LongFieldAnswered400(mode: Upload.FilterMode, st: Store, disk: set<string>, form: Form,
                             body: seq<Upload.BodyPart>, nonce: nat -> Upload.Nonce, now: int, k: nat)
    requires Upload.FirstTooLong(body) == Some(k) && Upload.Admissible(mode, Upload.FilesOf(body[..k]))
    ensures SubmitRequest(mode, st, disk, form, body, nonce, now)
         == Outcome(Response(400, Failure("Field value too long")), st,
                    disk - Upload.Paths(Upload.Sorted(Upload.FilesOf(body[..k]), nonce)))
  {
    var w := Upload.Paths(Upload.Sorted(Upload.FilesOf(body[..k]), nonce));
    var e := Upload.FieldValueTooLong(body[k].name);
    assert UploadErrorResponse(e) == Response(400, Failure("Field value too long"));
    Upload.LongFieldRejected(mode, body, nonce, k);
    SubmitRequestOfLongField(mode, st, disk, form, body, nonce, now, e, w);
  }

  /** With a text field over the cap, the request is answered with the
      body intake's error and the files it wrote are removed. */
  lemma SubmitRequestOfLongField(mode: Upload.FilterMode, st: Store, disk: set<string>, form: Form,
                                 body: seq<Upload.BodyPart>, nonce: nat -> Upload.Nonce, now: int,
                                 e: Upload.UploadError, w: set<string>)
    requires Upload.FirstTooLong(body).Some? && Upload.BodyIntake(mode, body, nonce) == Upload.Rejected(e, w)
    ensures SubmitRequest(mode, st, disk, form, body, nonce, now) == Outcome(UploadErrorResponse(e), st, disk - w)
  {
  }

  /** A whole request is recorded exactly when every text field is within
      1 MiB and its file parts meet `SubmitSucceedsIff`. */
  lemma SubmitRequestSucceedsIff(mode: Upload.FilterMode, st: Store, disk: set<string>, form: Form,
                                 body: seq<Upload.BodyPart>, nonce: nat -> Upload.Nonce, now: int)
    ensures var files := Upload.FilesOf(body);
            (SubmitRequest(mode, st, disk, form, body, nonce, now).response.code == 201
             <==> && (forall i :: 0 <= i < |body| ==> !Upload.TooLong(body[i]))
                  && Upload.Admissible(mode, files)
                  && Count(Upload.PartIn(Upload.ResumeField), files) == 1
                  && FieldsAccepted(form)
                  && (forall i :: 0 <= i < |files| && Upload.Named(files[i]) ==> RowFits(st.schema.fileTypeWidth, Upload.Store(files[i], nonce(i))))
                  && IdsLeft(st, Count(Upload.NamedPart, files)))
  {
    SubmitSucceedsIff(mode, st, disk, form, Upload.FilesOf(body), nonce, now);
  }

  /** A valid resume followed by a cover letter of more than 1 MiB is
      answered 400 "Field value too long", and the resume's file is
      removed again. */
  lemma LongCoverLetterAnswered400(mode: Upload.FilterMode, st: Store, disk: set<string>, form: Form,
                                   resume: Upload.Upload, letter: string, nonce: nat -> Upload.Nonce, now: int)
    requires Upload.PartOk(mode, resume) && resume.field == Upload.ResumeField
    requires Utf8Length(letter) > Upload.MaxFieldValue
    ensures SubmitRequest(mode, st, disk, form, [Upload.FilePart(resume), Upload.TextPart("cover_letter", letter)], nonce, now)
         == Outcome(Response(400, Failure("Field value too long")), st, disk - {Upload.Store(resume, nonce(0)).path})
  {
    var body := [Upload.FilePart(resume), Upload.TextPart("cover_letter", letter)];
    assert !Upload.TooLong(body[0]) && Upload.TooLong(body[1]);
    assert Upload.FirstTooLong(body) == Some(1);
    assert body[..1] == [Upload.FilePart(resume)];
    assert Upload.FilesOf(body[..1]) == [resume];
    Upload.SingleAdmissible(mode, resume);
    Upload.SortedOfOne(resume, nonce);
    LongFieldAnswered400(mode, st, disk, form, body, nonce, now, 1);
  }

  /** A part over 5 MiB that is within its field's cap and passes the
      filter, after admissible parts, is answered 400 "File too large";
      nothing is recorded and every file written so far is removed. */
  lemma OversizedPartAnswered400(mode: Upload.FilterMode, st: Store, disk: set<string>, form: Form,
                                 parts: seq<Upload.Upload>, nonce: nat -> Upload.Nonce, now: int, k: nat)
    requires k < |parts| && Upload.Admissible(mode, parts[..k])
    requires Count(Upload.PartIn(parts[k].field), parts[..k]) < Upload.MaxCount(parts[k].field)
    requires Upload.Admits(mode, parts[k]) && parts[k].size > Upload.MaxFileSize
    ensures Submit(mode, st, disk, form, parts, nonce, now)
         == Outcome(Response(400, Failure("File too large. Maximum size is 5MB.")), st,
                    disk - (Upload.Paths(Upload.Sorted(parts[..k], nonce)) + {Upload.Store(parts[k], nonce(k)).path}))
  {
    Upload.AdmittedPartIsNamed(mode, parts[k]);
    Upload.OversizedError(mode, parts[..k], parts[k]);
    Upload.FirstFailureAt(mode, parts, k);
    Upload.IntakeRejectsAtFirstFailure(mode, parts, nonce, k);
    var intake := Upload.Intake(mode, parts, nonce);
    SubmitOfRejection(mode, st, disk, form, parts, nonce, now, intake.error, intake.written);
  }

  /** A named part beyond its field's cap (a second resume or cover
      letter, a fourth additional document) or under an unknown field,
      after admissible parts, is answered 400 "Unexpected field". */
  lemma OverCapAnswered400(mode: Upload.FilterMode, st: Store, disk: set<string>, form: Form,
                           parts: seq<Upload.Upload>, nonce: nat -> Upload.Nonce, now: int, k: nat)
    requires k < |parts| && Upload.Admissible(mode, parts[..k]) && Upload.Named(parts[k])
    requires Count(Upload.PartIn(parts[k].field), parts[..k]) >= Upload.MaxCount(parts[k].field)
    ensures Submit(mode, st, disk, form, parts, nonce, now)
         == Outcome(Response(400, Failure("Unexpected field")), st, disk - Upload.Paths(Upload.Sorted(parts[..k], nonce)))
  {
    Upload.OverCapError(mode, parts[..k], parts[k]);
    Upload.FirstFailureAt(mode, parts, k);
    Upload.IntakeRejectsAtFirstFailure(mode, parts, nonce, k);
    var intake := Upload.Intake(mode, parts, nonce);
    SubmitOfRejection(mode, st, disk, form, parts, nonce, now, intake.error, intake.written);
  }

  /** A named part within its cap that the filter refuses, after
      admissible parts, is answered 500 "Something went wrong". */
  lemma FilterFailureAnswered500(mode: Upload.FilterMode, st: Store, disk: set<string>, form: Form,
                                 parts: seq<Upload.Upload>, nonce: nat -> Upload.Nonce, now: int, k: nat)
    requires k < |parts| && Upload.Admissible(mode, parts[..k]) && Upload.Named(parts[k])
    requires Count(Upload.PartIn(parts[k].field), parts[..k]) < Upload.MaxCount(parts[k].field)
    requires !Upload.Admits(mode, parts[k])
    ensures Submit(mode, st, disk, form, parts, nonce, now)
         == Outcome(Response(500, Failure("Something went wrong")), st, disk - Upload.Paths(Upload.Sorted(parts[..k], nonce)))
  {
    Upload.IntakeRefusesPart(mode, parts, nonce, k);
    RefusalAnswered500(mode, st, disk, form, parts, nonce, now, Upload.Paths(Upload.Sorted(parts[..k], nonce)));
  }

  /** A rejected intake is answered with its error and leaves the store
      alone; the files it wrote are removed. */
  lemma SubmitOfRejection(mode: Upload.FilterMode, st: Store, disk: set<string>, form: Form,
                          parts: seq<Upload.Upload>, nonce: nat -> Upload.Nonce, now: int,
                          e: Upload.UploadError, written: set<string>)
    requires Upload.Intake(mode, parts, nonce) == Upload.Rejected(e, written)
    ensures Submit(mode, st, disk, form, parts, nonce, now) == Outcome(UploadErrorResponse(e), st, disk - written)
  {
  }

  /** A rejection by the file filter is answered 500 "Something went
      wrong"; the files written before it are removed. */
  lemma RefusalAnswered500(mode: Upload.FilterMode, st: Store, disk: set<string>, form: Form,
                           parts: seq<Upload.Upload>, nonce: nat -> Upload.Nonce, now: int, w: set<string>)
    requires Upload.Intake(mode, parts, nonce) == Upload.Rejected(Upload.TypeNotAllowed, w)
    ensures Submit(mode, st, disk, form, parts, nonce, now) == Outcome(Response(500, Failure("Something went wrong")), st, disk - w)
  {
    SubmitOfRejection(mode, st, disk, form, parts, nonce, now, Upload.TypeNotAllowed, w);
  }

  /** Two resume files: the second is refused with 400 "Unexpected field". */
  lemma SecondResumeAnswered400(mode: Upload.FilterMode, st: Store, disk: set<string>, form: Form,
                                p1: Upload.Upload, p2: Upload.Upload, nonce: nat -> Upload.Nonce, now: int)
    requires Upload.PartOk(mode, p1) && p1.field == Upload.ResumeField
    requires p2.field == Upload.ResumeField && Upload.Named(p2)
    ensures Submit(mode, st, disk, form, [p1, p2], nonce, now).response == Response(400, Failure("Unexpected field"))
  {
    var parts := [p1, p2];
    Upload.SingleAdmissible(mode, p1);
    assert parts[..1] == [p1] && parts[1] == p2;
    OverCapAnswered400(mode, st, disk, form, parts, nonce, now, 1);
  }

  /** An empty cover letter input next to a valid resume is skipped: the
      request is recorded exactly when it would be with the resume alone,
      with one file row. */
  lemma EmptyFileInputIgnored(mode: Upload.FilterMode, st: Store, disk: set<string>, form: Form,
                              resume: Upload.Upload, empty: Upload.Upload, nonce: nat -> Upload.Nonce, now: int)
    requires Upload.PartOk(mode, resume) && resume.field == Upload.ResumeField
    requires empty.field == Upload.CoverLetterField && empty.originalName == ""
    ensures Submit(mode, st, disk, form, [resume, empty], nonce, now).response.code == 201
        <==> FieldsAccepted(form) && RowFits(st.schema.fileTypeWidth, Upload.Store(resume, nonce(0))) && IdsLeft(st, 1)
  {
    Upload.EmptyInputSkipped(mode, resume, empty);
    OnlyNamedRowChecked(st.schema.fileTypeWidth, resume, empty, nonce);
    SubmitSucceedsIff(mode, st, disk, form, [resume, empty], nonce, now);
  }

  lemma OnlyNamedRowChecked(width: nat, resume: Upload.Upload, empty: Upload.Upload, nonce: nat -> Upload.Nonce)
    requires Upload.Named(resume) && !Upload.Named(empty)
    ensures (forall i :: 0 <= i < |[resume, empty]| && Upload.Named([resume, empty][i]) ==> RowFits(width, Upload.Store([resume, empty][i], nonce(i))))
        <==> RowFits(width, Upload.Store(resume, nonce(0)))
  {
    var parts := [resume, empty];
    assert parts[0] == resume && parts[1] == empty;
    assert forall i :: 0 <= i < |parts| && Upload.Named(parts[i]) ==> i == 0;
  }

  /** Every stored file of a handled part of an admissible request is
      filed under one of the three fields. */
  lemma {:induction false} CountThree(all: seq<Upload.StoredFile>)
    requires forall f :: f in all && !Upload.Unnamed(f.originalName) ==> Upload.MaxCount(f.field) > 0
    ensures Count(Upload.FileIn(Upload.ResumeField), all) + Count(Upload.FileIn(Upload.CoverLetterField), all)
          + Count(Upload.FileIn(Upload.AdditionalField), all) == Count(Upload.NamedFile, all)
    decreases |all|
  {
    if all != [] {
      assert forall f :: f in all[1..] ==> f in all;
      CountThree(all[1..]);
    }
  }

  /** Every file `g` holds, field by field. */
  function AllFiles(g: Upload.Received): seq<Upload.StoredFile>
  {
    g.resume + g.coverLetter + g.additional
  }

  /** With at most one resume and one cover letter, the entries record
      every received file and nothing else. */
  lemma EntriesCoverReceived(g: Upload.Received, width: nat)
    requires |g.resume| <= 1 && |g.coverLetter| <= 1
    ensures |Entries(g)| == |AllFiles(g)|
    ensures AllFit(width, Entries(g)) <==> forall f :: f in AllFiles(g) ==> RowFits(width, f)
  {
    var es := Entries(g);
    if AllFit(width, es) {
      forall f | f in AllFiles(g)
        ensures RowFits(width, f)
      {
        var j :| 0 <= j < |AllFiles(g)| && AllFiles(g)[j] == f;
        assert es[j].file == f;
      }
    }
  }

  /** Every named part of an admissible request names one of the three fields. */
  lemma StoredFieldsKnown(mode: Upload.FilterMode, parts: seq<Upload.Upload>, nonce: nat -> Upload.Nonce)
    requires Upload.Admissible(mode, parts)
    ensures forall f :: f in Upload.StoredAll(parts, nonce) && !Upload.Unnamed(f.originalName) ==> Upload.MaxCount(f.field) > 0
  {
    var all := Upload.StoredAll(parts, nonce);
    forall f | f in all && !Upload.Unnamed(f.originalName)
      ensures Upload.MaxCount(f.field) > 0
    {
      var i :| 0 <= i < |all| && all[i] == f;
      Upload.StoredAllAt(parts, nonce, i);
      assert Upload.PartOk(mode, parts[i]);
    }
  }

  /** Each stored file of a handled part lands in the list of its field. */
  lemma StoredInSorted(parts: seq<Upload.Upload>, nonce: nat -> Upload.Nonce, f: Upload.StoredFile)
    requires f in Upload.StoredAll(parts, nonce) && !Upload.Unnamed(f.originalName)
    requires Upload.MaxCount(f.field) > 0
    ensures f in AllFiles(Upload.Sorted(parts, nonce))
  {
    var all := Upload.StoredAll(parts, nonce);
    var g := Upload.Sorted(parts, nonce);
    if f.field == Upload.ResumeField {
      assert Upload.FileIn(Upload.ResumeField)(f);
      assert f in g.resume;
    } else if f.field == Upload.CoverLetterField {
      assert Upload.FileIn(Upload.CoverLetterField)(f);
      assert f in g.coverLetter;
    } else {
      assert Upload.FileIn(Upload.AdditionalField)(f);
      assert f in g.additional;
    }
  }

  /** The field lists hold nothing but stored files of handled parts. */
  lemma SortedFromStored(parts: seq<Upload.Upload>, nonce: nat -> Upload.Nonce, f: Upload.StoredFile)
    requires f in AllFiles(Upload.Sorted(parts, nonce))
    ensures f in Upload.StoredAll(parts, nonce) && !Upload.Unnamed(f.originalName)
  {
    var g := Upload.Sorted(parts, nonce);
    assert f in g.resume || f in g.coverLetter || f in g.additional;
  }

  /** For an admissible request the fields together hold exactly the
      stored files of the named parts. */
  lemma SortedHoldsStored(mode: Upload.FilterMode, parts: seq<Upload.Upload>, nonce: nat -> Upload.Nonce)
    requires Upload.Admissible(mode, parts)
    ensures |Upload.Sorted(parts, nonce).resume| <= 1 && |Upload.Sorted(parts, nonce).coverLetter| <= 1
    ensures |AllFiles(Upload.Sorted(parts, nonce))| == Count(Upload.NamedPart, parts)
  {
    var all := Upload.StoredAll(parts, nonce);
    Upload.CountNamedStored(parts, nonce);
    Upload.CountStoredMatchesParts(parts, nonce, Upload.ResumeField);
    Upload.CountStoredMatchesParts(parts, nonce, Upload.CoverLetterField);
    StoredFieldsKnown(mode, parts, nonce);
    CountThree(all);
  }

  /** When every stored file names a known field, the field lists cover
      the stored files, so a row condition holds for all of one exactly
      when it holds for all of the other. */
  lemma ReceivedMatchesStored(parts: seq<Upload.Upload>, nonce: nat -> Upload.Nonce, width: nat)
    requires forall f :: f in Upload.StoredAll(parts, nonce) && !Upload.Unnamed(f.originalName) ==> Upload.MaxCount(f.field) > 0
    ensures (forall f :: f in AllFiles(Upload.Sorted(parts, nonce)) ==> RowFits(width, f))
        <==> forall i :: 0 <= i < |parts| && Upload.Named(parts[i]) ==> RowFits(width, Upload.Store(parts[i], nonce(i)))
  {
    var all := Upload.StoredAll(parts, nonce);
    var g := Upload.Sorted(parts, nonce);
    if forall i :: 0 <= i < |parts| && Upload.Named(parts[i]) ==> RowFits(width, Upload.Store(parts[i], nonce(i))) {
      forall f | f in AllFiles(g)
        ensures RowFits(width, f)
      {
        SortedFromStored(parts, nonce, f);
        var i :| 0 <= i < |all| && all[i] == f;
        Upload.StoredAllAt(parts, nonce, i);
      }
    }
    if forall f :: f in AllFiles(g) ==> RowFits(width, f) {
      forall i | 0 <= i < |parts| && Upload.Named(parts[i])
        ensures RowFits(width, Upload.Store(parts[i], nonce(i)))
      {
        assert all[i] in all;
        Upload.StoredAllAt(parts, nonce, i);
        StoredInSorted(parts, nonce, all[i]);
      }
    }
  }

  /** For an admissible request the recorded entries are exactly the
      stored files: one per named part. */
  lemma EntriesOfAdmissible(mode: Upload.FilterMode, parts: seq<Upload.Upload>, nonce: nat -> Upload.Nonce, width: nat)
    requires Upload.Admissible(mode, parts)
    ensures |Entries(Upload.Sorted(parts, nonce))| == Count(Upload.NamedPart, parts)
    ensures AllFit(width, Entries(Upload.Sorted(parts, nonce)))
        <==> forall i :: 0 <= i < |parts| && Upload.Named(parts[i]) ==> RowFits(width, Upload.Store(parts[i], nonce(i)))
  {
    SortedHoldsStored(mode, parts, nonce);
    EntriesCoverReceived(Upload.Sorted(parts, nonce), width);
    StoredFieldsKnown(mode, parts, nonce);
    ReceivedMatchesStored(parts, nonce, width);
  }

  /** A submission is recorded exactly when the intake admits the parts,
      one named part is a resume, the text fields satisfy the columns,
      every stored file's name, path and MIME type fit theirs, and the id
      sequences are not exhausted. Unnamed parts take no part in any of
      this. */
  lemma SubmitSucceedsIff(mode: Upload.FilterMode, st: Store, disk: set<string>, form: Form,
                          parts: seq<Upload.Upload>, nonce: nat -> Upload.Nonce, now: int)
    ensures Submit(mode, st, disk, form, parts, nonce, now).response.code == 201
        <==> && Upload.Admissible(mode, parts)
             && Count(Upload.PartIn(Upload.ResumeField), parts) == 1
             && FieldsAccepted(form)
             && (forall i :: 0 <= i < |parts| && Upload.Named(parts[i]) ==> RowFits(st.schema.fileTypeWidth, Upload.Store(parts[i], nonce(i))))
             && IdsLeft(st, Count(Upload.NamedPart, parts))
  {
    Upload.IntakeCharacterized(mode, parts, nonce);
    SubmitCreatedIff(mode, st, disk, form, parts, nonce, now);
    if Upload.Admissible(mode, parts) {
      var g := Upload.Sorted(parts, nonce);
      Upload.CountStoredMatchesParts(parts, nonce, Upload.ResumeField);
      assert |g.resume| == Count(Upload.PartIn(Upload.ResumeField), parts) <= 1;
      TransactionSucceedsIff(st, form, g, now);
      EntriesOfAdmissible(mode, parts, nonce, st.schema.fileTypeWidth);
    }
  }

  /** 201 exactly when the intake accepts and the transaction commits. */
  lemma SubmitCreatedIff(mode: Upload.FilterMode, st: Store, disk: set<string>, form: Form,
                         parts: seq<Upload.Upload>, nonce: nat -> Upload.Nonce, now: int)
    ensures Submit(mode, st, disk, form, parts, nonce, now).response.code == 201
        <==> && Upload.Intake(mode, parts, nonce).Accepted?
             && Transaction(st, form, Upload.Intake(mode, parts, nonce).files, now).Some?
  {
  }

  /** The transaction commits exactly when the application row and every
      file row satisfy their columns. */
  lemma TransactionSucceedsIff(st: Store, form: Form, g: Upload.Received, now: int)
    ensures Transaction(st, form, g, now).Some?
        <==> FieldsAccepted(form) && g.resume != [] && AllFit(st.schema.fileTypeWidth, Entries(g)) && IdsLeft(st, |Entries(g)|)
  {
  }

  /** A request without a resume file is never recorded: `applications.resume`
      is NOT NULL, so an admissible one is answered 500. */
  lemma MissingResumeRejected(mode: Upload.FilterMode, st: Store, disk: set<string>, form: Form,
                              parts: seq<Upload.Upload>, nonce: nat -> Upload.Nonce, now: int)
    requires Count(Upload.PartIn(Upload.ResumeField), parts) == 0
    ensures Submit(mode, st, disk, form, parts, nonce, now).store == st
    ensures Upload.Admissible(mode, parts) ==> Submit(mode, st, disk, form, parts, nonce, now).response.code == 500
  {
    SubmitSucceedsIff(mode, st, disk, form, parts, nonce, now);
    Upload.IntakeCharacterized(mode, parts, nonce);
  }

  /** A rolled-back submission leaves the tables as they were but keeps
      every uploaded file on disk. */
  lemma RolledBackKeepsFiles(mode: Upload.FilterMode, st: Store, disk: set<string>, form: Form,
                             parts: seq<Upload.Upload>, nonce: nat -> Upload.Nonce, now: int)
    requires Upload.Admissible(mode, parts)
    requires Submit(mode, st, disk, form, parts, nonce, now).response.code != 201
    ensures Submit(mode, st, disk, form, parts, nonce, now).response == Response(500, Failure("Failed to submit application"))
    ensures Submit(mode, st, disk, form, parts, nonce, now).store == st
    ensures Submit(mode, st, disk, form, parts, nonce, now).disk
         == disk + Upload.Paths(Upload.Sorted(parts, nonce))
  {
    Upload.IntakeCharacterized(mode, parts, nonce);
  }

  /** A committed transaction keeps the store's invariant: the new
      application takes the next id, its file rows take the next file ids
      and reference it. */
  lemma TransactionPreservesValid(st: Store, form: Form, g: Upload.Received, now: int)
    requires Valid(st)
    requires Transaction(st, form, g, now).Some?
    ensures Valid(Transaction(st, form, g, now).value)
  {
    var next := Transaction(st, form, g, now).value;
    var id := st.nextAppId;
    var row := NewApplication(st.schema, id, form, ResumePath(g), now).value;
    var es := Entries(g);
    var added := FileRows(st.schema.fileTypeWidth, id, es, st.nextFileId, now);
    assert next == Store(st.schema, st.apps + [row], st.files + added, id + 1, st.nextFileId + |es|);
    AppsAfterInsert(st, row);
    FilesAfterInsert(st, added, Ids(next.apps));
  }

  /** Appending a row under the next id keeps the ids distinct and below
      the advanced counter. */
  lemma AppsAfterInsert(st: Store, row: AppRow)
    requires Valid(st) && row.id == st.nextAppId && (row.status.Some? <==> st.schema.hasStatus)
    ensures var apps := st.apps + [row];
            && (forall i, j :: 0 <= i < j < |apps| ==> apps[i].id != apps[j].id)
            && (forall a :: a in apps ==> 1 <= a.id < st.nextAppId + 1 && (a.status.Some? <==> st.schema.hasStatus))
            && Ids(apps) == Ids(st.apps) + {row.id}
  {
    var apps := st.apps + [row];
    assert forall a :: a in apps <==> a in st.apps || a == row;
    assert forall k :: 0 <= k < |st.apps| ==> apps[k] == st.apps[k] && apps[k] in st.apps;
  }

  /** Appending file rows numbered from the next file id, each owning an
      existing application, keeps the file ids distinct and the foreign key. */
  lemma FilesAfterInsert(st: Store, added: seq<FileRow>, appIds: set<nat>)
    requires Valid(st)
    requires Ids(st.apps) <= appIds
    requires forall k :: 0 <= k < |added| ==> added[k].id == st.nextFileId + k && added[k].applicationId in appIds
    ensures var files := st.files + added;
            && (forall i, j :: 0 <= i < j < |files| ==> files[i].id != files[j].id)
            && (forall f :: f in files ==> 1 <= f.id < st.nextFileId + |added| && f.applicationId in appIds)
  {
    var files := st.files + added;
    assert forall k :: 0 <= k < |st.files| ==> files[k] == st.files[k] && files[k] in st.files;
    assert forall k :: |st.files| <= k < |files| ==> files[k] == added[k - |st.files|];
    assert forall f :: f in files ==> f in st.files || exists k :: 0 <= k < |added| && added[k] == f;
  }

  lemma SubmitPreservesValid(mode: Upload.FilterMode, st: Store, disk: set<string>, form: Form,
                             parts: seq<Upload.Upload>, nonce: nat -> Upload.Nonce, now: int)
    requires Valid(st)
    ensures Valid(Submit(mode, st, disk, form, parts, nonce, now).store)
  {
    var r := Upload.Intake(mode, parts, nonce);
    if r.Accepted? && Transaction(st, form, r.files, now).Some? {
      TransactionPreservesValid(st, form, r.files, now);
    }
  }

  /** A committed transaction appends one application row under an id no
      row had before and one file row per entry, all owned by that id. */
  lemma TransactionAppends(st: Store, form: Form, g: Upload.Received, now: int)
    requires Valid(st)
    requires Transaction(st, form, g, now).Some?
    ensures var next := Transaction(st, form, g, now).value;
            && st.nextAppId !in Ids(st.apps)
            && next.apps == st.apps + [NewApplication(st.schema, st.nextAppId, form, ResumePath(g), now).value]
            && |next.files| == |st.files| + |Entries(g)| && next.files[..|st.files|] == st.files
            && (forall k :: |st.files| <= k < |next.files| ==> next.files[k].applicationId == st.nextAppId)
            && (forall k :: 0 <= k < |st.files| ==> next.files[k].applicationId != st.nextAppId)
            && next.files[|st.files|].category == ResumeDoc
            && StartsWith(next.apps[|st.apps|].resume, next.files[|st.files|].filePath)
  {
    var next := Transaction(st, form, g, now).value;
    var es := Entries(g);
    assert es[0] == Entry(g.resume[0], ResumeDoc);
    assert next.files[|st.files|] == FileRowOf(st.schema.fileTypeWidth, st.nextFileId, st.nextAppId, es[0], now);
  }

  /** What a recorded submission adds: one application row under an id no
      row had before, carrying the form's values, followed by one file row
      per named part, all owned by that id, the first being the resume
      whose path the application row stores. */
  lemma SubmitRecordsApplication(mode: Upload.FilterMode, st: Store, disk: set<string>, form: Form,
                                 parts: seq<Upload.Upload>, nonce: nat -> Upload.Nonce, now: int)
    requires Valid(st)
    requires Submit(mode, st, disk, form, parts, nonce, now).response.code == 201
    ensures var next := Submit(mode, st, disk, form, parts, nonce, now).store;
            var id := Submit(mode, st, disk, form, parts, nonce, now).response.body.id;
            && id !in Ids(st.apps)
            && |next.apps| == |st.apps| + 1 && next.apps[..|st.apps|] == st.apps
            && next.apps[|st.apps|].id == id && next.apps[|st.apps|].createdAt == now
            && FieldsAccepted(form)
            && StartsWith(form.name.value, next.apps[|st.apps|].name)
            && StartsWith(form.email.value, next.apps[|st.apps|].email)
            && StartsWith(form.position.value, next.apps[|st.apps|].position)
            && next.apps[|st.apps|].coverLetter == form.coverLetter
            && |next.files| == |st.files| + Count(Upload.NamedPart, parts) && next.files[..|st.files|] == st.files
            && (forall k :: |st.files| <= k < |next.files| ==> next.files[k].applicationId == id)
            && (forall k :: 0 <= k < |st.files| ==> next.files[k].applicationId != id)
            && next.files[|st.files|].category == ResumeDoc
            && StartsWith(next.apps[|st.apps|].resume, next.files[|st.files|].filePath)
  {
    SubmitSucceedsIff(mode, st, disk, form, parts, nonce, now);
    Upload.IntakeCharacterized(mode, parts, nonce);
    var g := Upload.Sorted(parts, nonce);
    EntriesOfAdmissible(mode, parts, nonce, st.schema.fileTypeWidth);
    TransactionAppends(st, form, g, now);
    var next := Transaction(st, form, g, now).value;
    assert next.apps[..|st.apps|] == st.apps;
  }

  /** The category the handler records a file under, by the field it came in. */
  function CategoryOf(field: string): Category
  {
    if field == Upload.ResumeField then ResumeDoc
    else if field == Upload.CoverLetterField then CoverLetterDoc
    else AdditionalDoc
  }

  /** `row` is what `saveFileRecord` stores for `f`: its field's category,
      its size, and its name, path and MIME type as the columns keep them
      (whole when short enough, otherwise cut at trailing spaces). */
  predicate RecordsFile(width: nat, row: FileRow, f: Upload.StoredFile)
  {
    && row.category == CategoryOf(f.field)
    && row.fileSize == f.size
    && StartsWith(f.originalName, row.fileName) && (|f.originalName| <= FileNameWidth ==> row.fileName == f.originalName)
    && StartsWith(f.path, row.filePath) && (|f.path| <= FilePathWidth ==> row.filePath == f.path)
    && StartsWith(f.mimeType, row.fileType) && (|f.mimeType| <= width ==> row.fileType == f.mimeType)
  }

  /** The file rows from `base` on record the named parts one for one:
      every named part has a row recording it, and every row records a
      named part. */
  predicate RecordsParts(width: nat, files: seq<FileRow>, base: nat, parts: seq<Upload.Upload>, nonce: nat -> Upload.Nonce)
  {
    PartsHaveRows(width, files, base, parts, nonce) && RowsHaveParts(width, files, base, parts, nonce)
  }

  predicate PartsHaveRows(width: nat, files: seq<FileRow>, base: nat, parts: seq<Upload.Upload>, nonce: nat -> Upload.Nonce)
  {
    forall i :: 0 <= i < |parts| && Upload.Named(parts[i]) ==>
      exists k :: base <= k < |files| && RecordsFile(width, files[k], Upload.Store(parts[i], nonce(i)))
  }

  predicate RowsHaveParts(width: nat, files: seq<FileRow>, base: nat, parts: seq<Upload.Upload>, nonce: nat -> Upload.Nonce)
  {
    forall k :: base <= k < |files| ==> RecordsNamedPart(width, files[k], parts, nonce)
  }

  /** `row` records the stored file of some named part. */
  predicate RecordsNamedPart(width: nat, row: FileRow, parts: seq<Upload.Upload>, nonce: nat -> Upload.Nonce)
  {
    exists i :: 0 <= i < |parts| && Upload.Named(parts[i]) && RecordsFile(width, row, Upload.Store(parts[i], nonce(i)))
  }

  /** Each field's list holds only files of that field. */
  predicate ListsByField(g: Upload.Received)
  {
    && (forall f :: f in g.resume ==> f.field == Upload.ResumeField)
    && (forall f :: f in g.coverLetter ==> f.field == Upload.CoverLetterField)
    && (forall f :: f in g.additional ==> f.field == Upload.AdditionalField)
  }

  lemma SortedListsByField(parts: seq<Upload.Upload>, nonce: nat -> Upload.Nonce)
    ensures ListsByField(Upload.Sorted(parts, nonce))
  {
    var g := Upload.Sorted(parts, nonce);
    assert forall f :: f in g.resume ==> Upload.FileIn(Upload.ResumeField)(f);
    assert forall f :: f in g.coverLetter ==> Upload.FileIn(Upload.CoverLetterField)(f);
    assert forall f :: f in g.additional ==> Upload.FileIn(Upload.AdditionalField)(f);
  }

  /** With at most one resume and one cover letter, each entry is the
      received file at the same position, tagged with its field's category. */
  lemma EntriesAreReceived(g: Upload.Received, j: nat)
    requires |g.resume| <= 1 && |g.coverLetter| <= 1 && ListsByField(g)
    requires j < |AllFiles(g)|
    ensures j < |Entries(g)|
    ensures Entries(g)[j] == Entry(AllFiles(g)[j], CategoryOf(AllFiles(g)[j].field))
  {
    var es := Entries(g);
    var a, b := |g.resume|, |g.coverLetter|;
    assert FirstOnly(g.resume) == g.resume && FirstOnly(g.coverLetter) == g.coverLetter;
    if j < a {
      assert es[j] == Entry(g.resume[j], ResumeDoc);
      assert g.resume[j] in g.resume;
    } else if j < a + b {
      assert es[j] == Entry(g.coverLetter[j - a], CoverLetterDoc);
      assert g.coverLetter[j - a] in g.coverLetter;
    } else {
      assert es[j] == Entry(g.additional[j - a - b], AdditionalDoc);
      assert g.additional[j - a - b] in g.additional;
    }
  }

  /** The row written for an entry records its file. */
  lemma FileRowRecords(width: nat, id: nat, appId: nat, e: Entry, now: int)
    requires RowFits(width, e.file) && e.category == CategoryOf(e.file.field)
    ensures RecordsFile(width, FileRowOf(width, id, appId, e, now), e.file)
  {
  }

  /** A committed transaction adds, after the old rows, one row per
      received file recording it, in the order the entries list them. */
  lemma TransactionRecordsReceived(st: Store, form: Form, g: Upload.Received, now: int, j: nat)
    requires Transaction(st, form, g, now).Some?
    requires |g.resume| <= 1 && |g.coverLetter| <= 1 && ListsByField(g)
    requires j < |AllFiles(g)|
    ensures |st.files| + j < |Transaction(st, form, g, now).value.files|
    ensures RecordsFile(st.schema.fileTypeWidth, Transaction(st, form, g, now).value.files[|st.files| + j], AllFiles(g)[j])
  {
    var width := st.schema.fileTypeWidth;
    var es := Entries(g);
    var added := FileRows(width, st.nextAppId, es, st.nextFileId, now);
    var next := Transaction(st, form, g, now).value;
    assert next.files == st.files + added;
    EntriesAreReceived(g, j);
    assert es[j] in es;
    FileRowRecords(width, st.nextFileId + j, st.nextAppId, es[j], now);
    assert next.files[|st.files| + j] == added[j];
  }

  /** The rows from `base` on record `received` position by position. */
  predicate RecordsInOrder(width: nat, files: seq<FileRow>, base: nat, received: seq<Upload.StoredFile>)
  {
    && |files| == base + |received|
    && forall j :: 0 <= j < |received| ==> RecordsFile(width, files[base + j], received[j])
  }

  /** A named part has a row recording it among rows from `base` on
      that record the received files position by position. */
  lemma PartHasRow(width: nat, files: seq<FileRow>, base: nat, parts: seq<Upload.Upload>, nonce: nat -> Upload.Nonce, i: nat)
    requires forall f :: f in Upload.StoredAll(parts, nonce) && !Upload.Unnamed(f.originalName) ==> Upload.MaxCount(f.field) > 0
    requires RecordsInOrder(width, files, base, AllFiles(Upload.Sorted(parts, nonce)))
    requires i < |parts| && Upload.Named(parts[i])
    ensures exists k :: base <= k < |files| && RecordsFile(width, files[k], Upload.Store(parts[i], nonce(i)))
  {
    var all := Upload.StoredAll(parts, nonce);
    var received := AllFiles(Upload.Sorted(parts, nonce));
    Upload.StoredAllAt(parts, nonce, i);
    assert all[i] in all;
    StoredInSorted(parts, nonce, all[i]);
    var j :| 0 <= j < |received| && received[j] == all[i];
    assert RecordsFile(width, files[base + j], received[j]);
  }

  /** A row recording a received file records a named part. */
  lemma RowHasPart(width: nat, row: FileRow, parts: seq<Upload.Upload>, nonce: nat -> Upload.Nonce, f: Upload.StoredFile)
    requires f in AllFiles(Upload.Sorted(parts, nonce)) && RecordsFile(width, row, f)
    ensures RecordsNamedPart(width, row, parts, nonce)
  {
    var all := Upload.StoredAll(parts, nonce);
    SortedFromStored(parts, nonce, f);
    var i :| 0 <= i < |all| && all[i] == f;
    Upload.StoredAllAt(parts, nonce, i);
  }

  /** Rows from `base` on that record the received files position by
      position record every named part, and nothing but named parts. */
  lemma RowsRecordEachPart(width: nat, files: seq<FileRow>, base: nat, parts: seq<Upload.Upload>, nonce: nat -> Upload.Nonce)
    requires forall f :: f in Upload.StoredAll(parts, nonce) && !Upload.Unnamed(f.originalName) ==> Upload.MaxCount(f.field) > 0
    requires RecordsInOrder(width, files, base, AllFiles(Upload.Sorted(parts, nonce)))
    ensures RecordsParts(width, files, base, parts, nonce)
  {
    EveryPartHasRow(width, files, base, parts, nonce);
    EveryRowHasPart(width, files, base, parts, nonce);
  }

  lemma EveryPartHasRow(width: nat, files: seq<FileRow>, base: nat, parts: seq<Upload.Upload>, nonce: nat -> Upload.Nonce)
    requires forall f :: f in Upload.StoredAll(parts, nonce) && !Upload.Unnamed(f.originalName) ==> Upload.MaxCount(f.field) > 0
    requires RecordsInOrder(width, files, base, AllFiles(Upload.Sorted(parts, nonce)))
    ensures PartsHaveRows(width, files, base, parts, nonce)
  {
    forall i | 0 <= i < |parts| && Upload.Named(parts[i])
      ensures exists k :: base <= k < |files| && RecordsFile(width, files[k], Upload.Store(parts[i], nonce(i)))
    {
      PartHasRow(width, files, base, parts, nonce, i);
    }
  }

  lemma EveryRowHasPart(width: nat, files: seq<FileRow>, base: nat, parts: seq<Upload.Upload>, nonce: nat -> Upload.Nonce)
    requires RecordsInOrder(width, files, base, AllFiles(Upload.Sorted(parts, nonce)))
    ensures RowsHaveParts(width, files, base, parts, nonce)
  {
    forall k | base <= k < |files|
      ensures RecordsNamedPart(width, files[k], parts, nonce)
    {
      RowAtHasPart(width, files, base, parts, nonce, k);
    }
  }

  lemma RowAtHasPart(width: nat, files: seq<FileRow>, base: nat, parts: seq<Upload.Upload>, nonce: nat -> Upload.Nonce, k: nat)
    requires RecordsInOrder(width, files, base, AllFiles(Upload.Sorted(parts, nonce)))
    requires base <= k < |files|
    ensures RecordsNamedPart(width, files[k], parts, nonce)
  {
    var all := AllFiles(Upload.Sorted(parts, nonce));
    var j := k - base;
    assert files[base + j] == files[k];
    assert RecordsFile(width, files[k], all[j]) && all[j] in all;
    RowHasPart(width, files[k], parts, nonce, all[j]);
  }

  /** Every named part has a new file row recording it, and every new
      file row records a named part: under its field's category, with
      its size, and with its name, stored path and MIME type as the
      columns keep them. */
  lemma SubmitRecordsEachPart(mode: Upload.FilterMode, st: Store, disk: set<string>, form: Form,
                              parts: seq<Upload.Upload>, nonce: nat -> Upload.Nonce, now: int)
    requires Submit(mode, st, disk, form, parts, nonce, now).response.code == 201
    ensures RecordsParts(st.schema.fileTypeWidth, Submit(mode, st, disk, form, parts, nonce, now).store.files, |st.files|, parts, nonce)
  {
    SubmitRowsByPosition(mode, st, disk, form, parts, nonce, now);
    RowsRecordEachPart(st.schema.fileTypeWidth, Submit(mode, st, disk, form, parts, nonce, now).store.files, |st.files|, parts, nonce);
  }

  /** The file rows a recorded submission adds record the received files
      position by position. */
  lemma SubmitRowsByPosition(mode: Upload.FilterMode, st: Store, disk: set<string>, form: Form,
                             parts: seq<Upload.Upload>, nonce: nat -> Upload.Nonce, now: int)
    requires Submit(mode, st, disk, form, parts, nonce, now).response.code == 201
    ensures forall f :: f in Upload.StoredAll(parts, nonce) && !Upload.Unnamed(f.originalName) ==> Upload.MaxCount(f.field) > 0
    ensures RecordsInOrder(st.schema.fileTypeWidth, Submit(mode, st, disk, form, parts, nonce, now).store.files, |st.files|,
                           AllFiles(Upload.Sorted(parts, nonce)))
  {
    var g := Upload.Sorted(parts, nonce);
    var files := Submit(mode, st, disk, form, parts, nonce, now).store.files;
    SubmitAcceptedSorted(mode, st, disk, form, parts, nonce, now);
    SortedListsByField(parts, nonce);
    TransactionRowsByPosition(st, form, g, now, files);
  }

  /** The rows a committed transaction adds record the received files
      position by position. */
  lemma TransactionRowsByPosition(st: Store, form: Form, g: Upload.Received, now: int, files: seq<FileRow>)
    requires Transaction(st, form, g, now).Some? && files == Transaction(st, form, g, now).value.files
    requires |g.resume| <= 1 && |g.coverLetter| <= 1 && ListsByField(g)
    ensures |files| == |st.files| + |AllFiles(g)|
    ensures forall j :: 0 <= j < |AllFiles(g)| ==> RecordsFile(st.schema.fileTypeWidth, files[|st.files| + j], AllFiles(g)[j])
  {
    EntriesCoverReceived(g, st.schema.fileTypeWidth);
    forall j | 0 <= j < |AllFiles(g)|
      ensures RecordsFile(st.schema.fileTypeWidth, files[|st.files| + j], AllFiles(g)[j])
    {
      TransactionRecordsReceived(st, form, g, now, j);
    }
  }

  /** A recorded submission is the transaction run on the sorted parts of
      an admissible request, and adds one file row per received file. */
  lemma SubmitAcceptedSorted(mode: Upload.FilterMode, st: Store, disk: set<string>, form: Form,
                             parts: seq<Upload.Upload>, nonce: nat -> Upload.Nonce, now: int)
    requires Submit(mode, st, disk, form, parts, nonce, now).response.code == 201
    ensures Upload.Admissible(mode, parts)
    ensures Transaction(st, form, Upload.Sorted(parts, nonce), now).Some?
    ensures Submit(mode, st, disk, form, parts, nonce, now).store == Transaction(st, form, Upload.Sorted(parts, nonce), now).value
    ensures forall f :: f in Upload.StoredAll(parts, nonce) && !Upload.Unnamed(f.originalName) ==> Upload.MaxCount(f.field) > 0
    ensures |Upload.Sorted(parts, nonce).resume| <= 1 && |Upload.Sorted(parts, nonce).coverLetter| <= 1
    ensures |Transaction(st, form, Upload.Sorted(parts, nonce), now).value.files|
         == |st.files| + |AllFiles(Upload.Sorted(parts, nonce))|
  {
    SubmitSucceedsIff(mode, st, disk, form, parts, nonce, now);
    Upload.IntakeCharacterized(mode, parts, nonce);
    SortedHoldsStored(mode, parts, nonce);
    StoredFieldsKnown(mode, parts, nonce);
    EntriesOfAdmissible(mode, parts, nonce, st.schema.fileTypeWidth);
  }

  /** Fetching a just-recorded application returns its new row and one
      file entry per named part. */
  lemma SubmitThenGet(mode: Upload.FilterMode, st: Store, disk: set<string>, form: Form,
                      parts: seq<Upload.Upload>, nonce: nat -> Upload.Nonce, now: int)
    requires Valid(st)
    requires Submit(mode, st, disk, form, parts, nonce, now).response.code == 201
    ensures Submit(mode, st, disk, form, parts, nonce, now).response.body.id <= Int4Max
    ensures var r := Submit(mode, st, disk, form, parts, nonce, now);
            var got := Get(r.store, Numeric(r.response.body.id));
            && got.code == 200 && got.body.Single?
            && got.body.item.app == r.store.apps[|st.apps|]
            && got.body.item.files.Some? && |got.body.item.files.value| == Count(Upload.NamedPart, parts)
  {
    var r := Submit(mode, st, disk, form, parts, nonce, now);
    SubmitRecordsApplication(mode, st, disk, form, parts, nonce, now);
    assert |r.store.files| > |st.files|;
    assert r.response.body.id <= Int4Max;
    GetAfterInsert(st, r.store, r.response.body.id);
  }

  // ---- The file_type column is too narrow for the docx MIME type ----

  /** The registered MIME type of .docx files, 71 characters long. */
  const DocxMime: string := Upload.AllowedMimeTypes[2]

  /** As written, the filter admits a .docx upload with its registered
      MIME type ("document" contains "doc")... */
  lemma DocxPassesFilterAsWritten(p: Upload.Upload, stem: string)
    requires stem != [] && '.' !in stem
    requires p.originalName == stem + ".docx" && p.mimeType == DocxMime
    ensures Upload.FileFilter(p)
  {
    var tail := "docx";
    assert p.originalName == stem + "." + tail;
    DocxExtensionMatches();
    DocxMimeMatches();
    Upload.ExtensionTestIsUnanchored(p, stem, tail);
  }

  lemma DocxExtensionMatches()
    ensures Upload.MatchesAllowedPattern(Lower("docx"))
  {
    LowerOfLowercase("docx");
    Upload.DocInsideMatches("docx", 0);
  }

  lemma DocxMimeMatches()
    ensures Upload.MatchesAllowedPattern(DocxMime)
  {
    Upload.DocInsideMatches(DocxMime, 37);
  }

  /** ...but with file_type VARCHAR(50) no submission carrying such a file
      is ever recorded: the file row's insert fails and the transaction
      rolls back. */
  lemma DocxRolledBackOnCreatedSchema(mode: Upload.FilterMode, st: Store, disk: set<string>, form: Form,
                                      parts: seq<Upload.Upload>, nonce: nat -> Upload.Nonce, now: int, k: nat)
    requires st.schema == CreatedSchema
    requires k < |parts| && parts[k].mimeType == DocxMime && Upload.Named(parts[k])
    ensures Submit(mode, st, disk, form, parts, nonce, now).response.code != 201
    ensures Submit(mode, st, disk, form, parts, nonce, now).store == st
  {
    assert DocxMime[50] != ' ';
    assert !RowFits(CreatedSchema.fileTypeWidth, Upload.Store(parts[k], nonce(k)));
    SubmitSucceedsIff(mode, st, disk, form, parts, nonce, now);
  }

  lemma RegisteredMimeTypesFit(m: string)
    requires m in Upload.AllowedMimeTypes
    ensures FitVarchar(m, IntendedSchema.fileTypeWidth) == Some(m)
  {
  }

  /** With the corrected filter and a file_type wide enough for every
      registered MIME type, the MIME type never makes a submission fail:
      an admissible request with a resume and acceptable text fields is
      recorded whenever the names and paths fit, docx files included. */
  lemma IntendedSchemaRecordsAdmittedTypes(st: Store, disk: set<string>, form: Form,
                                           parts: seq<Upload.Upload>, nonce: nat -> Upload.Nonce, now: int)
    requires st.schema == IntendedSchema
    requires Upload.Admissible(Upload.Corrected, parts)
    requires Count(Upload.PartIn(Upload.ResumeField), parts) == 1
    requires FieldsAccepted(form) && IdsLeft(st, Count(Upload.NamedPart, parts))
    requires forall i :: 0 <= i < |parts| && Upload.Named(parts[i]) ==>
               |parts[i].originalName| <= FileNameWidth && |Upload.Store(parts[i], nonce(i)).path| <= FilePathWidth
    ensures Submit(Upload.Corrected, st, disk, form, parts, nonce, now).response.code == 201
  {
    forall i | 0 <= i < |parts| && Upload.Named(parts[i])
      ensures RowFits(st.schema.fileTypeWidth, Upload.Store(parts[i], nonce(i)))
    {
      assert Upload.PartOk(Upload.Corrected, parts[i]);
      RegisteredMimeTypesFit(parts[i].mimeType);
    }
    SubmitSucceedsIff(Upload.Corrected, st, disk, form, parts, nonce, now);
  }
}

=== FILE: text.dfy ===
/** String operations the JavaScript and SQL code relies on, over
    `seq<char>`: ASCII lower-casing, substring containment, prefix and
    suffix tests, last occurrence of a character, decimal rendering of
    a natural number, UTF-8 length, and PostgreSQL's VARCHAR(n) length
    rule.
 */
module Text {
  import opened Base

  function LowerChar(c: char): char
  {
    if 'A' <= c <= 'Z' then (c as int + 32) as char else c
  }

  /** `String.prototype.toLowerCase` restricted to ASCII letters. */
  function Lower(s: string): (r: string)
    ensures |r| == |s|
    ensures forall i :: 0 <= i < |s| ==> r[i] == LowerChar(s[i])
  {
    seq(|s|, i requires 0 <= i < |s| => LowerChar(s[i]))
  }

  /** Lower-casing commutes with dropping a prefix. */
  lemma LowerSuffix(s: string, i: nat)
    requires i <= |s|
    ensures Lower(s)[i..] == Lower(s[i..])
  {
  }

  /** `t` occurs in `s` starting at position `i`. */
  ghost predicate OccursAt(s: string, t: string, i: int)
  {
    0 <= i && i + |t| <= |s| && s[i..i + |t|] == t
  }

  /** `s.includes(t)`, and equally an unanchored regular expression
      consisting of the single literal `t`. */
  function Contains(s: string, t: string): (b: bool)
    ensures b <==> exists i :: OccursAt(s, t, i)
    decreases |s|
  {
    if |s| < |t| then
      assert forall i :: !OccursAt(s, t, i);
      false
    else if s[..|t|] == t then
      assert OccursAt(s, t, 0);
      true
    else
      var b := Contains(s[1..], t);
      assert forall i :: OccursAt(s[1..], t, i) <==> OccursAt(s, t, i + 1) by {
        forall i
          ensures OccursAt(s[1..], t, i) <==> OccursAt(s, t, i + 1)
        {
          if 0 <= i && i + |t| <= |s| - 1 {
            assert s[1..][i..i + |t|] == s[i + 1..i + 1 + |t|];
          }
        }
      }
      assert !OccursAt(s, t, 0);
      assert forall i :: OccursAt(s, t, i) && i != 0 ==> OccursAt(s[1..], t, i - 1);
      b
  }

  /** Text without upper-case ASCII letters is its own lower case. */
  lemma LowerOfLowercase(s: string)
    requires forall i :: 0 <= i < |s| ==> !('A' <= s[i] <= 'Z')
    ensures Lower(s) == s
  {
  }

  /** A contained string has its first character in the container. */
  lemma ContainsFirstChar(s: string, t: string)
    requires |t| > 0 && Contains(s, t)
    ensures t[0] in s
  {
    var i :| OccursAt(s, t, i);
    assert s[i] == s[i..i + |t|][0];
  }

  /** `t` does not occur in `s` when its first two characters never
      appear side by side in `s`. */
  lemma NoLeadingPairNotContained(s: string, t: string)
    requires |t| >= 2
    requires forall i :: 0 <= i < |s| - 1 ==> s[i] != t[0] || s[i + 1] != t[1]
    ensures !Contains(s, t)
  {
  }

  /** Putting a character that `t` does not start with in front of `s`
      neither creates nor destroys an occurrence of `t`. */
  lemma ContainsAfterLead(c: char, s: string, t: string)
    requires |t| > 0 && t[0] != c
    ensures Contains([c] + s, t) <==> Contains(s, t)
  {
    var cs := [c] + s;
    assert cs[1..] == s;
    forall i | OccursAt(s, t, i)
      ensures OccursAt(cs, t, i + 1)
    {
      assert cs[i + 1..i + 1 + |t|] == s[i..i + |t|];
    }
    forall i | OccursAt(cs, t, i)
      ensures i >= 1 && OccursAt(s, t, i - 1)
    {
      assert cs[i] == cs[i..i + |t|][0];
      assert s[i - 1..i - 1 + |t|] == cs[i..i + |t|];
    }
  }

  /** `s.startsWith(p)`. */
  predicate StartsWith(s: string, p: string)
  {
    |p| <= |s| && s[..|p|] == p
  }

  /** `s.endsWith(e)`. */
  predicate EndsWith(s: string, e: string)
  {
    |e| <= |s| && s[|s| - |e|..] == e
  }

  /** A concatenation starts with its left part and ends with its right part. */
  lemma AffixesOfConcat(a: string, b: string)
    ensures StartsWith(a + b, a) && EndsWith(a + b, b)
  {
    assert (a + b)[..|a|] == a;
    assert (a + b)[|a|..] == b;
  }

  /** Index of the last occurrence of `c` in `s`, or -1 when there is none
      (`lastIndexOf`). */
  function LastIndex(s: string, c: char): (r: int)
    ensures -1 <= r < |s|
    ensures r == -1 <==> c !in s
    ensures r >= 0 ==> s[r] == c && c !in s[r + 1..]
    decreases |s|
  {
    if s == [] then -1
    else if s[|s| - 1] == c then |s| - 1
    else
      var r := LastIndex(s[..|s| - 1], c);
      assert s == s[..|s| - 1] + [s[|s| - 1]];
      assert r >= 0 ==> s[r + 1..] == s[..|s| - 1][r + 1..] + [s[|s| - 1]];
      r
  }

  predicate IsDigit(c: char)
  {
    '0' <= c <= '9'
  }

  function DigitChar(d: nat): char
    requires d < 10
  {
    ('0' as int + d) as char
  }

  /** Decimal rendering of a non-negative integer, as JavaScript's
      number-to-string conversion produces it for integral values. */
  function Decimal(n: nat): (r: string)
    ensures |r| >= 1
    ensures forall i :: 0 <= i < |r| ==> IsDigit(r[i])
    ensures (|r| == 1) == (n < 10)
    decreases n
  {
    if n < 10 then [DigitChar(n)] else Decimal(n / 10) + [DigitChar(n % 10)]
  }

  /** Distinct numbers have distinct decimal renderings. */
  lemma {:induction false} DecimalInjective(a: nat, b: nat)
    requires Decimal(a) == Decimal(b)
    ensures a == b
    decreases a
  {
    if a >= 10 && b >= 10 {
      var da, db := Decimal(a), Decimal(b);
      assert da[|da| - 1] == DigitChar(a % 10) && db[|db| - 1] == DigitChar(b % 10);
      assert da[..|da| - 1] == Decimal(a / 10);
      assert db[..|db| - 1] == Decimal(b / 10);
      DecimalInjective(a / 10, b / 10);
    }
  }

  /** The number of bytes UTF-8 spends on one character. */
  function Utf8Width(c: char): nat
  {
    if c as int < 0x80 then 1
    else if c as int < 0x800 then 2
    else if c as int < 0x1_0000 then 3
    else 4
  }

  /** The length of `s` in UTF-8 bytes, the unit in which the multipart
      parser measures a text field. */
  function Utf8Length(s: string): (n: nat)
    ensures |s| <= n <= 4 * |s|
    decreases |s|
  {
    if s == [] then 0 else Utf8Width(s[0]) + Utf8Length(s[1..])
  }

  /** ASCII text takes one byte per character. */
  lemma {:induction false} Utf8LengthOfAscii(s: string)
    requires forall i :: 0 <= i < |s| ==> s[i] as int < 0x80
    ensures Utf8Length(s) == |s|
    decreases |s|
  {
    if s != [] {
      assert forall i :: 0 <= i < |s| - 1 ==> s[1..][i] == s[i + 1];
      Utf8LengthOfAscii(s[1..]);
    }
  }

  /** Bytes add up over concatenation. */
  lemma {:induction false} Utf8LengthAppend(a: string, b: string)
    ensures Utf8Length(a + b) == Utf8Length(a) + Utf8Length(b)
    decreases |a|
  {
    if a == [] {
      assert a + b == b;
    } else {
      assert (a + b)[0] == a[0] && (a + b)[1..] == a[1..] + b;
      Utf8LengthAppend(a[1..], b);
    }
  }

  /** PostgreSQL's rule for storing `s` into a VARCHAR(n) column: a value
      that is too long is an error, unless every excess character is a
      space, in which case it is truncated to `n` characters. */
  function FitVarchar(s: string, n: nat): (r: Option<string>)
    ensures r.Some? ==> |r.value| <= n && StartsWith(s, r.value)
    ensures |s| <= n ==> r == Some(s)
    ensures r.None? <==> exists i :: n <= i < |s| && s[i] != ' '
  {
    if |s| <= n then Some(s)
    else if forall i :: n <= i < |s| ==> s[i] == ' ' then Some(s[..n])
    else None
  }
}

=== FILE: upload.dfy ===
/** The server's upload intake (server.js:21-46, 104-108): the multipart
    middleware is configured with a disk storage whose file names are
    built from the field name, the clock and a random number; a 5 MiB
    size limit; an extension/MIME filter; and per-field caps. Files are
    processed in the order they arrive; the first violation aborts the
    request and the files already written for it are removed again.
 */
module Upload {
  import opened Base
  import opened Text

  /** limits.fileSize: 5 MiB; a file of more bytes than this is refused. */
  const MaxFileSize: nat := 5 * 1024 * 1024

  /** The storage destination, joined in front of every generated name. */
  const UploadDir: string := "uploads/"

  const ResumeField: string := "resume"
  const CoverLetterField: string := "cover_letter_file"
  const AdditionalField: string := "additional_docs"

  /** maxCount of each field accepted by `upload.fields`; any other field
      name accepts no file at all. */
  function MaxCount(field: string): nat
  {
    if field == ResumeField then 1
    else if field == CoverLetterField then 1
    else if field == AdditionalField then 3
    else 0
  }

  /** The multipart parser strips every directory part from a client's
      file name, cutting at the last '/' or '\\', so an original name
      contains neither. */
  predicate WithoutDirectory(s: string)
  {
    '/' !in s && '\\' !in s
  }

  type BaseName = s: string | WithoutDirectory(s)

  /** One file part of the multipart body, as the parser announces it. */
  datatype Upload = Upload(field: string, originalName: BaseName, mimeType: string, size: nat)

  /** A file input left empty is sent as a part with an empty file name,
      and the parser reports the names "." and ".." as empty too. The
      middleware skips such a part unread: no check sees it and nothing
      is written for it. */
  predicate Unnamed(name: string)
  {
    name == "" || name == "." || name == ".."
  }

  predicate Named(p: Upload)
  {
    !Unnamed(p.originalName)
  }

  /** The parts the middleware actually handles, as a test for counting. */
  const NamedPart: Upload -> bool := (p: Upload) => Named(p)

  /** The clock reading and the random number drawn for one stored file
      (`Date.now()` and `Math.round(Math.random() * 1E9)`). */
  datatype Nonce = Nonce(millis: nat, random: nat)

  /** A file written to disk: the multer file object the handler sees. */
  datatype StoredFile = StoredFile(field: string, originalName: string, mimeType: string, size: nat, path: string)

  /** `req.files` after a successful intake, one list per field in arrival order. */
  datatype Received = Received(resume: seq<StoredFile>, coverLetter: seq<StoredFile>, additional: seq<StoredFile>)

  datatype UploadError =
    | UnexpectedField(field: string)  // MulterError LIMIT_UNEXPECTED_FILE
    | FileTooLarge                    // MulterError LIMIT_FILE_SIZE
    | TypeNotAllowed                  // the plain Error raised by the file filter
    | FieldValueTooLong(name: string) // MulterError LIMIT_FIELD_VALUE

  datatype IntakeResult =
    | Accepted(files: Received)
    | Rejected(error: UploadError, written: set<string>)

  /** Node's `path.extname` for a name without '/': the text from the last
      '.' on, except that a leading dot (".bashrc") or the name ".." has
      no extension. */
  function ExtName(name: BaseName): (e: string)
    ensures e == [] || (e[0] == '.' && '.' !in e[1..])
    ensures EndsWith(name, e)
  {
    var d := LastIndex(name, '.');
    if d <= 0 || name == ".." then []
    else
      assert name[d..][1..] == name[d + 1..];
      assert name[|name| - |name[d..]|..] == name[d..];
      name[d..]
  }

  /** The extension of a name is whatever follows its final dot. */
  lemma ExtNameOfDotted(stem: string, tail: string)
    requires stem != [] && tail != []
    requires WithoutDirectory(stem + "." + tail) && '.' !in tail
    ensures ExtName(stem + "." + tail) == "." + tail
  {
    var name := stem + "." + tail;
    assert name[|stem|] == '.';
    assert name[|stem| + 1..] == tail;
    assert LastIndex(name, '.') == |stem|;
  }

  /** A name whose only dot is its first character has no extension. */
  lemma DotFileHasNoExt(tail: string)
    requires WithoutDirectory("." + tail) && '.' !in tail
    ensures ExtName("." + tail) == []
  {
    var name := "." + tail;
    assert LastIndex(name, '.') == 0;
  }

  /** The unanchored pattern /pdf|doc|docx|txt|jpg|jpeg|png/: true when any
      alternative occurs anywhere in `s`. */
  predicate MatchesAllowedPattern(s: string)
  {
    || Contains(s, "pdf") || Contains(s, "doc") || Contains(s, "docx")
    || Contains(s, "txt") || Contains(s, "jpg") || Contains(s, "jpeg")
    || Contains(s, "png")
  }

  /** The `fileFilter` as written: the lower-cased extension and the
      declared MIME type must each match the unanchored pattern. */
  predicate FileFilter(p: Upload)
  {
    MatchesAllowedPattern(Lower(ExtName(p.originalName))) && MatchesAllowedPattern(p.mimeType)
  }

  const AllowedExtensions: seq<string> := [".pdf", ".doc", ".docx", ".txt", ".jpg", ".jpeg", ".png"]

  const AllowedMimeTypes: seq<string> := [
    "application/pdf",
    "application/msword",
    "application/vnd.openxmlformats-officedocument.wordprocessingml.document",
    "text/plain",
    "image/jpeg",
    "image/png"
  ]

  /** The filter the error message describes: the extension is exactly one
      of the listed ones and the MIME type is the registered type of one
      of those formats. */
  predicate IntendedFileFilter(p: Upload)
  {
    Lower(ExtName(p.originalName)) in AllowedExtensions && p.mimeType in AllowedMimeTypes
  }

  /** The "docx" alternative adds nothing: every text containing it
      already contains "doc". */
  lemma DocxAlternativeRedundant(s: string)
    requires Contains(s, "docx")
    ensures Contains(s, "doc")
  {
    var i :| OccursAt(s, "docx", i);
    assert s[i..i + 3] == s[i..i + 4][..3];
    assert OccursAt(s, "doc", i);
  }

  /** Text that holds none of the letters p, d, t, j cannot match the
      pattern, since every alternative starts with one of them. */
  lemma NoLeadLetterNoMatch(s: string)
    requires 'p' !in s && 'd' !in s && 't' !in s && 'j' !in s
    ensures !MatchesAllowedPattern(s)
  {
    if Contains(s, "pdf") { ContainsFirstChar(s, "pdf"); }
    if Contains(s, "doc") { ContainsFirstChar(s, "doc"); }
    if Contains(s, "docx") { ContainsFirstChar(s, "docx"); }
    if Contains(s, "txt") { ContainsFirstChar(s, "txt"); }
    if Contains(s, "jpg") { ContainsFirstChar(s, "jpg"); }
    if Contains(s, "jpeg") { ContainsFirstChar(s, "jpeg"); }
    if Contains(s, "png") { ContainsFirstChar(s, "png"); }
  }

  /** A file named `<anything>.exe`, in any letter case (".EXE",
      ".Exe"), is refused whatever MIME type it declares. */
  lemma ExeRejected(p: Upload, stem: string, tail: string)
    requires p.originalName == stem + "." + tail && Lower(tail) == "exe"
    ensures !FileFilter(p)
  {
    NoDotInExe(tail);
    if stem == [] {
      assert p.originalName == "." + tail;
      DotFileHasNoExt(tail);
      assert Lower(ExtName(p.originalName)) == [];
      NoLeadLetterNoMatch([]);
    } else {
      ExtNameOfDotted(stem, tail);
      LowerDotted(tail);
      DotExe();
      ExeNoMatch();
    }
  }

  /** Text that lower-cases to "exe" holds no dot. */
  lemma NoDotInExe(tail: string)
    requires Lower(tail) == "exe"
    ensures '.' !in tail
  {
  }

  lemma DotExe()
    ensures "." + "exe" == ".exe"
  {
  }

  lemma ExeNoMatch()
    ensures !MatchesAllowedPattern(".exe")
  {
    NoLeadLetterNoMatch(".exe");
  }

  /** A leading dot is invisible to the pattern, since no alternative
      starts with one. */
  lemma PatternIgnoresLeadingDot(s: string)
    ensures MatchesAllowedPattern("." + s) <==> MatchesAllowedPattern(s)
  {
    var pdf, doc, docx, txt, jpg, jpeg, png := "pdf", "doc", "docx", "txt", "jpg", "jpeg", "png";
    assert pdf[0] == 'p' && doc[0] == 'd' && docx[0] == 'd' && txt[0] == 't';
    assert jpg[0] == 'j' && jpeg[0] == 'j' && png[0] == 'p';
    ContainsAfterLead('.', s, pdf);
    ContainsAfterLead('.', s, doc);
    ContainsAfterLead('.', s, docx);
    ContainsAfterLead('.', s, txt);
    ContainsAfterLead('.', s, jpg);
    ContainsAfterLead('.', s, jpeg);
    ContainsAfterLead('.', s, png);
  }

  lemma LowerDotted(tail: string)
    ensures Lower("." + tail) == "." + Lower(tail)
  {
  }

  /** The extension half of the filter is a substring test: a name
      `<stem>.<tail>` passes exactly when the lower-cased `tail` contains
      an alternative anywhere, so ".pdfx" or ".mypng" pass as well. */
  lemma ExtensionTestIsUnanchored(p: Upload, stem: string, tail: string)
    requires stem != [] && tail != [] && '.' !in tail && p.originalName == stem + "." + tail
    ensures FileFilter(p) <==> MatchesAllowedPattern(Lower(tail)) && MatchesAllowedPattern(p.mimeType)
  {
    ExtNameOfDotted(stem, tail);
    LowerDotted(tail);
    PatternIgnoresLeadingDot(Lower(tail));
  }

  /** Any text with "doc" somewhere in it matches the pattern. */
  lemma DocInsideMatches(s: string, i: nat)
    requires i + 3 <= |s| && s[i] == 'd' && s[i + 1] == 'o' && s[i + 2] == 'c'
    ensures MatchesAllowedPattern(s)
  {
    assert s[i..i + 3] == "doc";
    assert OccursAt(s, "doc", i);
  }

  /** Text in which no alternative's first two letters stand side by side
      cannot match the pattern. */
  lemma NoLeadPairNoMatch(s: string)
    requires forall i :: 0 <= i < |s| - 1 ==>
      && !(s[i] == 'p' && s[i + 1] == 'd') && !(s[i] == 'd' && s[i + 1] == 'o')
      && !(s[i] == 't' && s[i + 1] == 'x') && !(s[i] == 'j' && s[i + 1] == 'p')
      && !(s[i] == 'p' && s[i + 1] == 'n')
    ensures !MatchesAllowedPattern(s)
  {
    var pdf, doc, docx, txt, jpg, jpeg, png := "pdf", "doc", "docx", "txt", "jpg", "jpeg", "png";
    assert pdf[0] == 'p' && pdf[1] == 'd';
    assert doc[0] == 'd' && doc[1] == 'o' && docx[0] == 'd' && docx[1] == 'o';
    assert txt[0] == 't' && txt[1] == 'x';
    assert jpg[0] == 'j' && jpg[1] == 'p' && jpeg[0] == 'j' && jpeg[1] == 'p';
    assert png[0] == 'p' && png[1] == 'n';
    NoLeadingPairNotContained(s, pdf);
    NoLeadingPairNotContained(s, doc);
    NoLeadingPairNotContained(s, docx);
    NoLeadingPairNotContained(s, txt);
    NoLeadingPairNotContained(s, jpg);
    NoLeadingPairNotContained(s, jpeg);
    NoLeadingPairNotContained(s, png);
  }

  /** As written, the MIME test refuses the registered types of two of the
      formats the message lists: "text/plain" (TXT) and
      "application/msword" (DOC), whatever the file is called. */
  lemma PlainTextAndWordMimeRejected(p: Upload)
    requires p.mimeType == "text/plain" || p.mimeType == "application/msword"
    ensures !FileFilter(p)
  {
    if p.mimeType == "text/plain" {
      PlainTextNoMatch();
    } else {
      MswordNoMatch();
    }
  }

  lemma PlainTextNoMatch()
    ensures !MatchesAllowedPattern("text/plain")
  {
    NoLeadPairNoMatch("text/plain");
  }

  lemma MswordNoMatch()
    ensures !MatchesAllowedPattern("application/msword")
  {
    NoLeadPairNoMatch("application/msword");
  }

  /** The corrected filter compares the whole extension, in any letter
      case, with the list, and the MIME type with the registered types. */
  lemma IntendedFilterIsExact(p: Upload, stem: string, tail: string)
    requires stem != [] && tail != [] && '.' !in tail && p.originalName == stem + "." + tail
    ensures IntendedFileFilter(p) <==> "." + Lower(tail) in AllowedExtensions && p.mimeType in AllowedMimeTypes
  {
    ExtNameOfDotted(stem, tail);
    LowerDotted(tail);
  }

  /** The corrected filter accepts a plain-text file, which the filter
      as written refuses. */
  lemma PlainTextAcceptedWhenCorrected(p: Upload, stem: string)
    requires stem != [] && p.originalName == stem + ".txt" && p.mimeType == "text/plain"
    ensures IntendedFileFilter(p)
  {
    TxtExtension(p.originalName, stem);
    TxtListed();
  }

  lemma TxtExtension(name: BaseName, stem: string)
    requires stem != [] && name == stem + ".txt"
    ensures Lower(ExtName(name)) == ".txt"
  {
    assert name == stem + "." + "txt";
    ExtNameOfDotted(stem, "txt");
    LowerTxt();
  }

  lemma LowerTxt()
    ensures Lower(".txt") == ".txt"
  {
    LowerOfLowercase(".txt");
  }

  lemma TxtListed()
    ensures ".txt" in AllowedExtensions && "text/plain" in AllowedMimeTypes
  {
    assert AllowedExtensions[3] == ".txt";
    assert AllowedMimeTypes[3] == "text/plain";
  }

  /** Which filter the server runs: the code as written, or the corrected one. */
  datatype FilterMode = AsWritten | Corrected

  predicate Admits(mode: FilterMode, p: Upload)
  {
    match mode
    case AsWritten => FileFilter(p)
    case Corrected => IntendedFileFilter(p)
  }

  /** A part the filter admits has a file name: an empty name, "." and
      ".." have no extension, and neither filter passes an empty one. */
  lemma AdmittedPartIsNamed(mode: FilterMode, p: Upload)
    requires Admits(mode, p)
    ensures Named(p)
  {
    NoExtensionNotAdmitted(mode, p);
  }

  lemma NoExtensionNotAdmitted(mode: FilterMode, p: Upload)
    ensures Unnamed(p.originalName) ==> ExtName(p.originalName) == []
    ensures ExtName(p.originalName) == [] ==> !Admits(mode, p)
  {
    assert Lower([]) == [];
  }

  /** The generated disk name: field name, clock, random number and the
      original extension, joined by dashes. */
  function StoredFilename(field: string, n: Nonce, originalName: BaseName): (r: string)
    ensures StartsWith(r, field + "-")
    ensures EndsWith(r, ExtName(originalName))
    ensures |r| > |field| + 1 && IsDigit(r[|field| + 1])
  {
    var millis := Decimal(n.millis);
    DashJoinShape(field, millis, Decimal(n.random), ExtName(originalName));
    (field + "-") + (millis + ("-" + (Decimal(n.random) + ExtName(originalName))))
  }

  /** Where the pieces of a dash-joined name sit. */
  lemma DashJoinShape(field: string, a: string, b: string, e: string)
    requires |a| >= 1
    ensures var r := (field + "-") + (a + ("-" + (b + e)));
            StartsWith(r, field + "-") && EndsWith(r, e) && |r| > |field| + 1 && r[|field| + 1] == a[0]
  {
    var r := (field + "-") + (a + ("-" + (b + e)));
    assert r[..|field| + 1] == field + "-";
    assert r[|r| - |e|..] == e;
  }

  function Store(p: Upload, n: Nonce): StoredFile
  {
    StoredFile(p.field, p.originalName, p.mimeType, p.size, UploadDir + StoredFilename(p.field, n, p.originalName))
  }

  predicate AllDigits(s: string)
  {
    forall i :: 0 <= i < |s| ==> IsDigit(s[i])
  }

  /** A run of digits followed by text that does not start with a digit
      splits in only one way. */
  lemma DigitRunUnique(x: string, y: string, x2: string, y2: string)
    requires AllDigits(x) && AllDigits(x2)
    requires y == [] || !IsDigit(y[0])
    requires y2 == [] || !IsDigit(y2[0])
    requires x + y == x2 + y2
    ensures x == x2 && y == y2
  {
    assert x == (x + y)[..|x|];
    assert x2 == (x2 + y2)[..|x2|];
    assert y == (x + y)[|x|..];
    assert y2 == (x2 + y2)[|x2|..];
  }

  /** The accepted field names already differ in their first character. */
  lemma KnownFieldsDifferAtStart(f1: string, f2: string)
    requires MaxCount(f1) > 0 && MaxCount(f2) > 0 && f1 != f2
    ensures |f1| > 0 && |f2| > 0 && f1[0] != f2[0]
  {
  }

  /** The disk name regrouped from the right. */
  lemma StoredFilenameParts(f: string, n: Nonce, o: BaseName)
    ensures StoredFilename(f, n, o)
         == (f + "-") + (Decimal(n.millis) + ("-" + (Decimal(n.random) + ExtName(o))))
  {
  }

  /** Under one field name, distinct nonces give distinct disk names. */
  lemma SameFieldDistinctNames(f: string, n1: Nonce, n2: Nonce, o1: BaseName, o2: BaseName)
    requires n1 != n2
    ensures StoredFilename(f, n1, o1) != StoredFilename(f, n2, o2)
  {
    var a, b, e1 := Decimal(n1.millis), Decimal(n1.random), ExtName(o1);
    var c, d, e2 := Decimal(n2.millis), Decimal(n2.random), ExtName(o2);
    var t1, t2 := "-" + (b + e1), "-" + (d + e2);
    var r1 := (f + "-") + (a + t1);
    var r2 := (f + "-") + (c + t2);
    StoredFilenameParts(f, n1, o1);
    StoredFilenameParts(f, n2, o2);
    if r1 == r2 {
      assert r1[|f| + 1..] == a + t1;
      assert r2[|f| + 1..] == c + t2;
      DigitRunUnique(a, t1, c, t2);
      assert t1[1..] == b + e1;
      assert t2[1..] == d + e2;
      DigitRunUnique(b, e1, d, e2);
      DecimalInjective(n1.millis, n2.millis);
      DecimalInjective(n1.random, n2.random);
    }
  }

  /** Two files stored under distinct nonces never share a disk name, for
      any of the accepted field names and any original names. */
  lemma StoredFilenamesDistinct(f1: string, f2: string, n1: Nonce, n2: Nonce, o1: BaseName, o2: BaseName)
    requires MaxCount(f1) > 0 && MaxCount(f2) > 0
    requires n1 != n2
    ensures StoredFilename(f1, n1, o1) != StoredFilename(f2, n2, o2)
  {
    if f1 != f2 {
      KnownFieldsDifferAtStart(f1, f2);
      var r1, r2 := StoredFilename(f1, n1, o1), StoredFilename(f2, n2, o2);
      assert r1[0] == (f1 + "-")[0];
      assert r2[0] == (f2 + "-")[0];
    } else {
      SameFieldDistinctNames(f1, n1, n2, o1, o2);
    }
  }

  /** How many files of a field the intake has already taken. */
  function Taken(g: Received, field: string): nat
  {
    if field == ResumeField then |g.resume|
    else if field == CoverLetterField then |g.coverLetter|
    else if field == AdditionalField then |g.additional|
    else 0
  }

  function Add(g: Received, f: StoredFile): Received
  {
    if f.field == ResumeField then g.(resume := g.resume + [f])
    else if f.field == CoverLetterField then g.(coverLetter := g.coverLetter + [f])
    else if f.field == AdditionalField then g.(additional := g.additional + [f])
    else g
  }

  function Paths(g: Received): set<string>
  {
    set f | f in g.resume + g.coverLetter + g.additional :: f.path
  }

  /** What the handler may rely on: at most one resume, one cover letter
      and three additional files, each filed under its own field and
      within the size limit. */
  predicate WithinCaps(g: Received)
  {
    && |g.resume| <= 1 && |g.coverLetter| <= 1 && |g.additional| <= 3
    && (forall f :: f in g.resume ==> f.field == ResumeField && f.size <= MaxFileSize)
    && (forall f :: f in g.coverLetter ==> f.field == CoverLetterField && f.size <= MaxFileSize)
    && (forall f :: f in g.additional ==> f.field == AdditionalField && f.size <= MaxFileSize)
  }

  /** One file part: the field cap is checked first, then the filter, then
      the size while the file is being written. A rejection reports the
      files written so far, the oversized one included. */
  function Step(mode: FilterMode, g: Received, p: Upload, n: Nonce): (r: IntakeResult)
    ensures r.Accepted? ==> PartOk(mode, p) && Taken(g, p.field) < MaxCount(p.field) && r.files == Add(g, Store(p, n))
    ensures r.Accepted? && WithinCaps(g) ==> WithinCaps(r.files)
    ensures Taken(g, p.field) >= MaxCount(p.field) ==> r == Rejected(UnexpectedField(p.field), Paths(g))
    ensures Taken(g, p.field) < MaxCount(p.field) && !Admits(mode, p) ==> r == Rejected(TypeNotAllowed, Paths(g))
    ensures Taken(g, p.field) < MaxCount(p.field) && Admits(mode, p) && p.size > MaxFileSize ==>
              r == Rejected(FileTooLarge, Paths(g) + {Store(p, n).path})
  {
    if Taken(g, p.field) >= MaxCount(p.field) then Rejected(UnexpectedField(p.field), Paths(g))
    else if !Admits(mode, p) then Rejected(TypeNotAllowed, Paths(g))
    else
      var f := Store(p, n);
      if p.size > MaxFileSize then Rejected(FileTooLarge, Paths(g) + {f.path})
      else Accepted(Add(g, f))
  }

  /** A stored file of a handled part, as a test for counting. */
  const NamedFile: StoredFile -> bool := (f: StoredFile) => !Unnamed(f.originalName)

  /** The whole intake over the file parts in arrival order; part `i` is
      stored under nonce `nonce(i)`. An unnamed part is skipped. */
  function Intake(mode: FilterMode, parts: seq<Upload>, nonce: nat -> Nonce): (r: IntakeResult)
    ensures r.Accepted? ==> WithinCaps(r.files)
    decreases |parts|
  {
    if parts == [] then Accepted(Received([], [], []))
    else
      var k := |parts| - 1;
      var prior := Intake(mode, parts[..k], nonce);
      if prior.Rejected? || !Named(parts[k]) then prior else Step(mode, prior.files, parts[k], nonce(k))
  }

  // ---- Reference description of what the intake accepts ----

  /** A part the middleware handles under `field`. */
  function PartIn(field: string): Upload -> bool
  {
    (p: Upload) => p.field == field && Named(p)
  }

  /** A stored file of a handled part under `field`. */
  function FileIn(field: string): StoredFile -> bool
  {
    (f: StoredFile) => f.field == field && !Unnamed(f.originalName)
  }

  /** A part that on its own passes every check. */
  predicate PartOk(mode: FilterMode, p: Upload)
  {
    MaxCount(p.field) > 0 && Admits(mode, p) && p.size <= MaxFileSize
  }

  /** Every handled part passes on its own and no field exceeds its cap. */
  predicate Admissible(mode: FilterMode, parts: seq<Upload>)
  {
    && (forall i :: 0 <= i < |parts| ==> Named(parts[i]) ==> PartOk(mode, parts[i]))
    && Count(PartIn(ResumeField), parts) <= 1
    && Count(PartIn(CoverLetterField), parts) <= 1
    && Count(PartIn(AdditionalField), parts) <= 3
  }

  /** Every part as it would be written to disk, in arrival order; the
      unnamed ones among them are never written. */
  function StoredAll(parts: seq<Upload>, nonce: nat -> Nonce): (r: seq<StoredFile>)
    ensures |r| == |parts|
  {
    MapIndexed(parts, (i: nat, p: Upload) => Store(p, nonce(i)))
  }

  lemma StoredAllAt(parts: seq<Upload>, nonce: nat -> Nonce, i: nat)
    requires i < |parts|
    ensures StoredAll(parts, nonce)[i] == Store(parts[i], nonce(i))
  {
  }

  /** The stored files of the handled parts split by field, each keeping
      arrival order. */
  function Sorted(parts: seq<Upload>, nonce: nat -> Nonce): Received
  {
    var all := StoredAll(parts, nonce);
    Received(Filter(FileIn(ResumeField), all), Filter(FileIn(CoverLetterField), all), Filter(FileIn(AdditionalField), all))
  }

  /** Storing a part keeps its field, so each field counts the same
      among the stored files as among the parts. */
  lemma CountStoredMatchesParts(parts: seq<Upload>, nonce: nat -> Nonce, field: string)
    ensures Count(FileIn(field), StoredAll(parts, nonce)) == Count(PartIn(field), parts)
  {
    var all := StoredAll(parts, nonce);
    forall i | 0 <= i < |parts|
      ensures FileIn(field)(all[i]) == PartIn(field)(parts[i])
    {
      StoredAllAt(parts, nonce, i);
    }
    CountPointwise(FileIn(field), all, PartIn(field), parts);
  }

  /** The stored files of handled parts are as many as the handled parts. */
  lemma CountNamedStored(parts: seq<Upload>, nonce: nat -> Nonce)
    ensures Count(NamedFile, StoredAll(parts, nonce)) == Count(NamedPart, parts)
  {
    var all := StoredAll(parts, nonce);
    forall i | 0 <= i < |parts|
      ensures NamedFile(all[i]) == NamedPart(parts[i])
    {
      StoredAllAt(parts, nonce, i);
    }
    CountPointwise(NamedFile, all, NamedPart, parts);
  }

  lemma StoredAllSnoc(parts: seq<Upload>, nonce: nat -> Nonce)
    requires parts != []
    ensures StoredAll(parts, nonce)
         == StoredAll(parts[..|parts| - 1], nonce) + [Store(parts[|parts| - 1], nonce(|parts| - 1))]
  {
    MapIndexedSnoc(parts, (i: nat, p: Upload) => Store(p, nonce(i)));
  }

  lemma CountSnoc(field: string, pre: seq<Upload>, p: Upload)
    ensures Count(PartIn(field), pre + [p]) == Count(PartIn(field), pre) + (if p.field == field && Named(p) then 1 else 0)
  {
    CountAppend(PartIn(field), pre, [p]);
    assert [p][1..] == [];
  }

  /** Admissibility of a request grows one part at a time. */
  lemma AdmissibleSnoc(mode: FilterMode, pre: seq<Upload>, p: Upload)
    ensures Admissible(mode, pre + [p])
        <==> Admissible(mode, pre) && (Named(p) ==> PartOk(mode, p) && Count(PartIn(p.field), pre) < MaxCount(p.field))
  {
    CountSnoc(ResumeField, pre, p);
    CountSnoc(CoverLetterField, pre, p);
    CountSnoc(AdditionalField, pre, p);
    AllOkSnoc(mode, pre, p);
  }

  lemma AllOkSnoc(mode: FilterMode, pre: seq<Upload>, p: Upload)
    ensures (forall i :: 0 <= i < |pre + [p]| ==> Named((pre + [p])[i]) ==> PartOk(mode, (pre + [p])[i]))
        <==> (forall i :: 0 <= i < |pre| ==> Named(pre[i]) ==> PartOk(mode, pre[i])) && (Named(p) ==> PartOk(mode, p))
  {
    var parts := pre + [p];
    assert parts[|pre|] == p;
    assert forall i :: 0 <= i < |pre| ==> parts[i] == pre[i];
  }

  /** For an accepted field, the stored files of that field are as many
      as the parts that named it. */
  lemma TakenOfSorted(pre: seq<Upload>, nonce: nat -> Nonce, field: string)
    requires MaxCount(field) > 0
    ensures Taken(Sorted(pre, nonce), field) == Count(PartIn(field), pre)
  {
    CountStoredMatchesParts(pre, nonce, field);
  }

  lemma SortedSnoc(parts: seq<Upload>, nonce: nat -> Nonce)
    requires parts != [] && MaxCount(parts[|parts| - 1].field) > 0 && Named(parts[|parts| - 1])
    ensures Sorted(parts, nonce)
         == Add(Sorted(parts[..|parts| - 1], nonce), Store(parts[|parts| - 1], nonce(|parts| - 1)))
  {
    var k := |parts| - 1;
    var f := Store(parts[k], nonce(k));
    StoredAllSnoc(parts, nonce);
    FilterSnoc(FileIn(ResumeField), StoredAll(parts[..k], nonce), f);
    FilterSnoc(FileIn(CoverLetterField), StoredAll(parts[..k], nonce), f);
    FilterSnoc(FileIn(AdditionalField), StoredAll(parts[..k], nonce), f);
  }

  /** An unnamed last part adds nothing to the grouped files. */
  lemma SortedSnocUnnamed(parts: seq<Upload>, nonce: nat -> Nonce)
    requires parts != [] && !Named(parts[|parts| - 1])
    ensures Sorted(parts, nonce) == Sorted(parts[..|parts| - 1], nonce)
  {
    var k := |parts| - 1;
    var f := Store(parts[k], nonce(k));
    StoredAllSnoc(parts, nonce);
    FilterSnoc(FileIn(ResumeField), StoredAll(parts[..k], nonce), f);
    FilterSnoc(FileIn(CoverLetterField), StoredAll(parts[..k], nonce), f);
    FilterSnoc(FileIn(AdditionalField), StoredAll(parts[..k], nonce), f);
  }

  lemma StepAccepts(mode: FilterMode, g: Received, p: Upload, n: Nonce)
    ensures Step(mode, g, p, n).Accepted? <==> PartOk(mode, p) && Taken(g, p.field) < MaxCount(p.field)
  {
  }

  /** The intake accepts exactly the admissible requests, and then hands
      the handler every file, grouped by field, in arrival order. */
  lemma {:induction false} IntakeCharacterized(mode: FilterMode, parts: seq<Upload>, nonce: nat -> Nonce)
    ensures Intake(mode, parts, nonce).Accepted? <==> Admissible(mode, parts)
    ensures Intake(mode, parts, nonce).Accepted? ==> Intake(mode, parts, nonce).files == Sorted(parts, nonce)
    decreases |parts|
  {
    if parts != [] {
      var k := |parts| - 1;
      var pre, p := parts[..k], parts[k];
      assert parts == pre + [p];
      IntakeCharacterized(mode, pre, nonce);
      AdmissibleSnoc(mode, pre, p);
      var prior := Intake(mode, pre, nonce);
      assert Intake(mode, parts, nonce) == if prior.Rejected? || !Named(p) then prior else Step(mode, prior.files, p, nonce(k));
      if prior.Accepted? && !Named(p) {
        SortedSnocUnnamed(parts, nonce);
      } else if prior.Accepted? {
        StepAccepts(mode, prior.files, p, nonce(k));
        if MaxCount(p.field) > 0 {
          TakenOfSorted(pre, nonce, p.field);
          SortedSnoc(parts, nonce);
        }
      }
    }
  }

  /** A single part that passes on its own is admissible and fills one
      place of its field. */
  lemma SingleAdmissible(mode: FilterMode, p: Upload)
    requires PartOk(mode, p)
    ensures Admissible(mode, [p]) && Count(PartIn(p.field), [p]) == 1
  {
    AdmittedPartIsNamed(mode, p);
    AdmissibleEmpty(mode);
    AdmissibleSnoc(mode, [], p);
    assert [] + [p] == [p];
    CountSnoc(p.field, [], p);
  }

  /** The files of a lone resume: just its own stored file. */
  lemma SortedOfOne(resume: Upload, nonce: nat -> Nonce)
    requires resume.field == ResumeField && Named(resume)
    ensures Paths(Sorted([resume], nonce)) == {Store(resume, nonce(0)).path}
  {
    var f := Store(resume, nonce(0));
    StoredAllAt([resume], nonce, 0);
    assert StoredAll([resume], nonce) == [f];
    assert FileIn(ResumeField)(f) && !FileIn(CoverLetterField)(f) && !FileIn(AdditionalField)(f);
    assert Sorted([resume], nonce).resume == [f];
    assert Sorted([resume], nonce).coverLetter == [] && Sorted([resume], nonce).additional == [];
  }

  /** A valid resume followed by an empty file input: only the resume is
      handled, and the two are admissible. */
  lemma EmptyInputSkipped(mode: FilterMode, resume: Upload, empty: Upload)
    requires PartOk(mode, resume) && resume.field == ResumeField && empty.originalName == ""
    ensures Admissible(mode, [resume, empty])
    ensures Count(PartIn(ResumeField), [resume, empty]) == 1 && Count(NamedPart, [resume, empty]) == 1
    ensures Named(resume) && !Named(empty)
  {
    AdmittedPartIsNamed(mode, resume);
    AdmissibleEmpty(mode);
    AdmissibleSnoc(mode, [], resume);
    assert [] + [resume] == [resume];
    AdmissibleSnoc(mode, [resume], empty);
    assert [resume] + [empty] == [resume, empty];
    CountSnoc(ResumeField, [], resume);
    CountSnoc(ResumeField, [resume], empty);
    assert Count(NamedPart, [empty]) == 0;
  }

  /** The error multer raises for part `p` after the parts `pre`: the
      field cap first, then the filter, else the size. */
  function FirstError(mode: FilterMode, pre: seq<Upload>, p: Upload): UploadError
  {
    if Count(PartIn(p.field), pre) >= MaxCount(p.field) then UnexpectedField(p.field)
    else if !Admits(mode, p) then TypeNotAllowed
    else FileTooLarge
  }

  /** What each kind of failing part is rejected with. */
  lemma OverCapError(mode: FilterMode, pre: seq<Upload>, p: Upload)
    requires Count(PartIn(p.field), pre) >= MaxCount(p.field)
    ensures FirstError(mode, pre, p) == UnexpectedField(p.field)
  {
  }

  lemma RefusedError(mode: FilterMode, pre: seq<Upload>, p: Upload)
    requires Count(PartIn(p.field), pre) < MaxCount(p.field) && !Admits(mode, p)
    ensures !PartOk(mode, p) && FirstError(mode, pre, p) == TypeNotAllowed
  {
  }

  /** A part the filter refuses, within its cap and after admissible
      parts, rejects the request with the filter's error and reports
      only the files written before it. */
  lemma IntakeRefusesPart(mode: FilterMode, parts: seq<Upload>, nonce: nat -> Nonce, k: nat)
    requires k < |parts| && Admissible(mode, parts[..k]) && Named(parts[k])
    requires Count(PartIn(parts[k].field), parts[..k]) < MaxCount(parts[k].field) && !Admits(mode, parts[k])
    ensures Intake(mode, parts, nonce) == Rejected(TypeNotAllowed, Paths(Sorted(parts[..k], nonce)))
  {
    RefusedError(mode, parts[..k], parts[k]);
    FirstFailureAt(mode, parts, k);
    IntakeRejectsBeforePart(mode, parts, nonce, k, TypeNotAllowed);
  }

  /** A part that is over its cap, refused by the filter or too large
      makes the prefix it ends inadmissible. */
  lemma FirstFailureAt(mode: FilterMode, parts: seq<Upload>, k: nat)
    requires k < |parts| && Named(parts[k])
    requires !(PartOk(mode, parts[k]) && Count(PartIn(parts[k].field), parts[..k]) < MaxCount(parts[k].field))
    ensures !Admissible(mode, parts[..k + 1])
  {
    assert parts[..k + 1] == parts[..k] + [parts[k]];
    AdmissibleSnoc(mode, parts[..k], parts[k]);
  }

  /** A first failure other than an oversized part reports only the files
      written before it. */
  lemma IntakeRejectsBeforePart(mode: FilterMode, parts: seq<Upload>, nonce: nat -> Nonce, k: nat, e: UploadError)
    requires k < |parts| && Admissible(mode, parts[..k]) && !Admissible(mode, parts[..k + 1])
    requires FirstError(mode, parts[..k], parts[k]) == e && !e.FileTooLarge?
    ensures Intake(mode, parts, nonce) == Rejected(e, Paths(Sorted(parts[..k], nonce)))
  {
    IntakeRejectsAtFirstFailure(mode, parts, nonce, k);
  }

  lemma OversizedError(mode: FilterMode, pre: seq<Upload>, p: Upload)
    requires Count(PartIn(p.field), pre) < MaxCount(p.field) && Admits(mode, p) && p.size > MaxFileSize
    ensures !PartOk(mode, p) && FirstError(mode, pre, p) == FileTooLarge
  {
  }

  /** A rejected request is rejected at the first part that makes the
      prefix inadmissible, with that part's error, and reports the files
      written up to it (the part itself only when it was too large). */
  lemma IntakeRejectsAtFirstFailure(mode: FilterMode, parts: seq<Upload>, nonce: nat -> Nonce, k: nat)
    requires k < |parts| && Admissible(mode, parts[..k]) && !Admissible(mode, parts[..k + 1])
    ensures Intake(mode, parts, nonce).Rejected?
    ensures Intake(mode, parts, nonce).error == FirstError(mode, parts[..k], parts[k])
    ensures Intake(mode, parts, nonce).written
         == Paths(Sorted(parts[..k], nonce))
          + (if FirstError(mode, parts[..k], parts[k]).FileTooLarge? then {Store(parts[k], nonce(k)).path} else {})
  {
    BrokenAt(mode, parts, k);
    StepRejectsWithFirstError(mode, parts[..k], parts[k], nonce, nonce(k));
    PrefixStep(mode, parts, nonce, k);
    IntakeKeepsRejection(mode, parts, nonce, k + 1);
  }

  /** The part that makes an admissible prefix inadmissible fails a check
      or finds its field full. */
  lemma BrokenAt(mode: FilterMode, parts: seq<Upload>, k: nat)
    requires k < |parts| && Admissible(mode, parts[..k]) && !Admissible(mode, parts[..k + 1])
    ensures Named(parts[k])
    ensures !(PartOk(mode, parts[k]) && Count(PartIn(parts[k].field), parts[..k]) < MaxCount(parts[k].field))
  {
    assert parts[..k + 1] == parts[..k] + [parts[k]];
    AdmissibleSnoc(mode, parts[..k], parts[k]);
  }

  /** An admissible prefix is accepted, so the next part meets the grouped
      files of the prefix. */
  lemma PrefixStep(mode: FilterMode, parts: seq<Upload>, nonce: nat -> Nonce, k: nat)
    requires k < |parts| && Admissible(mode, parts[..k]) && Named(parts[k])
    ensures Intake(mode, parts[..k + 1], nonce) == Step(mode, Sorted(parts[..k], nonce), parts[k], nonce(k))
  {
    var q := parts[..k + 1];
    assert q[..k] == parts[..k] && q[k] == parts[k];
    IntakeCharacterized(mode, parts[..k], nonce);
    assert Intake(mode, q, nonce) == Step(mode, Intake(mode, parts[..k], nonce).files, parts[k], nonce(k));
  }

  /** A part that breaks admissibility is refused with its first error. */
  lemma StepRejectsWithFirstError(mode: FilterMode, pre: seq<Upload>, p: Upload, nonce: nat -> Nonce, n: Nonce)
    requires Named(p)
    requires !(PartOk(mode, p) && Count(PartIn(p.field), pre) < MaxCount(p.field))
    ensures Step(mode, Sorted(pre, nonce), p, n)
         == Rejected(FirstError(mode, pre, p),
                     Paths(Sorted(pre, nonce)) + (if FirstError(mode, pre, p).FileTooLarge? then {Store(p, n).path} else {}))
  {
    if MaxCount(p.field) > 0 {
      TakenOfSorted(pre, nonce, p.field);
    }
  }

  /** Once a prefix is rejected, the whole request is rejected the same way. */
  lemma {:induction false} IntakeKeepsRejection(mode: FilterMode, parts: seq<Upload>, nonce: nat -> Nonce, j: nat)
    requires j <= |parts| && Intake(mode, parts[..j], nonce).Rejected?
    ensures Intake(mode, parts, nonce) == Intake(mode, parts[..j], nonce)
    decreases |parts| - j
  {
    if j < |parts| {
      var pre := parts[..|parts| - 1];
      assert pre[..j] == parts[..j];
      IntakeKeepsRejection(mode, pre, nonce, j);
    } else {
      assert parts[..j] == parts;
    }
  }

  /** An inadmissible request has a first part that breaks admissibility. */
  lemma FirstFailureExists(mode: FilterMode, parts: seq<Upload>)
    requires !Admissible(mode, parts)
    ensures exists k :: 0 <= k < |parts| && Admissible(mode, parts[..k]) && !Admissible(mode, parts[..k + 1])
  {
    AdmissibleEmpty(mode);
    var ok := (s: seq<Upload>) => Admissible(mode, s);
    var k := FirstFailingPrefix(ok, parts);
    assert Admissible(mode, parts[..k]) && !Admissible(mode, parts[..k + 1]);
  }

  lemma AdmissibleEmpty(mode: FilterMode)
    ensures Admissible(mode, [])
  {
  }

  /** A rejected request leaves on disk only what was there before, minus
      every file it wrote; an accepted one adds exactly its files. */
  function AfterIntake(disk: set<string>, r: IntakeResult): (d: set<string>)
    ensures r.Rejected? ==> d <= disk && disk - r.written <= d && d !! r.written
    ensures r.Accepted? ==> disk <= d && d - disk <= Paths(r.files) && Paths(r.files) <= d
  {
    match r
    case Accepted(g) => disk + Paths(g)
    case Rejected(_, written) => disk - written
  }

  // ---- The whole multipart body ----

  /** The parser's default cap on a text field's value: 1 MiB. The
      server's `limits` sets only the file size, so this default holds. */
  const MaxFieldValue: nat := 1024 * 1024

  /** One part of the multipart body, in arrival order: a text field or a file. */
  datatype BodyPart = TextPart(name: string, value: string) | FilePart(file: Upload)

  /** A text field whose value is cut short by the parser, which multer
      turns into an abort. */
  predicate TooLong(b: BodyPart)
  {
    b.TextPart? && Utf8Length(b.value) > MaxFieldValue
  }

  /** The file parts of a body, in arrival order. */
  function FilesOf(body: seq<BodyPart>): (r: seq<Upload>)
    ensures |r| <= |body|
    ensures forall p :: p in r <==> FilePart(p) in body
    decreases |body|
  {
    if body == [] then []
    else
      var rest := FilesOf(body[1..]);
      assert forall b :: b in body[1..] ==> b in body;
      assert forall b :: b in body ==> b == body[0] || b in body[1..];
      if body[0].FilePart? then [body[0].file] + rest else rest
  }

  /** The index of the first over-long text field, if any. */
  function FirstTooLong(body: seq<BodyPart>): (r: Option<nat>)
    ensures r.None? <==> forall i :: 0 <= i < |body| ==> !TooLong(body[i])
    ensures r.Some? ==> r.value < |body| && TooLong(body[r.value])
    ensures r.Some? ==> forall i :: 0 <= i < r.value ==> !TooLong(body[i])
    decreases |body|
  {
    if body == [] then None
    else if TooLong(body[0]) then Some(0)
    else
      match FirstTooLong(body[1..])
      case None => None
      case Some(k) => Some(k + 1)
  }

  /** The intake over a whole body. The file parts go through `Intake` in
      order; the first over-long text field aborts the request with
      LIMIT_FIELD_VALUE, unless a file part before it failed first. On
      that abort the files written before the field are removed. */
  function BodyIntake(mode: FilterMode, body: seq<BodyPart>, nonce: nat -> Nonce): (r: IntakeResult)
    ensures FirstTooLong(body).None? ==> r == Intake(mode, FilesOf(body), nonce)
    ensures FirstTooLong(body).Some? ==> r.Rejected?
  {
    match FirstTooLong(body)
    case None => Intake(mode, FilesOf(body), nonce)
    case Some(k) =>
      match Intake(mode, FilesOf(body[..k]), nonce)
      case Rejected(e, written) => Rejected(e, written)
      case Accepted(g) => Rejected(FieldValueTooLong(body[k].name), Paths(g))
  }

  /** An over-long text field after file parts that pass is refused with
      LIMIT_FIELD_VALUE, reporting exactly the files of those parts. */
  lemma LongFieldRejected(mode: FilterMode, body: seq<BodyPart>, nonce: nat -> Nonce, k: nat)
    requires FirstTooLong(body) == Some(k) && Admissible(mode, FilesOf(body[..k]))
    ensures BodyIntake(mode, body, nonce) == Rejected(FieldValueTooLong(body[k].name), Paths(Sorted(FilesOf(body[..k]), nonce)))
  {
    IntakeCharacterized(mode, FilesOf(body[..k]), nonce);
  }

  /** A file part that fails before the first over-long text field decides
      the rejection: the outcome is the file intake's own. */
  lemma FileFailureBeforeLongField(mode: FilterMode, body: seq<BodyPart>, nonce: nat -> Nonce, k: nat)
    requires FirstTooLong(body) == Some(k) && !Admissible(mode, FilesOf(body[..k]))
    ensures BodyIntake(mode, body, nonce) == Intake(mode, FilesOf(body[..k]), nonce)
  {
    IntakeCharacterized(mode, FilesOf(body[..k]), nonce);
  }

  /** A body is accepted exactly when no text field is over-long and its
      file parts are admissible; it then hands over the grouped files. */
  lemma BodyIntakeCharacterized(mode: FilterMode, body: seq<BodyPart>, nonce: nat -> Nonce)
    ensures BodyIntake(mode, body, nonce).Accepted?
        <==> (forall i :: 0 <= i < |body| ==> !TooLong(body[i])) && Admissible(mode, FilesOf(body))
    ensures BodyIntake(mode, body, nonce).Accepted? ==> BodyIntake(mode, body, nonce).files == Sorted(FilesOf(body), nonce)
  {
    IntakeCharacterized(mode, FilesOf(body), nonce);
  }
}
